=== FILE: README.md ===
# minglee matchmaking core in Dafny

minglee is an anonymous one-to-one text and video chat. A socket.io server keeps a
waiting queue, a room registry and a per-user history of recent partners. It pairs
waiting users by shared interests, relays chat messages, typing notices and WebRTC
signals between the two members of a room, and tears rooms down on "next" or on
disconnect. A second copy of the same coordinator exists as the `MatchmakingService`
class, with a different candidate policy and a smaller history. On the client, one
hook negotiates the peer connection and buffers ICE candidates. Another hook drives
the chat session and the typing indicator over a small reducer store. The landing
page edits the interest list, and the admin page formats room ages.

The model is functional. Each handler is one atomic transition from a state to a new
state plus the sequence of events it emits. The JavaScript `Map`s and `Set`s iterate
in insertion order, so they become sequences:

- the queue is a sequence of entries keyed by socket id, updated in place;
- a history is a duplicate-free sequence of user ids.

Fresh room ids, user ids, message ids, clock readings and rate-limiter verdicts are
parameters.

Modules, one per concept:

- `Basics`: option type, non-empty ids, small sequence helpers.
- `Protocol`: the wire events and the signal types.
- `Text`: lower-casing, trimming, the three-pass HTML escape and the message sanitiser.
- `Queue`: the insertion-ordered queue.
- `History`: partner histories with FIFO eviction.
- `Registry`: rooms and the socket-to-room map.
- `Selection`: the candidate scans that both matchers use.
- `Pairing`: committing a match.
- `Server`: the server's `findMatch` and its socket handlers.
- `Service`: the library class.
- `Engines`: how the two matchers relate.
- `WebRtc`: candidate buffering, status mapping, start and cleanup.
- `ChatStore`: the client store.
- `Session`: the chat hook.
- `Interests`: the interest editor.
- `Duration`: the admin page's duration display.

## Model

| member | source | states |
|---|---|---|
| Selection.Shared | server/index.js:74 | The shared-interest count of a candidate never exceeds the requester's own interest count. |
| Selection.ScanIsFirstBest | server/index.js:67-81 | The left-to-right scan with a running best and a strict `>` returns the earliest candidate of maximal score above the starting bound, or none when nothing beats the bound. |
| Selection.BestOf | lib/matchmaking/index.ts:28-43 | The scan's answer meets the declarative first-best specification. |
| Selection.FirstBestUnique | server/index.js:77-80 | Only one index can be the first best, so any two procedures meeting the specification pick the same candidate. |
| Selection.FirstWhere | lib/matchmaking/index.ts:58-62 | The first-match loop with `break` returns the earliest index passing the test, and none passes before it; `None` means none passes at all. |
| Queue.IndexOf | server/index.js:204 | `indexOf` on the keys: -1 exactly when the socket is absent, otherwise the earliest position holding it. |
| Queue.Get | server/index.js:62 | `queue.get` is present exactly when the socket is queued, and returns that socket's entry. |
| Queue.Put | server/index.js:176 | `queue.set` replaces an existing entry in place and keeps its position, or appends a new key at the end; keys stay unique; no other entry changes. |
| Queue.Remove | server/index.js:216 | `queue.delete` leaves every other entry and removes the socket; a missing key changes nothing. |
| Queue.RemoveKeepsUnique | server/index.js:216 | Deleting a key keeps the remaining keys distinct, so the queue stays a map keyed by socket id. |
| Queue.RemoveSplices | server/index.js:94-95 | Deleting a present key cuts out exactly its entry and keeps the other entries in order. |
| Queue.RemoveSize | server/index.js:94-95 | Deleting shrinks the queue size by one when the socket was queued, otherwise not at all. |
| Queue.Keys | server/index.js:204 | `Array.from(queue.keys())` lists the socket ids in queue order and holds exactly the queued sockets. |
| Queue.IdIndex | server/index.js:204 | `indexOf` on the key array: -1 exactly when the id is absent, otherwise the first position holding it. |
| Queue.KeysIndex | server/index.js:204 | Looking a socket up in the key array gives the position of its entry in the queue, so the server's waiting position is the entry's 1-based place. |
| History.AddTo | server/index.js:57-58 | `set.add` puts the id in the set; an id already present keeps its place; ids stay distinct. |
| History.Evict | server/index.js:54-55 | A history at the cap loses its oldest id; a shorter one is untouched, and so are other users. |
| History.Ensure | server/index.js:48-49 | A missing user gets an empty history; existing histories are untouched. |
| History.Record | server/index.js:47-59 | `recordPairing` registers both users, records each in the other's history, touches no third user, and keeps every history at most cap long and duplicate-free. |
| History.RecordDistinctUsers | server/index.js:47-59 | For two different users, each history is evicted at the cap and then receives the other user, independently of the other history. |
| History.BumpFifo | server/index.js:54-57 | At the cap the oldest id is dropped and the new id goes last, and the size stays at the cap; below the cap the id is appended. |
| History.BumpRepeatKeepsPosition | server/index.js:57 | Re-adding a partner already in a history below the cap changes nothing. |
| Registry.Other | server/index.js:117-121 | For a member of a two-person room, the result is the other member; for a non-member it is the first user, since there is no membership check. |
| Registry.GetPartner | server/index.js:117-121 | A result exists exactly when the room exists; for a member of a consistent registry it is the other member. |
| Registry.Open | server/index.js:96-98 | The room is stored under its id and both members map to it; the key sets grow by exactly those entries; every other room and every other socket's entry keep their values. |
| Registry.LeaveRoom | server/index.js:103-115 | Null and no change exactly when the socket has no live room. Otherwise it returns the other member (the first user for a non-member), removes exactly that room and both members' entries, and keeps every other room and entry as it was. |
| Registry.LeaveRoomCount | server/index.js:103-115 | In a consistent registry, leaving deletes one room for a socket that has one and none otherwise. |
| Registry.LeaveRoomUnknown | server/index.js:103-105 | A socket without a room entry gets null and the registry is unchanged. |
| Registry.LeaveRoomInRoom | server/index.js:103-115 | For a socket in a consistent registry, `leaveRoom` returns the other member, deletes the room and exactly the two members' entries, and keeps the registry consistent. |
| Registry.LeaveRoomIdempotent | server/index.js:103-115 | A second `leaveRoom` for the same socket returns null and changes nothing, from any registry. |
| Registry.LeaveRoomPaired | lib/matchmaking/index.ts:89-103 | Leaving keeps every remaining room's members mapped to it. |
| Registry.OpenPreserves | server/index.js:96-98 | Opening a fresh room for two distinct sockets keeps the registry consistent; if neither socket was in a room, both directions stay paired. |
| Registry.OpenOverRoom | server/index.js:176-179 | A queued socket that still has a room can be matched again: its old room stays registered with it as a member, while its entry moves to the new room. |
| Pairing.Commit | server/index.js:85-100 | A successful match is the queue's delete of both sockets, so every other entry keeps its order. The registry is `Open` of the room `[requester, partner]`, so other rooms and entries keep their values. The histories are `recordPairing` applied to the existing ones: FIFO at the cap, no third user touched, and each user in the other's history. |
| Pairing.CommitPreservesWf | server/index.js:85-100 | Committing keeps queue keys unique, the registry consistent and every history bounded. |
| Pairing.CommitSizes | lib/matchmaking/index.ts:78-84 | The queue shrinks by two and the room count grows by one. |
| Server.Pick | server/index.js:67-81 | The selected candidate is never the requester and has the highest score `shared - (previous ? 100 : 0)`; earlier candidates score strictly less. Nothing is selected only when the requester is alone. With at most ten interests, a non-history candidate always beats a history one. |
| Server.FindMatch | server/index.js:61-101 | No match and no change when the requester is not queued or no other socket is queued; otherwise the match exists, the partner is the selected candidate, and the state is the commit. |
| Server.Matched | server/index.js:85-98 | When the requester and another socket are queued a match succeeds; the partner was queued and is not the requester, the room is `[requester, partner]` with the given id and time, neither socket stays queued, and the registry gains exactly that room. |
| Server.NormalizeInterests | server/index.js:164-166 | At most ten interests, each lower-cased, trimmed and non-empty; a missing array gives none; a string is kept exactly when it is the non-empty normal form of one of the first ten items. |
| Server.NormalizedMembers | server/index.js:164-165 | Both directions of the membership: the normalised list holds exactly the non-empty normal forms of the first ten items. |
| Server.JoinKeepsDuplicates | server/index.js:165 | Repeated interests are not de-duplicated. |
| Server.DropEmpty | server/index.js:165 | `.filter(Boolean)` keeps exactly the non-empty strings. |
| Server.Join | server/index.js:162-213 | The caller hears first, stats are broadcast last, the connected-user map is unchanged, and the caller hears `queue:waiting` exactly when it is still queued, `match:found` exactly when it is not. |
| Server.Announce | server/index.js:181-205 | The caller hears `queue:waiting` exactly when there is no match, at the 1-based position of its entry, and `match:found` exactly when there is one. |
| Server.JoinWaiting | server/index.js:169-206 | When no other socket is queued the caller waits alone in the queue with its new entry. It is told position 1, because any other queued socket would have been matched. The emitted events are exactly that waiting notice and the stats; rooms and history do not change. |
| Server.JoinMatched | server/index.js:181-195 | When another socket is queued the join always matches: the partner was queued and is not the caller. Both hear `match:found` with the room id; only the caller is the initiator; each gets the other's user id. The room is registered with both sockets mapped to it. |
| Server.StatsOf | server/index.js:123-130 | Online counts connected sockets, waiting counts queue entries, chatting counts two per room, so it is even. |
| Server.JoinMatchedStats | server/index.js:162-213 | A join that finds a partner leaves online unchanged, raises chatting by two, and lowers waiting by two if the caller was queued already or by one otherwise. |
| Server.FindMatchSizes | server/index.js:85-98 | A server match takes two entries off the queue and adds one room. |
| Server.DropStats | server/index.js:337-351 | A disconnect lowers online by one for a connected socket, waiting by one for a queued socket, and chatting by two for a socket in a room. |
| Server.AcceptStats | server/index.js:143-157 | An accepted connection raises online by one for a new socket and moves nothing else. |
| Server.JoinKeepsOldRoom | server/index.js:162-179 | Joining does not leave the caller's current room: that room stays registered with the caller as a member, and while still queued the caller's entry still points to it. |
| Server.Leave | server/index.js:215-218 | `queue:leave` is the queue's delete of the caller; the rooms, histories and connected users are unchanged, and stats are broadcast. |
| Server.SendMessage | server/index.js:221-256 | Rate-limited senders get `RATE_LIMIT`, non-members `NOT_IN_ROOM`; an empty sanitised message is dropped; otherwise only the other member receives the sanitised text. The state never changes. |
| Server.Typing | server/index.js:259-279 | A typing notice goes to the other member exactly when the sender is a member of the named room; the state never changes. |
| Server.RelaySignal | server/index.js:282-299 | A signal is forwarded, unmodified, to the other member exactly when its type is offer, answer or ice-candidate and the sender is a member; otherwise nothing is emitted. |
| Server.Next | server/index.js:302-315 | `chat:next` leaves the room; the former partner is told with no room id, since the entry was already deleted; stats follow. |
| Server.LeaveChat | server/index.js:317-334 | A non-member changes nothing and hears nothing. A member leaves, the other member is told with the given room id, and stats follow. |
| Server.DropSocket | server/index.js:337-351 | Disconnect is the queue's delete of the socket, then `leaveRoom`, then forgetting the socket; histories are kept. The partner is told with no room id. |
| Server.Accept | server/index.js:143-157 | A rejected connection gets `RATE_LIMIT` and is closed, with no state change; an accepted one is recorded and stats are broadcast. |
| Server.HandleDispatches | server/index.js:143-351 | Each input reaches the handler registered for its event: the connection handler, `queue:join`, `queue:leave`, `message:send`, `typing:start` with flag true, `typing:stop` with flag false, `signal:send`, `chat:next`, `chat:disconnect` and `disconnect`. |
| Server.HandleOutputOnly | server/index.js:143-299 | Messages, typing notices, signals and a refused connection never change the state; typing start and stop reach only the partner of a member, each with its own flag. |
| Server.HandlePreservesWf | server/index.js:29-33 | Every handler keeps the invariant: unique queue keys, a consistent registry, histories of at most 15 distinct ids, and at most ten interests per queued entry. |
| Server.JoinPreservesWf | server/index.js:162-213 | `queue:join` keeps that invariant when the drawn room id is fresh. |
| Server.FindMatchPreservesWf | server/index.js:61-101 | Matching keeps that invariant. |
| Server.LeavePreservesConsistent | server/index.js:103-115 | `leaveRoom` keeps the registry consistent. |
| Service.AddToQueue | lib/matchmaking/index.ts:11-15 | The caller first leaves its room, so afterwards it maps to no room; the queue is `queue.set` of the caller, so other entries keep their places; histories are unchanged. |
| Service.RemoveFromQueue | lib/matchmaking/index.ts:17-19 | The queue is the delete of the socket, so the socket is gone and every other entry keeps its order; registry and histories are unchanged. |
| Service.FirstPass | lib/matchmaking/index.ts:27-43 | The first pass skips self and previous partners. It returns the earliest candidate with the most shared interests, where zero shared interests still counts, or nothing when there is no fresh candidate. |
| Service.Pick | lib/matchmaking/index.ts:27-63 | Never the requester; nothing only when alone; with a fresh candidate, the first pass's choice; otherwise the first other queued socket in queue order. |
| Service.SecondPassNeverSucceeds | lib/matchmaking/index.ts:45-54 | The second pass cannot find anyone after an empty first pass. |
| Service.FindMatch | lib/matchmaking/index.ts:21-87 | No match and no change when the requester is not queued or is alone; otherwise the picked partner and the commit with a history cap of 10. |
| Service.LeaveCurrentRoom | lib/matchmaking/index.ts:89-103 | Same as the server's `leaveRoom`; afterwards the socket maps to no room, and a socket that was in a room gets its partner back. |
| Service.LeaveCurrentRoomIdempotent | lib/matchmaking/index.ts:89-103 | The partner is returned once; the second call returns null and changes nothing. |
| Service.GetRoomBySocketId | lib/matchmaking/index.ts:105-109 | The socket's live room, which holds it, or null. |
| Service.GetRoomById | lib/matchmaking/index.ts:111-113 | The room stored under that id, or null. |
| Service.GetPartnerSocketId | lib/matchmaking/index.ts:115-119 | The other member of an existing room, or null for an unknown room. |
| Service.OnDisconnect | lib/matchmaking/index.ts:121-126 | `wasInQueue` is membership before the call; the queue is the delete of the socket and the registry is `leaveCurrentRoom`'s, so the socket is neither queued nor in a room; the partner is `leaveCurrentRoom`'s. |
| Service.GetStats | lib/matchmaking/index.ts:128-134 | `chatting = 2 * rooms`, `waiting = queue size`, `online = waiting + chatting`. |
| Service.MatchConservesOnline | lib/matchmaking/index.ts:128-134 | When the requester and another user are queued, a match moves two users from waiting to chatting and leaves `online` unchanged. |
| Service.GetQueuePosition | lib/matchmaking/index.ts:136-143 | 1-based position of the socket in queue order, or -1 exactly when it is not queued. |
| Service.AddToQueuePreservesWf | lib/matchmaking/index.ts:11-15 | The library invariant survives: unique keys, consistent and paired registry, histories of at most 10 distinct ids, and no queued socket in a room. |
| Service.RemoveFromQueuePreservesWf | lib/matchmaking/index.ts:17-19 | The library invariant survives removal. |
| Service.LeaveCurrentRoomPreservesWf | lib/matchmaking/index.ts:89-103 | The library invariant survives leaving. |
| Service.OnDisconnectPreservesWf | lib/matchmaking/index.ts:121-126 | The library invariant survives a disconnect. |
| Service.FindMatchPreservesWf | lib/matchmaking/index.ts:21-87 | The library invariant survives matching. |
| Engines.AgreeWhenFreshCandidate | server/index.js:73-81 | With at most ten interests and some queued candidate that is not a previous partner, the server and the library pick the same partner. |
| Engines.DifferOnlyInFallback | lib/matchmaking/index.ts:56-63 | When every other candidate is a previous partner, the server picks the one with the most shared interests while the library picks the first in queue order. |
| Engines.DisagreeExample | lib/matchmaking/index.ts:56-63 | A concrete queue where that fallback makes the two engines pick different partners. |
| Text.Lower | server/index.js:165 | Lower-casing keeps the length and maps each character on its own. |
| Text.Trim | server/index.js:138 | The result is the input with exactly its leading and trailing whitespace removed, and has none at either end. |
| Text.Normalize | server/index.js:165 | The normal form is trimmed and has no upper-case letter. |
| Text.NormalizeIdempotent | server/index.js:165 | Normalising twice is normalising once. |
| Text.ReplaceAll | server/index.js:135-137 | Every character of a global replacement comes from the replacement or is a kept, non-matching input character. |
| Text.ReplaceAllAppend | server/index.js:135-137 | A global replacement distributes over concatenation. |
| Text.EscapePassesLt | server/index.js:135-137 | Because `&` is escaped last, `<` ends up as `&amp;lt;`. |
| Text.EscapePassesGt | server/index.js:135-137 | Likewise `>` ends up as `&amp;gt;`. |
| Text.EscapePassesIsEscaped | server/index.js:135-137 | The three passes equal an independent character-by-character escaping. |
| Text.Sanitize | server/index.js:132-140 | A non-string gives `''`. A string gives the per-character escape, trimmed and cut to 2000 characters. The result never holds `<` or `>`. |
| WebRtc.StartCall | hooks/useWebRTC.ts:136-160 | Nothing without a socket and room. Otherwise status becomes connecting, a fresh peer replaces any old one (which is closed), and a remote stream is set up; no other field changes. The effects are exactly the connecting report and the close, then the initiator's `offer` or, if the offer fails, a failed report; a non-initiator emits nothing. |
| WebRtc.StartCallEffects | hooks/useWebRTC.ts:136-160 | A started call reports connecting first, closes the old connection exactly when there was one, and emits nothing but the initiator's own offer. |
| WebRtc.Flush | hooks/useWebRTC.ts:172-176 | Every buffered candidate is applied once, in arrival order, after those already applied. |
| WebRtc.ReceiveOffer | hooks/useWebRTC.ts:167-168 | An offer raises the applying flag; without a peer, socket or room nothing changes. |
| WebRtc.OfferApplied | hooks/useWebRTC.ts:169-185 | After the offer is applied, the flag drops, the buffer is flushed in order and emptied, and then exactly one `answer` is emitted. A failed apply changes nothing. |
| WebRtc.ReceiveAnswer | hooks/useWebRTC.ts:186-193 | An applied answer sets the remote description and flushes the buffer in order; only the peer and the buffer change. |
| WebRtc.ReceiveCandidate | hooks/useWebRTC.ts:194-200 | A candidate is applied at once when the remote description is set and no offer is being applied; otherwise it goes to the end of the buffer. |
| WebRtc.HandleSignal | hooks/useWebRTC.ts:162-205 | No peer, socket or room, or an unknown type, changes nothing. An offer raises the applying flag and touches neither the buffer nor the applied log. An applied answer sets the remote description and empties the buffer into the log. A candidate on a settled connection is delivered after everything before it, and is applied directly exactly when the description is set and no offer is applying. |
| WebRtc.HandleSignalIsStep | hooks/useWebRTC.ts:162-205 | Each handled signal is exactly the negotiation step of its type, so the in-order delivery of `WebRtc.RunDeliversInOrder` covers the signals `handleSignal` receives. |
| WebRtc.LocalCandidate | hooks/useWebRTC.ts:102-110 | A local candidate is sent as one `ice-candidate` signal exactly when there is a candidate, a socket and a room. |
| WebRtc.RunDeliversInOrder | hooks/useWebRTC.ts:162-205 | Over any run of signal steps, every arriving candidate is delivered exactly once and in arrival order. |
| WebRtc.ApplyDelivers | hooks/useWebRTC.ts:162-205 | One step adds to the delivered log exactly the candidate it carries, if any. |
| WebRtc.RunKeepsSettled | hooks/useWebRTC.ts:162-205 | Candidates are buffered only while no remote description is set or an offer is being applied. |
| WebRtc.SettledAcrossCalls | hooks/useWebRTC.ts:136-238 | That buffering invariant holds initially, after cleanup, and across `startCall`. |
| WebRtc.FailedOfferLeavesFlagUp | hooks/useWebRTC.ts:167-204 | A failed offer apply leaves the applying flag raised. Later answers then never make candidates go straight through, and neither `cleanup` nor `startCall` lowers it. |
| WebRtc.OnConnectionState | hooks/useWebRTC.ts:113-125 | connecting, connected, failed, disconnected and closed map to connecting, connected, failed, reconnecting and idle. Only failed restarts ICE. A new state changes nothing. |
| WebRtc.OnIceState | hooks/useWebRTC.ts:127-131 | An ICE-level failure restarts ICE; nothing else does anything. |
| WebRtc.GetLocalMedia | hooks/useWebRTC.ts:50-73 | A granted stream becomes the local stream, sets media available and clears the error. A refusal clears media availability, keeps any earlier stream, and picks the permission, missing-device or generic message by error name. Nothing but the stream, media flag and error changes. |
| WebRtc.ToggleVideo | hooks/useWebRTC.ts:207-214 | With a local stream the video flag flips; without one nothing changes. |
| WebRtc.ToggleAudio | hooks/useWebRTC.ts:216-223 | With a local stream the audio flag flips; without one nothing changes. |
| WebRtc.ToggleTwice | hooks/useWebRTC.ts:207-223 | Toggling twice restores the state, and each toggle leaves the other flag alone. |
| WebRtc.Cleanup | hooks/useWebRTC.ts:225-238 | From any state: no peer, no streams, an empty buffer and status idle. The peer is closed only if it existed and tracks are stopped only if a stream existed. |
| WebRtc.CleanupIdempotent | hooks/useWebRTC.ts:225-238 | A second cleanup changes nothing and only reports status idle. |
| ChatStore.SetUserStatus | lib/store/chatStore.ts:59 | Sets the user status and nothing else. |
| ChatStore.SetConnectionStatus | lib/store/chatStore.ts:60 | Sets the connection status and nothing else. |
| ChatStore.SetTheme | lib/store/chatStore.ts:61 | Sets the theme and nothing else. |
| ChatStore.SetRoom | lib/store/chatStore.ts:63-64 | Sets the room; an omitted initiator flag means false; nothing else changes. |
| ChatStore.AddMessage | lib/store/chatStore.ts:66-72 | Appends exactly one message with the given fields and a fresh id, and keeps earlier messages. |
| ChatStore.AddSystemMessage | lib/store/chatStore.ts:74-86 | Appends one system-type message from the system sender with the given text. |
| ChatStore.ClearMessages | lib/store/chatStore.ts:88 | Leaves an empty transcript and nothing else changed. |
| ChatStore.SetTyping | lib/store/chatStore.ts:90 | Sets the partner-typing flag and nothing else. |
| ChatStore.SetStats | lib/store/chatStore.ts:92-93 | Copies the three counters and changes nothing else. |
| ChatStore.SetInterests | lib/store/chatStore.ts:95 | Replaces the interest list and nothing else. |
| ChatStore.Reset | lib/store/chatStore.ts:97-101 | Every field returns to the initial state except the theme and the interests, which keep their values. |
| ChatStore.ResetForgets | lib/store/chatStore.ts:42-101 | Resetting is idempotent, and two stores with the same preferences reset to the same store. |
| Session.NotifyTyping | hooks/useChat.ts:153-170 | Without a socket or room nothing happens. Otherwise the flag is set and the timer re-armed, and `typing:start` is emitted only on the false-to-true change. |
| Session.TimerFires | hooks/useChat.ts:164-169 | The timer emits `typing:stop` only when the flag is still set, then clears the flag. |
| Session.SendMessage | hooks/useChat.ts:126-151 | Blank content or no room is ignored. Otherwise `typing:stop` comes first if typing, then one `me` message with trimmed content and status sent is appended, and `message:send` carries the same trimmed text; only the transcript and the typing flag change, so the socket, peer link and timer stay. |
| Session.StartChat | hooks/useChat.ts:119-124 | With a socket: status waiting, then `queue:join` with the stored interests. |
| Session.NextChat | hooks/useChat.ts:172-180 | Cleanup, then `chat:next` before `queue:join`. The store is reset with status waiting, keeping interests and theme, with no room and an empty transcript; the socket, typing flag and timer are unchanged. |
| Session.Disconnect | hooks/useChat.ts:182-197 | `chat:disconnect` with the room when there is one, otherwise `queue:leave`; then a reset store with status idle and the timer cleared; the socket and typing flag are unchanged. |
| Session.OnMatchFound | hooks/useChat.ts:61-66 | Room and initiator set, status connected, and a transcript of exactly one greeting system message; no other store field and nothing outside the store changes. |
| Session.OnStrangerDisconnected | hooks/useChat.ts:95-101 | One system notice appended, the peer cleaned up, no room, status idle and typing false; the cleanup's idle report also sets the store's connection status to idle. Counters, theme and interests stay, and the socket, typing flag and pending timer are untouched. |
| Session.ForwardStatus | hooks/useWebRTC.ts:45-48 | Each status the peer link reports is written to the store, so the last report wins and nothing else in the store changes. |
| Session.StrangerLeftSilences | hooks/useChat.ts:95-101 | After the stranger leaves there is no room, so keystrokes and sends emit nothing and change nothing. |
| Session.MatchOpensChat | hooks/useChat.ts:61-66 | After a match, with a socket, the first keystroke emits `typing:start` for the new room and a non-blank send ends with `message:send` to it. |
| Session.OnQueueWaiting | hooks/useChat.ts:74-76 | Only the status changes, to waiting. |
| Session.OnMessageReceive | hooks/useChat.ts:79-87 | Appends one delivered text message from the stranger; nothing else in the store or the session changes. |
| Session.OnTypingUpdate | hooks/useChat.ts:90-92 | Only the partner-typing flag changes, in the store and in the whole session. |
| Session.OnStats | hooks/useChat.ts:52-54 | The three counters are copied; nothing else in the store or the session changes. |
| Session.OnError | hooks/useChat.ts:55-57 | Appends a system message reading `Error: ` and the server's text; nothing else changes. |
| Session.OnConnectError | hooks/useChat.ts:48-51 | Only the status changes, to idle, in the store and in the whole session. |
| Session.TypingSignalsAppend | hooks/useChat.ts:158-168 | The typing signals of two event runs concatenate. |
| Session.ActFlipsOrKeeps | hooks/useChat.ts:126-170 | Every user action emits either no typing signal or one that flips the flag. |
| Session.TypingAlternates | hooks/useChat.ts:131-168 | Over any sequence of keystrokes, timer fires and sends, the emitted `typing:start`/`typing:stop` signals alternate, starting from the current flag, and the final flag is the last signal. |
| Interests.AddInterest | app/page.tsx:19-24 | Stores the lower-cased, trimmed form at the end, unless it is empty, already present, or ten tags exist, in which case the list is unchanged. |
| Interests.FilterOut | app/page.tsx:27 | Keeps exactly the elements not excluded, and keeps them distinct. |
| Interests.RemoveInterest | app/page.tsx:26-28 | The tag is gone and every other tag stays. |
| Interests.Suggestions | app/page.tsx:265 | Exactly the first eight open suggestions, or all of them when fewer remain, each from the fixed list, not already chosen, and none repeated. |
| Interests.SuggestionsDistinct | app/page.tsx:8-12 | The fixed suggestion list names each tag once. |
| Interests.FilterOutKeepsOrder | app/page.tsx:27 | Filtering keeps the remaining elements in their order. |
| Interests.RemoveKeepsOrder | app/page.tsx:26-28 | Removal keeps the other tags in order. |
| Interests.SuggestionsInOrder | app/page.tsx:265 | Suggestions follow the fixed list's order, and when at most eight remain open all of them are shown. |
| Interests.AddPreserves | app/page.tsx:19-24 | Adding keeps the list at most ten long, duplicate-free and in normal form. |
| Interests.RemovePreserves | app/page.tsx:26-28 | Removing keeps the list at most ten long, duplicate-free and in normal form. |
| Interests.AddTwice | app/page.tsx:19-24 | Adding the same input twice is adding it once. |
| Interests.RemoveUndoesAdd | app/page.tsx:19-28 | Removing the normal form undoes a successful add. |
| Duration.FormatDuration | app/admin/page.tsx:59-66 | The shown value brackets the input to within the smallest unit shown. Hours and minutes appear exactly from one hour, minutes and seconds from one minute to one hour, seconds only below a minute. The minor component is below 60. |

## Left out

- Transport: socket.io, express, CORS, the `/health` and `/admin/rooms` endpoints, the socket-room joins and leaves, and `lib/socket/client.ts`. Emitted events are an output sequence, and socket presence on the client is a flag.
- Rate limiting: the `RateLimiterMemory` internals. Each limiter's verdict is a boolean input to the handler.
- Fresh values: `uuidv4`, `Date.now` and `Math.random` produce the ids, timestamps and message ids. These are parameters; room-id freshness is a precondition where an invariant needs it.
- The `QUEUE_ERROR` catch in `queue:join` and the other `try`/`catch` blocks around pure code. Nothing in the modelled code throws.
- Logging through `console.*`.
- Concurrency: the handlers are atomic transitions. In `handleSignal` only the offer's `setRemoteDescription` is split, into a begin step and a completion step. Every other `await` is taken to complete at once. That includes each `addIceCandidate` in the two flush loops.
- WebRtc.RunDeliversInOrder: in-order delivery holds because each flush is one atomic step. In the source the flush loops await every `addIceCandidate` (hooks/useWebRTC.ts:173-175 and 190-192). A candidate arriving during such an await finds the remote description set and the flag down, so it is applied at once (hooks/useWebRTC.ts:196-197), ahead of the rest of the buffer. The source can therefore apply candidates out of arrival order.
- WebRtc.OfferApplied: the completion step reads the current peer and options. The source carries on with the connection, socket and room it captured when the offer arrived (hooks/useWebRTC.ts:163-164), so a cleanup or a new call between the two steps is not followed faithfully.
- `addIceCandidate` failures in the middle of a flush are not modelled; each flush is all or nothing.
- Browser media and `RTCPeerConnection`: the ICE server configuration, track handling and remote streams are out. A peer is a remote-description flag plus a log of applied candidates. Media access is its outcome.
- The media and call kick-off after `match:found` (hooks/useChat.ts:68-70) is out. It passes arguments that `startCall` ignores, so `WebRtc.StartCall` is modelled by its own options.
- Session.OnMatchFound: the peer state is left unchanged instead of running `getLocalMedia` and `startCall`.
- Text.Lower: lower-cases ASCII letters only; JavaScript's full Unicode case mapping is not modelled, because it is a large table outside this code.
- Text.Sanitize: the 2000 limit counts characters, not UTF-16 code units.
- Server.NormalizeInterests: items are taken to be strings already, so the `String(i)` conversion of other values is not modelled.
- Duration.FormatDuration: returns the components, not the rendered text such as `"3h 5m"`.
- Authentication, profile storage and every rendered component: Firebase and UI code.

=== FILE: basics.dfy ===
/** Vocabulary shared by every part of the model. */
module Basics {

  datatype Option<+T> = None | Some(value: T)

  /** Socket, user, room and message identifiers. socket.io ids and uuids are never
      empty, so every JavaScript truthiness test the program makes on an id reduces to
      "is it present". */
  type Id = s: string | |s| > 0 witness "id"

  /** An insertion-ordered JavaScript `Set` is a sequence without repetitions. */
  predicate NoDup<T(==)>(s: seq<T>) {
    forall i, j :: 0 <= i < j < |s| ==> s[i] != s[j]
  }

  /** `Map.prototype.get`, with `undefined` as `None`. */
  function Lookup<K, V>(m: map<K, V>, k: K): (r: Option<V>)
    ensures r.Some? <==> k in m
    ensures r.Some? ==> r.value == m[k]
  {
    if k in m then Some(m[k]) else None
  }

  /** `Array.prototype.slice(0, n)`. */
  function Take<T>(s: seq<T>, n: nat): (r: seq<T>)
    ensures |r| <= n && |r| <= |s|
    ensures |s| <= n ==> r == s
    ensures |s| > n ==> |r| == n
    ensures forall i :: 0 <= i < |r| ==> r[i] == s[i]
  {
    if |s| <= n then s else s[..n]
  }
}

=== FILE: duration.dfy ===
/** The admin page's room-age display (app/admin/page.tsx): milliseconds to the two
    largest non-zero units among hours, minutes and seconds. */
module Duration {

  /** What `formatDuration` shows: `"<h>h <m>m"`, `"<m>m <s>s"` or `"<s>s"`. */
  datatype Shown = HoursMinutes(hours: int, minutes: int)
                 | MinutesSeconds(minutes: int, seconds: int)
                 | Seconds(seconds: int)

  const MS_PER_SECOND := 1000
  const MS_PER_MINUTE := 60 * MS_PER_SECOND
  const MS_PER_HOUR := 60 * MS_PER_MINUTE

  /** The first millisecond the shown value stands for. */
  function Start(d: Shown): int {
    match d
    case HoursMinutes(h, m) => h * MS_PER_HOUR + m * MS_PER_MINUTE
    case MinutesSeconds(m, s) => m * MS_PER_MINUTE + s * MS_PER_SECOND
    case Seconds(s) => s * MS_PER_SECOND
  }

  /** The span of one unit of the smallest component shown. */
  function Resolution(d: Shown): int {
    match d
    case HoursMinutes(_, _) => MS_PER_MINUTE
    case MinutesSeconds(_, _) => MS_PER_SECOND
    case Seconds(_) => MS_PER_SECOND
  }

  /** `formatDuration(ms)`. `Math.floor` of a quotient by a positive divisor is Dafny's
      division; the JavaScript `%` (which truncates) is applied only to positive operands,
      where it agrees with Dafny's. A negative age shows as negative seconds. */
  function FormatDuration(ms: int): (r: Shown)
    ensures Start(r) <= ms < Start(r) + Resolution(r)
    ensures r.HoursMinutes? <==> ms >= MS_PER_HOUR
    ensures r.MinutesSeconds? <==> MS_PER_MINUTE <= ms < MS_PER_HOUR
    ensures r.Seconds? <==> ms < MS_PER_MINUTE
    ensures r.HoursMinutes? ==> r.hours >= 1 && 0 <= r.minutes < 60
    ensures r.MinutesSeconds? ==> 1 <= r.minutes < 60 && 0 <= r.seconds < 60
    ensures r.Seconds? && ms >= 0 ==> 0 <= r.seconds < 60
  {
    var s := ms / 1000;
    var m := s / 60;
    var h := m / 60;
    if h > 0 then HoursMinutes(h, m % 60)
    else if m > 0 then MinutesSeconds(m, s % 60)
    else Seconds(s)
  }
}

=== FILE: engines.dfy ===
/** How the two matchmaking engines relate. The server scores a previous partner 100
    below anyone else (server/index.js:73-81); the library skips previous partners in its
    first pass (lib/matchmaking/index.ts:31-43). Since the server keeps at most ten
    interests (server/index.js:165), a shared count never reaches 100, so both engines
    pick the same candidate whenever someone outside the history is waiting. They differ
    only when everyone else is a previous partner: the server takes the one sharing most
    interests, the library the first in queue order (lib/matchmaking/index.ts:57-63). */
module Engines {
  import opened Basics
  import opened Queue
  import opened Selection
  import opened Pairing
  import Server
  import Service

  /** With at most ten interests and someone outside the history waiting, the engines
      choose the same queue position. */
  lemma AgreeWhenFreshCandidate(q: seq<QueuedUser>, sid: Id, user: QueuedUser, prev: seq<Id>)
    requires |user.interests| <= Server.MAX_INTERESTS
    requires Service.HasFresh(q, sid, prev)
    ensures Server.Pick(q, sid, user, prev) == Service.Pick(q, sid, user, prev)
  {
    var k := Server.Pick(q, sid, user, prev).value;
    var skip := Service.SkipSelfOrPrevious(sid, prev);
    var score := Service.SharedFn(user);
    assert q[k].userId !in prev;
    assert FirstBest(q, skip, score, Finite(-1), Some(k)) by {
      forall j | 0 <= j < |q| && !skip(q[j]) ensures score(q[j]) <= score(q[k]) {
        assert Server.Score(user, prev, q[j]) <= Server.Score(user, prev, q[k]);
      }
      forall j | 0 <= j < k && !skip(q[j]) ensures score(q[j]) < score(q[k]) {
        assert Server.Score(user, prev, q[j]) < Server.Score(user, prev, q[k]);
      }
    }
    FirstBestUnique(q, skip, score, Finite(-1), Some(k), Service.FirstPass(q, sid, user, prev));
  }

  /** With nobody outside the history, the server still ranks by shared interests (the
      penalty is the same for everyone), while the library takes the first other socket. */
  lemma DifferOnlyInFallback(q: seq<QueuedUser>, sid: Id, user: QueuedUser, prev: seq<Id>)
    requires !Service.HasFresh(q, sid, prev)
    ensures Server.Pick(q, sid, user, prev) == BestOf(q, IsSelf(sid), Service.SharedFn(user), NegInfinity)
    ensures Service.Pick(q, sid, user, prev) == FirstWhere(q, Service.NotSelf(sid), 0)
  {
    var r := Server.Pick(q, sid, user, prev);
    var skip := IsSelf(sid);
    var score := Service.SharedFn(user);
    assert FirstBest(q, skip, score, NegInfinity, r) by {
      if r.Some? {
        var k := r.value;
        forall j | 0 <= j < |q| && !skip(q[j]) ensures score(q[j]) <= score(q[k]) {
          assert Server.Score(user, prev, q[j]) <= Server.Score(user, prev, q[k]);
        }
        forall j | 0 <= j < k && !skip(q[j]) ensures score(q[j]) < score(q[k]) {
          assert Server.Score(user, prev, q[j]) < Server.Score(user, prev, q[k]);
        }
      }
    }
    FirstBestUnique(q, skip, score, NegInfinity, r, BestOf(q, skip, score, NegInfinity));
    var l := Service.Pick(q, sid, user, prev);
    var f := FirstWhere(q, Service.NotSelf(sid), 0);
    if l.Some? {
      assert f.Some? && f.value <= l.value;
    }
  }

  /** A concrete queue where the engines disagree: both waiting users are previous
      partners, the second shares an interest. The server picks the second, the library
      the first. */
  lemma DisagreeExample()
    ensures var user := QueuedUser("me", "u0", ["music"], 0);
            var q := [user, QueuedUser("a", "u1", [], 1), QueuedUser("b", "u2", ["music"], 2)];
            var prev := ["u1", "u2"];
            && Server.Pick(q, "me", user, prev) == Some(2)
            && Service.Pick(q, "me", user, prev) == Some(1)
  {
    var user := QueuedUser("me", "u0", ["music"], 0);
    var a := QueuedUser("a", "u1", [], 1);
    var b := QueuedUser("b", "u2", ["music"], 2);
    var q := [user, a, b];
    var prev := ["u1", "u2"];
    assert Shared(user.interests, a.interests) == 0;
    assert Shared(user.interests, b.interests) == 1;
    assert Server.Score(user, prev, a) < Server.Score(user, prev, b);
    assert !Service.HasFresh(q, "me", prev);
    assert FirstWhere(q, Service.NotSelf("me"), 0) == Some(1);
  }
}

=== FILE: history.dfy ===
/** Partner history: per user id, an insertion-ordered `Set` of the user ids it was paired
    with, capped with first-in-first-out eviction (server/index.js:47-59 with cap 15,
    lib/matchmaking/index.ts:145-168 with cap 10). */
module History {
  import opened Basics

  type Histories = map<Id, seq<Id>>

  const SERVER_CAP: nat := 15
  const LIBRARY_CAP: nat := 10

  /** `userPairHistory.get(uid) || new Set()`. */
  function Of(h: Histories, uid: Id): seq<Id> {
    if uid in h then h[uid] else []
  }

  /** Every history is a set of at most `cap` ids. */
  predicate Bounded(h: Histories, cap: nat) {
    forall u :: u in h ==> |h[u]| <= cap && NoDup(h[u])
  }

  /** `set.add(x)`: an id already present keeps its place. */
  function AddTo(xs: seq<Id>, x: Id): (r: seq<Id>)
    ensures x in r
    ensures forall y :: y in r <==> y in xs || y == x
    ensures NoDup(xs) ==> NoDup(r)
    ensures |r| <= |xs| + 1
    ensures x in xs ==> r == xs
  {
    if x in xs then xs else xs + [x]
  }

  /** The eviction step `if (h.size >= cap) h.delete(h.values().next().value)`. */
  function Evict(h: Histories, uid: Id, cap: nat): (r: Histories)
    requires uid in h && cap > 0
    ensures r.Keys == h.Keys
    ensures forall u :: u in h && u != uid ==> r[u] == h[u]
    ensures |h[uid]| >= cap ==> r[uid] == h[uid][1..]
    ensures |h[uid]| < cap ==> r[uid] == h[uid]
  {
    if |h[uid]| >= cap then h[uid := h[uid][1..]] else h
  }

  /** `h.get(uid).add(other)`. */
  function Add(h: Histories, uid: Id, other: Id): (r: Histories)
    requires uid in h
    ensures r.Keys == h.Keys
    ensures forall u :: u in h && u != uid ==> r[u] == h[u]
    ensures r[uid] == AddTo(h[uid], other)
  {
    h[uid := AddTo(h[uid], other)]
  }

  /** `if (!h.has(uid)) h.set(uid, new Set())`. */
  function Ensure(h: Histories, uid: Id): (r: Histories)
    ensures r.Keys == h.Keys + {uid}
    ensures forall u :: u in h ==> r[u] == h[u]
    ensures r[uid] == Of(h, uid)
  {
    if uid in h then h else h[uid := []]
  }

  lemma EnsureBounded(h: Histories, uid: Id, cap: nat)
    requires Bounded(h, cap)
    ensures Bounded(Ensure(h, uid), cap)
  {
  }

  /** The two eviction steps of `recordPairing`, first for `u1`, then for `u2`. */
  function EvictBoth(h: Histories, u1: Id, u2: Id, cap: nat): (r: Histories)
    requires u1 in h && u2 in h && cap > 0
    ensures r.Keys == h.Keys
    ensures forall u :: u in h && u != u1 && u != u2 ==> r[u] == h[u]
    ensures Bounded(h, cap) ==> Bounded(r, cap) && |r[u1]| < cap && |r[u2]| < cap
    ensures u1 != u2 ==> r[u1] == (if |h[u1]| >= cap then h[u1][1..] else h[u1])
    ensures u1 != u2 ==> r[u2] == (if |h[u2]| >= cap then h[u2][1..] else h[u2])
  {
    var h1 := Evict(h, u1, cap);
    var r := Evict(h1, u2, cap);
    assert Bounded(h, cap) ==> Bounded(r, cap) && |r[u1]| < cap && |r[u2]| < cap by {
      if Bounded(h, cap) {
        EvictBounded(h, u1, cap);
        EvictBounded(h1, u2, cap);
      }
    }
    r
  }

  /** The two additions of `recordPairing`: `u2` to `u1`'s history, then `u1` to `u2`'s. */
  function AddBoth(h: Histories, u1: Id, u2: Id, cap: nat): (r: Histories)
    requires u1 in h && u2 in h
    ensures r.Keys == h.Keys
    ensures u2 in r[u1] && u1 in r[u2]
    ensures forall u :: u in h && u != u1 && u != u2 ==> r[u] == h[u]
    ensures Bounded(h, cap) && |h[u1]| < cap && |h[u2]| < cap ==> Bounded(r, cap)
    ensures u1 != u2 ==> r[u1] == AddTo(h[u1], u2) && r[u2] == AddTo(h[u2], u1)
  {
    var h1 := Add(h, u1, u2);
    var r := Add(h1, u2, u1);
    assert u2 in r[u1] by {
      if u1 != u2 {
        assert r[u1] == h1[u1];
      }
    }
    assert Bounded(h, cap) && |h[u1]| < cap && |h[u2]| < cap ==> Bounded(r, cap) by {
      if Bounded(h, cap) && |h[u1]| < cap && |h[u2]| < cap {
        AddBounded(h, u1, u2, cap);
        AddBounded(h1, u2, u1, cap);
      }
    }
    r
  }

  /** `recordPairing(u1, u2)` step by step: create missing entries, evict from both
      histories, then add in both directions. Each step reads the map as the previous step
      left it, which also models the aliasing when `u1 == u2`. */
  function Record(h: Histories, u1: Id, u2: Id, cap: nat): (r: Histories)
    requires cap > 0
    ensures r.Keys == h.Keys + {u1, u2}
    ensures u2 in r[u1] && u1 in r[u2]
    ensures forall u :: u in h && u != u1 && u != u2 ==> r[u] == h[u]
    ensures Bounded(h, cap) ==> Bounded(r, cap)
  {
    var h1 := Ensure(Ensure(h, u1), u2);
    assert h1.Keys == h.Keys + {u1, u2};
    assert Bounded(h, cap) ==> Bounded(h1, cap) by {
      if Bounded(h, cap) {
        EnsureBounded(h, u1, cap);
        EnsureBounded(Ensure(h, u1), u2, cap);
      }
    }
    AddBoth(EvictBoth(h1, u1, u2, cap), u1, u2, cap)
  }

  lemma EvictBounded(h: Histories, uid: Id, cap: nat)
    requires uid in h && cap > 0 && Bounded(h, cap)
    ensures Bounded(Evict(h, uid, cap), cap) && |Evict(h, uid, cap)[uid]| < cap
  {
  }

  lemma AddBounded(h: Histories, uid: Id, other: Id, cap: nat)
    requires uid in h && Bounded(h, cap) && (|h[uid]| < cap || other in h[uid])
    ensures Bounded(Add(h, uid, other), cap)
  {
  }

  /** What one direction of `recordPairing` does to one history when the two users differ. */
  function Bump(xs: seq<Id>, other: Id, cap: nat): seq<Id>
    requires cap > 0
  {
    AddTo(if |xs| >= cap then xs[1..] else xs, other)
  }

  /** For two different users, recording a pairing bumps each user's history once. */
  lemma RecordDistinctUsers(h: Histories, u1: Id, u2: Id, cap: nat)
    requires cap > 0 && u1 != u2
    ensures Record(h, u1, u2, cap)[u1] == Bump(Of(h, u1), u2, cap)
    ensures Record(h, u1, u2, cap)[u2] == Bump(Of(h, u2), u1, cap)
  {
    var h1 := Ensure(Ensure(h, u1), u2);
    EnsureBoth(h, u1, u2);
    assert Record(h, u1, u2, cap) == AddBoth(EvictBoth(h1, u1, u2, cap), u1, u2, cap);
  }

  lemma EnsureBoth(h: Histories, u1: Id, u2: Id)
    ensures var h1 := Ensure(Ensure(h, u1), u2);
            u1 in h1 && u2 in h1 && h1[u1] == Of(h, u1) && h1[u2] == Of(h, u2)
  {
  }

  /** FIFO: at capacity, the oldest partner goes and the new one is appended last. Below
      capacity, nothing goes. */
  lemma BumpFifo(xs: seq<Id>, other: Id, cap: nat)
    requires cap > 0 && NoDup(xs) && |xs| <= cap && other !in xs
    ensures |xs| == cap ==> Bump(xs, other, cap) == xs[1..] + [other]
    ensures |xs| == cap ==> xs[0] !in Bump(xs, other, cap)
    ensures |xs| < cap ==> Bump(xs, other, cap) == xs + [other]
    ensures |Bump(xs, other, cap)| == if |xs| == cap then cap else |xs| + 1
  {
    if |xs| == cap {
      assert xs == [xs[0]] + xs[1..];
      assert xs[0] !in xs[1..];
    }
  }

  /** Pairing again with a partner still in the history does not refresh its position:
      a JavaScript `Set` keeps an existing element where it is. */
  lemma BumpRepeatKeepsPosition(xs: seq<Id>, other: Id, cap: nat)
    requires cap > 0 && |xs| < cap && other in xs
    ensures Bump(xs, other, cap) == xs
  {
  }
}

=== FILE: interests.dfy ===
/** The interest-tag editor on the landing page (app/page.tsx): adding a tag, removing one,
    and the row of suggestions. Tags are kept in insertion order. */
module Interests {
  import opened Basics
  import opened Text

  const MAX_TAGS: nat := 10
  const MAX_SUGGESTIONS: nat := 8

  /** `INTEREST_SUGGESTIONS`. */
  const SUGGESTIONS: seq<string> := [
    "music", "gaming", "art", "coding", "travel",
    "movies", "books", "sports", "anime", "cooking",
    "photography", "science", "crypto", "fitness", "design"]

  /** At most ten tags, none repeated. */
  predicate Valid(tags: seq<string>) {
    |tags| <= MAX_TAGS && NoDup(tags)
  }

  /** `addInterest(interest)`: store the lower-cased, trimmed form at the end, unless it is
      empty, already chosen, or ten tags exist. */
  function AddInterest(tags: seq<string>, input: string): (r: seq<string>)
    ensures var clean := Normalize(input);
            && (clean == "" || clean in tags || |tags| >= MAX_TAGS ==> r == tags)
            && (clean != "" && clean !in tags && |tags| < MAX_TAGS ==> r == tags + [clean])
  {
    var clean := Normalize(input);
    if clean == "" || clean in tags || |tags| >= MAX_TAGS then tags else tags + [clean]
  }

  /** The elements of `s` that are not in `excluded`, in their order (`Array.prototype.filter`
      with an `includes` or `!==` test). */
  function FilterOut(s: seq<string>, excluded: seq<string>): (r: seq<string>)
    ensures |r| <= |s|
    ensures forall x :: x in r <==> x in s && x !in excluded
    ensures NoDup(s) ==> NoDup(r)
    decreases |s|
  {
    if |s| == 0 then []
    else
      var rest := FilterOut(s[1..], excluded);
      assert forall x :: x in s[1..] ==> x in s;
      if s[0] in excluded then rest
      else
        assert NoDup(s) ==> s[0] !in s[1..];
        [s[0]] + rest
  }

  /** `removeInterest(interest)`: drop that tag, keep the others. */
  function RemoveInterest(tags: seq<string>, tag: string): (r: seq<string>)
    ensures tag !in r
    ensures forall x :: x in r <==> x in tags && x != tag
    ensures |r| <= |tags|
  {
    FilterOut(tags, [tag])
  }

  /** The suggestion row: the first eight suggestions not yet chosen. */
  function Suggestions(tags: seq<string>): (r: seq<string>)
    ensures |r| <= MAX_SUGGESTIONS
    ensures forall x :: x in r ==> x in SUGGESTIONS && x !in tags
    ensures var open := FilterOut(SUGGESTIONS, tags);
            && |r| == (if |open| < MAX_SUGGESTIONS then |open| else MAX_SUGGESTIONS)
            && r == open[..|r|]
    ensures NoDup(r)
  {
    var open := OpenSuggestions(tags);
    var r := Take(open, MAX_SUGGESTIONS);
    assert forall x :: x in r ==> x in open;
    assert r == open[..|r|];
    PrefixNoDup(open, |r|);
    r
  }

  /** The suggestions not yet chosen, in the fixed order. */
  function OpenSuggestions(tags: seq<string>): (r: seq<string>)
    ensures r == FilterOut(SUGGESTIONS, tags) && NoDup(r)
    ensures forall x :: x in r <==> x in SUGGESTIONS && x !in tags
  {
    SuggestionsDistinct();
    FilterOut(SUGGESTIONS, tags)
  }

  lemma PrefixNoDup(s: seq<string>, n: nat)
    requires NoDup(s) && n <= |s|
    ensures NoDup(s[..n])
  {
  }

  /** The fixed list names each suggestion once. */
  lemma SuggestionsDistinct()
    ensures NoDup(SUGGESTIONS)
  {
  }

  // ---------------------------------------------------------------- order

  /** `r` is `s` with some elements left out, the rest in their order. */
  predicate SubseqOf(r: seq<string>, s: seq<string>)
    decreases |s|
  {
    if |r| == 0 then true
    else if |s| == 0 then false
    else if r[0] == s[0] then SubseqOf(r[1..], s[1..])
    else SubseqOf(r, s[1..])
  }

  lemma {:induction false} FilterOutKeepsOrder(s: seq<string>, excluded: seq<string>)
    ensures SubseqOf(FilterOut(s, excluded), s)
    decreases |s|
  {
    if |s| > 0 {
      FilterOutKeepsOrder(s[1..], excluded);
      var rest := FilterOut(s[1..], excluded);
      if s[0] !in excluded {
        assert ([s[0]] + rest)[1..] == rest;
      } else if |rest| > 0 {
        SubseqSkip(rest, s);
      }
    }
  }

  /** When `r` is a subsequence of `s[1..]` it is one of `s`. */
  lemma {:induction false} SubseqSkip(r: seq<string>, s: seq<string>)
    requires |s| > 0 && SubseqOf(r, s[1..])
    ensures SubseqOf(r, s)
    decreases |s|, 0
  {
    if |r| > 0 && r[0] == s[0] {
      var t := s[1..];
      SubseqDropHead(r, t);
    }
  }

  /** Dropping the head of a subsequence leaves a subsequence of the same sequence. */
  lemma {:induction false} SubseqDropHead(r: seq<string>, s: seq<string>)
    requires |r| > 0 && SubseqOf(r, s)
    ensures SubseqOf(r[1..], s)
    decreases |s|, 1
  {
    assert |s| > 0;
    if r[0] == s[0] {
      SubseqSkip(r[1..], s);
    } else {
      SubseqDropHead(r, s[1..]);
      SubseqSkip(r[1..], s);
    }
  }

  /** A prefix of a subsequence is a subsequence. */
  lemma {:induction false} SubseqPrefix(r: seq<string>, s: seq<string>, n: nat)
    requires n <= |r| && SubseqOf(r, s)
    ensures SubseqOf(r[..n], s)
    decreases |s|
  {
    if n > 0 {
      assert |s| > 0;
      if r[0] == s[0] {
        SubseqPrefix(r[1..], s[1..], n - 1);
        assert r[..n][1..] == r[1..][..n - 1];
      } else {
        SubseqPrefix(r, s[1..], n);
      }
    }
  }

  /** `removeInterest` keeps the remaining tags in their order. */
  lemma RemoveKeepsOrder(tags: seq<string>, tag: string)
    ensures SubseqOf(RemoveInterest(tags, tag), tags)
  {
    FilterOutKeepsOrder(tags, [tag]);
  }

  /** The suggestions appear in the order of the fixed list, and when fewer than eight
      remain open every open one is shown. */
  lemma SuggestionsInOrder(tags: seq<string>)
    ensures SubseqOf(Suggestions(tags), SUGGESTIONS)
    ensures |FilterOut(SUGGESTIONS, tags)| <= MAX_SUGGESTIONS ==>
              forall x :: x in SUGGESTIONS && x !in tags ==> x in Suggestions(tags)
  {
    var open := FilterOut(SUGGESTIONS, tags);
    FilterOutKeepsOrder(SUGGESTIONS, tags);
    if |open| > MAX_SUGGESTIONS {
      SubseqPrefix(open, SUGGESTIONS, MAX_SUGGESTIONS);
    }
  }

  // ---------------------------------------------------------------- invariants

  /** Adding and removing keep the list valid and clean. */
  lemma AddPreserves(tags: seq<string>, input: string)
    requires Valid(tags) && Clean(tags)
    ensures Valid(AddInterest(tags, input)) && Clean(AddInterest(tags, input))
  {
    var clean := Normalize(input);
    if AddInterest(tags, input) != tags {
      assert AddInterest(tags, input) == tags + [clean];
      AppendFresh(tags, clean);
      AppendClean(tags, clean);
    }
  }

  /** Appending a non-empty normal form keeps the list clean. */
  lemma AppendClean(tags: seq<string>, x: string)
    requires Clean(tags) && x != "" && Trimmed(x) && NoUpper(x)
    ensures Clean(tags + [x])
  {
    var r := tags + [x];
    forall i | 0 <= i < |r| ensures r[i] != "" && Trimmed(r[i]) && NoUpper(r[i]) {
      if i < |tags| { assert r[i] == tags[i]; }
    }
  }

  /** Appending an element not yet present keeps the elements distinct. */
  lemma AppendFresh(tags: seq<string>, x: string)
    requires NoDup(tags) && x !in tags
    ensures NoDup(tags + [x])
  {
    var r := tags + [x];
    forall i, j | 0 <= i < j < |r| ensures r[i] != r[j] {
      if j == |tags| {
        assert r[i] == tags[i];
      }
    }
  }

  lemma RemovePreserves(tags: seq<string>, tag: string)
    requires Valid(tags) && Clean(tags)
    ensures Valid(RemoveInterest(tags, tag)) && Clean(RemoveInterest(tags, tag))
  {
    var r := RemoveInterest(tags, tag);
    forall i | 0 <= i < |r| ensures r[i] != "" && Trimmed(r[i]) && NoUpper(r[i]) {
      assert r[i] in tags;
    }
  }

  /** Adding a tag twice is adding it once. */
  lemma AddTwice(tags: seq<string>, input: string)
    ensures AddInterest(AddInterest(tags, input), input) == AddInterest(tags, input)
  {
  }

  /** Removing undoes a successful add. */
  lemma {:induction false} RemoveUndoesAdd(tags: seq<string>, input: string)
    requires AddInterest(tags, input) != tags
    ensures RemoveInterest(AddInterest(tags, input), Normalize(input)) == tags
  {
    var clean := Normalize(input);
    FilterOutAppend(tags, [clean], [clean]);
    FilterOutNoHit(tags, [clean]);
    assert FilterOut([clean], [clean]) == [];
  }

  lemma {:induction false} FilterOutAppend(a: seq<string>, b: seq<string>, excluded: seq<string>)
    ensures FilterOut(a + b, excluded) == FilterOut(a, excluded) + FilterOut(b, excluded)
    decreases |a|
  {
    if |a| == 0 {
      assert a + b == b;
    } else {
      assert (a + b)[0] == a[0] && (a + b)[1..] == a[1..] + b;
      FilterOutAppend(a[1..], b, excluded);
    }
  }

  lemma {:induction false} FilterOutNoHit(s: seq<string>, excluded: seq<string>)
    requires forall x :: x in s ==> x !in excluded
    ensures FilterOut(s, excluded) == s
    decreases |s|
  {
    if |s| > 0 {
      assert s[0] in s;
      assert forall x :: x in s[1..] ==> x in s;
      FilterOutNoHit(s[1..], excluded);
      assert [s[0]] + s[1..] == s;
    }
  }
}

=== FILE: pairing.dfy ===
/** The coordinator state both matchmaking engines keep (server/index.js:29-32,
    lib/matchmaking/index.ts:6-9) and what a successful `findMatch` does to it
    (server/index.js:85-100, lib/matchmaking/index.ts:67-86). */
module Pairing {
  import opened Basics
  import opened Queue
  import opened History
  import opened Registry

  /** Queue, room registry and partner history. */
  datatype Core = Core(queue: seq<QueuedUser>, reg: Registry, history: Histories)

  const EmptyCore := Core([], Empty, map[])

  /** `{ room, partner }` as `findMatch` returns it. */
  datatype Match = Match(room: Room, partner: QueuedUser)

  /** The invariant both engines keep: the queue is a map, the registry is consistent, and
      each history is a set of at most `cap` ids. */
  predicate CoreWf(c: Core, cap: nat) {
    UniqueKeys(c.queue) && Consistent(c.reg) && Bounded(c.history, cap)
  }

  /** `candidateId === socketId`. */
  function IsSelf(sid: Id): QueuedUser -> bool {
    (u: QueuedUser) => u.socketId == sid
  }

  /** A successful match: record the pairing, delete both sockets from the queue, register
      the room `[requester, partner]` and map both sockets to it. */
  function Commit(c: Core, user: QueuedUser, partner: QueuedUser, roomId: Id, createdAt: int,
                  cap: nat): (r: (Core, Match))
    requires cap > 0
    ensures r.1 == Match(Room(roomId, user.socketId, partner.socketId, createdAt), partner)
    ensures !Has(r.0.queue, user.socketId) && !Has(r.0.queue, partner.socketId)
    ensures forall v :: v in r.0.queue <==>
              v in c.queue && v.socketId != user.socketId && v.socketId != partner.socketId
    ensures roomId in r.0.reg.rooms && r.0.reg.rooms[roomId] == r.1.room
    ensures user.socketId in r.0.reg.socketToRoom && r.0.reg.socketToRoom[user.socketId] == roomId
    ensures partner.socketId in r.0.reg.socketToRoom && r.0.reg.socketToRoom[partner.socketId] == roomId
    ensures user.userId in r.0.history && partner.userId in r.0.history
    ensures partner.userId in r.0.history[user.userId] && user.userId in r.0.history[partner.userId]
    ensures r.0.queue == Remove(Remove(c.queue, user.socketId), partner.socketId)
    ensures r.0.reg == Open(c.reg, r.1.room)
    ensures r.0.history == Record(c.history, user.userId, partner.userId, cap)
  {
    var room := Room(roomId, user.socketId, partner.socketId, createdAt);
    (Core(Remove(Remove(c.queue, user.socketId), partner.socketId),
          Open(c.reg, room),
          Record(c.history, user.userId, partner.userId, cap)),
     Match(room, partner))
  }

  /** A match with a fresh room id between two different sockets keeps the invariant. */
  lemma CommitPreservesWf(c: Core, user: QueuedUser, partner: QueuedUser, roomId: Id,
                          createdAt: int, cap: nat)
    requires cap > 0 && CoreWf(c, cap)
    requires roomId !in c.reg.rooms && user.socketId != partner.socketId
    ensures CoreWf(Commit(c, user, partner, roomId, createdAt, cap).0, cap)
  {
    OpenPreserves(c.reg, Room(roomId, user.socketId, partner.socketId, createdAt));
    RemoveKeepsUnique(c.queue, user.socketId);
    RemoveKeepsUnique(Remove(c.queue, user.socketId), partner.socketId);
  }

  /** A match takes exactly two entries off the queue and adds exactly one room. */
  lemma CommitSizes(c: Core, user: QueuedUser, partner: QueuedUser, roomId: Id,
                    createdAt: int, cap: nat)
    requires cap > 0 && UniqueKeys(c.queue) && roomId !in c.reg.rooms
    requires user in c.queue && partner in c.queue && user.socketId != partner.socketId
    ensures var c' := Commit(c, user, partner, roomId, createdAt, cap).0;
            |c'.queue| == |c.queue| - 2 && |c'.reg.rooms| == |c.reg.rooms| + 1
  {
    var q1 := Remove(c.queue, user.socketId);
    assert Has(c.queue, user.socketId) by {
      var i :| 0 <= i < |c.queue| && c.queue[i] == user;
    }
    RemoveSize(c.queue, user.socketId);
    RemoveKeepsUnique(c.queue, user.socketId);
    assert partner in q1;
    assert Has(q1, partner.socketId) by {
      var i :| 0 <= i < |q1| && q1[i] == partner;
    }
    RemoveSize(q1, partner.socketId);
    var rooms' := Commit(c, user, partner, roomId, createdAt, cap).0.reg.rooms;
    assert rooms'.Keys == c.reg.rooms.Keys + {roomId};
    assert |rooms'.Keys| == |c.reg.rooms.Keys| + 1;
  }
}

=== FILE: protocol.dfy ===
/** The closed vocabulary of the duplex event channel (types/index.ts). */
module Protocol {
  import opened Basics

  /** Status of the client's peer link, shared by the WebRTC hook and the store. */
  datatype ConnectionStatus = Idle | Connecting | Connected | Failed | Reconnecting

  /** An opaque negotiation payload (session description or network candidate). The
      relay forwards it without looking inside. */
  datatype Blob = Blob(text: string)

  const OFFER: string := "offer"
  const ANSWER: string := "answer"
  const ICE_CANDIDATE: string := "ice-candidate"

  /** The three signal types the relay accepts. */
  predicate IsSignalType(t: string) {
    t == OFFER || t == ANSWER || t == ICE_CANDIDATE
  }

  /** Events a client emits to the coordinator. */
  datatype ClientEvent =
    | QueueJoin(interests: seq<string>)
    | QueueLeave
    | MessageSend(roomId: Id, content: string, messageId: Id, timestamp: int)
    | TypingStart(roomId: Id)
    | TypingStop(roomId: Id)
    | SignalSend(roomId: Id, kind: string, data: Blob)
    | ChatNext
    | ChatDisconnect(roomId: Id)

  /** The three counters of `stats:update`. */
  datatype Stats = Stats(online: int, waiting: int, chatting: int)
}

=== FILE: queue.dfy ===
/** The waiting queue: a JavaScript `Map` from socket id to queued participant. A `Map`
    iterates in insertion order and `set` on an existing key keeps the key's position, so
    the queue is a sequence of entries with distinct socket ids, updated in place. */
module Queue {
  import opened Basics

  /** One waiting participant (server/index.js:169-174, lib/matchmaking/index.ts:14). */
  datatype QueuedUser = QueuedUser(socketId: Id, userId: Id, interests: seq<string>, joinedAt: int)

  predicate UniqueKeys(q: seq<QueuedUser>) {
    forall i, j :: 0 <= i < j < |q| ==> q[i].socketId != q[j].socketId
  }

  /** `queue.has(socketId)`. */
  predicate Has(q: seq<QueuedUser>, sid: Id) {
    exists i :: 0 <= i < |q| && q[i].socketId == sid
  }

  /** Some socket other than `sid` is queued. */
  predicate HasOther(q: seq<QueuedUser>, sid: Id) {
    exists i :: 0 <= i < |q| && q[i].socketId != sid
  }

  /** The position of `sid` in iteration order, or -1 (`Array.prototype.indexOf`). */
  function IndexOf(q: seq<QueuedUser>, sid: Id): (r: int)
    ensures -1 <= r < |q|
    ensures r == -1 <==> !Has(q, sid)
    ensures r >= 0 ==> q[r].socketId == sid
    ensures r >= 0 ==> forall j :: 0 <= j < r ==> q[j].socketId != sid
  {
    if |q| == 0 then -1
    else if q[0].socketId == sid then 0
    else
      var k := IndexOf(q[1..], sid);
      if k == -1 then -1 else k + 1
  }

  /** With distinct keys, the position of a present key is its only occurrence. */
  lemma IndexOfUnique(q: seq<QueuedUser>, k: nat)
    requires UniqueKeys(q) && k < |q|
    ensures IndexOf(q, q[k].socketId) == k
  {
  }

  /** `queue.get(socketId)`. */
  function Get(q: seq<QueuedUser>, sid: Id): (r: Option<QueuedUser>)
    ensures r.Some? <==> Has(q, sid)
    ensures r.Some? ==> r.value.socketId == sid && r.value in q
  {
    var k := IndexOf(q, sid);
    if k >= 0 then Some(q[k]) else None
  }

  /** `queue.set(u.socketId, u)`: an existing entry is replaced where it stands, a new one
      goes to the end. */
  function Put(q: seq<QueuedUser>, u: QueuedUser): (r: seq<QueuedUser>)
    ensures UniqueKeys(q) ==> UniqueKeys(r)
    ensures Has(r, u.socketId)
    ensures Has(q, u.socketId) ==> |r| == |q| && r[IndexOf(q, u.socketId)] == u
    ensures !Has(q, u.socketId) ==> r == q + [u]
    ensures forall j :: 0 <= j < |q| && q[j].socketId != u.socketId ==> r[j] == q[j]
    ensures forall v :: v in r ==> v == u || v in q
  {
    var k := IndexOf(q, u.socketId);
    if k >= 0 then
      assert q[k := u][k] == u;
      q[k := u]
    else
      assert (q + [u])[|q|] == u;
      q + [u]
  }

  /** `queue.delete(socketId)`. */
  function Remove(q: seq<QueuedUser>, sid: Id): (r: seq<QueuedUser>)
    ensures !Has(r, sid)
    ensures forall v :: v in r <==> v in q && v.socketId != sid
    ensures !Has(q, sid) ==> r == q
    ensures |r| <= |q|
  {
    if |q| == 0 then []
    else
      (if q[0].socketId == sid then [] else [q[0]]) + Remove(q[1..], sid)
  }

  /** Deleting a key keeps the remaining keys distinct. */
  lemma {:induction false} RemoveKeepsUnique(q: seq<QueuedUser>, sid: Id)
    requires UniqueKeys(q)
    ensures UniqueKeys(Remove(q, sid))
  {
    if |q| > 0 {
      var rest := Remove(q[1..], sid);
      TailUnique(q);
      RemoveKeepsUnique(q[1..], sid);
      if q[0].socketId != sid {
        assert forall v :: v in rest ==> v in q[1..];
        ConsUnique(q[0], rest, true);
      }
    }
  }

  /** The tail of a queue keeps distinct keys, none of them the head's. */
  lemma TailUnique(q: seq<QueuedUser>)
    requires |q| > 0
    ensures UniqueKeys(q) ==> UniqueKeys(q[1..])
    ensures UniqueKeys(q) ==> forall v :: v in q[1..] ==> v.socketId != q[0].socketId
  {
  }

  /** Putting an entry with a fresh key in front keeps the keys distinct. */
  lemma ConsUnique(x: QueuedUser, rest: seq<QueuedUser>, when: bool)
    requires when ==> UniqueKeys(rest) && forall v :: v in rest ==> v.socketId != x.socketId
    ensures when ==> UniqueKeys([x] + rest)
  {
    if when {
      var r := [x] + rest;
      forall i, j | 0 <= i < j < |r| ensures r[i].socketId != r[j].socketId {
        assert r[j] == rest[j - 1];
        if i > 0 { assert r[i] == rest[i - 1]; } else { assert rest[j - 1] in rest; }
      }
    }
  }

  /** Deleting a present key cuts exactly its entry out and keeps every other entry in
      its order. */
  lemma RemoveSplices(q: seq<QueuedUser>, sid: Id)
    requires UniqueKeys(q) && Has(q, sid)
    ensures Remove(q, sid) == q[..IndexOf(q, sid)] + q[IndexOf(q, sid) + 1..]
  {
    RemoveAt(q, IndexOf(q, sid));
  }

  lemma {:induction false} RemoveAt(q: seq<QueuedUser>, k: nat)
    requires UniqueKeys(q) && k < |q|
    ensures Remove(q, q[k].socketId) == q[..k] + q[k + 1..]
  {
    var sid := q[k].socketId;
    if k == 0 {
      RemoveAtHead(q, sid);
    } else {
      var rest := q[1..];
      assert UniqueKeys(rest);
      assert rest[k - 1] == q[k];
      RemoveAt(rest, k - 1);
      assert q[0].socketId != sid;
      assert Remove(q, sid) == [q[0]] + Remove(rest, sid);
      SpliceShift(q, k - 1);
    }
  }

  lemma RemoveAtHead(q: seq<QueuedUser>, sid: Id)
    requires UniqueKeys(q) && |q| > 0 && q[0].socketId == sid
    ensures Remove(q, sid) == q[1..]
  {
    var rest := q[1..];
    forall i | 0 <= i < |rest| ensures rest[i].socketId != sid {
      assert rest[i] == q[i + 1];
    }
    assert Remove(q, sid) == [] + Remove(rest, sid);
  }

  lemma SpliceShift(q: seq<QueuedUser>, k: nat)
    requires k + 1 < |q|
    ensures [q[0]] + (q[1..][..k] + q[1..][k + 1..]) == q[..k + 1] + q[k + 2..]
  {
    assert q[1..][..k] == q[1..k + 1];
    assert q[1..][k + 1..] == q[k + 2..];
    assert q[..k + 1] == [q[0]] + q[1..k + 1];
  }

  /** With distinct keys, removing a present key shrinks the map by exactly one. */
  lemma RemoveSize(q: seq<QueuedUser>, sid: Id)
    requires UniqueKeys(q)
    ensures |Remove(q, sid)| == if Has(q, sid) then |q| - 1 else |q|
  {
    if Has(q, sid) {
      RemoveSplices(q, sid);
    }
  }

  /** The socket ids in iteration order (`Array.from(queue.keys())`). */
  function Keys(q: seq<QueuedUser>): (r: seq<Id>)
    ensures |r| == |q|
    ensures forall x :: x in r <==> Has(q, x)
    ensures forall i :: 0 <= i < |q| ==> r[i] == q[i].socketId
  {
    var r := seq(|q|, i requires 0 <= i < |q| => q[i].socketId);
    assert forall x :: Has(q, x) ==> x in r by {
      forall x | Has(q, x) ensures x in r {
        var i :| 0 <= i < |q| && q[i].socketId == x;
        assert r[i] == x;
      }
    }
    r
  }

  /** `Array.prototype.indexOf` on an array of ids: the first position holding `x`, or -1. */
  function IdIndex(ids: seq<Id>, x: Id): (r: int)
    ensures -1 <= r < |ids|
    ensures r == -1 <==> x !in ids
    ensures r >= 0 ==> ids[r] == x && x !in ids[..r]
  {
    if |ids| == 0 then -1
    else if ids[0] == x then 0
    else
      var k := IdIndex(ids[1..], x);
      assert k >= 0 ==> ids[..k + 1] == [ids[0]] + ids[1..][..k];
      if k == -1 then -1 else k + 1
  }

  /** Looking the socket up in the key array finds the position of its entry in the
      queue: the server's `Array.from(queue.keys()).indexOf(id)` is `IndexOf`. */
  lemma {:induction false} KeysIndex(q: seq<QueuedUser>, sid: Id)
    ensures IdIndex(Keys(q), sid) == IndexOf(q, sid)
    decreases |q|
  {
    if |q| > 0 {
      assert Keys(q)[1..] == Keys(q[1..]);
      KeysIndex(q[1..], sid);
    }
  }
}

=== FILE: registry.dfy ===
/** The room registry: `rooms` (room id to room) and its inverse `socketToRoom`, with the
    `leaveRoom` / `getPartner` helpers (server/index.js:103-121) that the library repeats
    as `leaveCurrentRoom` / `getPartnerSocketId` (lib/matchmaking/index.ts:89-119). */
module Registry {
  import opened Basics

  /** `{ id, users: [first, second], createdAt }`. */
  datatype Room = Room(id: Id, first: Id, second: Id, createdAt: int)

  /** `room.users.includes(socketId)`. */
  predicate IsMember(room: Room, sid: Id) {
    room.first == sid || room.second == sid
  }

  /** `room.users[0] === socketId ? room.users[1] : room.users[0]`: no membership check,
      a non-member gets the first user. */
  function Other(room: Room, sid: Id): (r: Id)
    ensures IsMember(room, sid) && room.first != room.second ==> IsMember(room, r) && r != sid
    ensures !IsMember(room, sid) ==> r == room.first
  {
    if room.first == sid then room.second else room.first
  }

  datatype Registry = Registry(rooms: map<Id, Room>, socketToRoom: map<Id, Id>)

  const Empty := Registry(map[], map[])

  /** Rooms are stored under their own id and have two distinct members, and every
      socket-to-room entry points at a live room that the socket belongs to. */
  predicate Consistent(reg: Registry) {
    && (forall rid :: rid in reg.rooms ==>
          reg.rooms[rid].id == rid && reg.rooms[rid].first != reg.rooms[rid].second)
    && (forall s :: s in reg.socketToRoom ==>
          reg.socketToRoom[s] in reg.rooms && IsMember(reg.rooms[reg.socketToRoom[s]], s))
  }

  /** Conversely, both members of every live room map to it. The library keeps this; the
      server does not, since its join may open a second room for a socket. */
  predicate Paired(reg: Registry) {
    forall rid :: rid in reg.rooms ==>
      && reg.rooms[rid].first in reg.socketToRoom && reg.socketToRoom[reg.rooms[rid].first] == rid
      && reg.rooms[rid].second in reg.socketToRoom && reg.socketToRoom[reg.rooms[rid].second] == rid
  }

  /** `!room || !room.users.includes(socket.id)` negated: the guard of every room-scoped
      handler. A missing or non-string `roomId` is `None`. */
  predicate InRoom(reg: Registry, roomId: Option<Id>, sid: Id) {
    roomId.Some? && roomId.value in reg.rooms && IsMember(reg.rooms[roomId.value], sid)
  }

  /** `getPartner(roomId, socketId)`. */
  function GetPartner(reg: Registry, roomId: Id, sid: Id): (r: Option<Id>)
    ensures r.Some? <==> roomId in reg.rooms
    ensures Consistent(reg) && InRoom(reg, Some(roomId), sid) ==>
              r.Some? && r.value != sid && IsMember(reg.rooms[roomId], r.value)
  {
    if roomId in reg.rooms then Some(Other(reg.rooms[roomId], sid)) else None
  }

  /** Registers a new room and maps both members to it. */
  function Open(reg: Registry, room: Room): (r: Registry)
    ensures room.id in r.rooms && r.rooms[room.id] == room
    ensures room.first in r.socketToRoom && r.socketToRoom[room.first] == room.id
    ensures room.second in r.socketToRoom && r.socketToRoom[room.second] == room.id
    ensures r.rooms.Keys == reg.rooms.Keys + {room.id}
    ensures r.socketToRoom.Keys == reg.socketToRoom.Keys + {room.first, room.second}
    ensures forall rid :: rid in reg.rooms && rid != room.id ==> r.rooms[rid] == reg.rooms[rid]
    ensures forall s :: s in reg.socketToRoom && s != room.first && s != room.second ==>
              r.socketToRoom[s] == reg.socketToRoom[s]
  {
    Registry(reg.rooms[room.id := room],
             reg.socketToRoom[room.first := room.id][room.second := room.id])
  }

  /** `leaveRoom(socketId)`: deletes the socket's room and both members' entries and
      returns the other member; `None` and no change when the socket has no live room. */
  function LeaveRoom(reg: Registry, sid: Id): (r: (Registry, Option<Id>))
    ensures r.1.None? <==> !(sid in reg.socketToRoom && reg.socketToRoom[sid] in reg.rooms)
    ensures r.1.None? ==> r.0 == reg
    ensures r.1.Some? ==>
              var rid := reg.socketToRoom[sid];
              var room := reg.rooms[rid];
              && r.1.value == Other(room, sid)
              && r.0.rooms.Keys == reg.rooms.Keys - {rid}
              && (forall k :: k in r.0.rooms ==> r.0.rooms[k] == reg.rooms[k])
              && r.0.socketToRoom.Keys == reg.socketToRoom.Keys - {room.first, room.second}
              && (forall s :: s in r.0.socketToRoom ==> r.0.socketToRoom[s] == reg.socketToRoom[s])
  {
    if sid !in reg.socketToRoom then (reg, None)
    else
      var rid := reg.socketToRoom[sid];
      if rid !in reg.rooms then (reg, None)
      else
        var room := reg.rooms[rid];
        (Registry(reg.rooms - {rid}, reg.socketToRoom - {room.first} - {room.second}),
         Some(Other(room, sid)))
  }

  /** A socket without a room entry: `None`, nothing changes. */
  lemma LeaveRoomUnknown(reg: Registry, sid: Id)
    requires sid !in reg.socketToRoom
    ensures LeaveRoom(reg, sid) == (reg, None)
  {
  }

  /** In a consistent registry, leaving returns the other member, removes the room and
      exactly the two members' entries, and keeps the registry consistent. */
  lemma LeaveRoomInRoom(reg: Registry, sid: Id)
    requires Consistent(reg) && sid in reg.socketToRoom
    ensures var (reg', p) := LeaveRoom(reg, sid);
            var rid := reg.socketToRoom[sid];
            && p.Some? && p.value != sid && IsMember(reg.rooms[rid], p.value)
            && reg'.rooms == reg.rooms - {rid}
            && reg'.socketToRoom == reg.socketToRoom - {sid, p.value}
            && sid !in reg'.socketToRoom && p.value !in reg'.socketToRoom
            && Consistent(reg')
  {
    var rid := reg.socketToRoom[sid];
    var room := reg.rooms[rid];
    var (reg', p) := LeaveRoom(reg, sid);
    assert reg.socketToRoom - {room.first} - {room.second} == reg.socketToRoom - {sid, p.value};
    forall s | s in reg'.socketToRoom
      ensures reg'.socketToRoom[s] in reg'.rooms && IsMember(reg'.rooms[reg'.socketToRoom[s]], s)
    {
      assert reg.socketToRoom[s] != rid;
    }
  }

  /** Leaving deletes one room for a socket that has one, none otherwise. */
  lemma LeaveRoomCount(reg: Registry, sid: Id)
    requires Consistent(reg)
    ensures |LeaveRoom(reg, sid).0.rooms| == |reg.rooms| - (if sid in reg.socketToRoom then 1 else 0)
  {
    if sid in reg.socketToRoom {
      var rid := reg.socketToRoom[sid];
      assert (reg.rooms - {rid}).Keys == reg.rooms.Keys - {rid};
    }
  }

  /** After leaving, a socket of a consistent registry has no room entry. */
  lemma LeaveRoomForgets(reg: Registry, sid: Id)
    ensures Consistent(reg) ==> sid !in LeaveRoom(reg, sid).0.socketToRoom
  {
    if Consistent(reg) && sid in reg.socketToRoom {
      LeaveRoomInRoom(reg, sid);
    }
  }

  /** Leaving twice is leaving once: the second call finds no live room and changes
      nothing. This holds of every registry, consistent or not. */
  lemma LeaveRoomIdempotent(reg: Registry, sid: Id)
    ensures var reg1 := LeaveRoom(reg, sid).0;
            LeaveRoom(reg1, sid) == (reg1, None)
  {
  }

  /** Leaving keeps the library's two-way pairing between rooms and members. */
  lemma LeaveRoomPaired(reg: Registry, sid: Id)
    requires Consistent(reg) && Paired(reg)
    ensures Paired(LeaveRoom(reg, sid).0)
  {
    if sid in reg.socketToRoom {
      var rid := reg.socketToRoom[sid];
      var reg' := LeaveRoom(reg, sid).0;
      forall r | r in reg'.rooms
        ensures reg'.rooms[r].first in reg'.socketToRoom && reg'.socketToRoom[reg'.rooms[r].first] == r
        ensures reg'.rooms[r].second in reg'.socketToRoom && reg'.socketToRoom[reg'.rooms[r].second] == r
      {
        assert r != rid;
        assert reg.rooms[r].first != reg.rooms[rid].first && reg.rooms[r].first != reg.rooms[rid].second;
        assert reg.rooms[r].second != reg.rooms[rid].first && reg.rooms[r].second != reg.rooms[rid].second;
      }
    }
  }

  /** Opening a room with a fresh id for two distinct sockets that are in no room keeps the
      registry consistent and paired. */
  lemma OpenPreserves(reg: Registry, room: Room)
    requires Consistent(reg) && room.id !in reg.rooms && room.first != room.second
    ensures Consistent(Open(reg, room))
    ensures Paired(reg) && room.first !in reg.socketToRoom && room.second !in reg.socketToRoom
            ==> Paired(Open(reg, room))
  {
    OpenConsistent(reg, room);
    if Paired(reg) && room.first !in reg.socketToRoom && room.second !in reg.socketToRoom {
      OpenPaired(reg, room);
    }
  }

  lemma OpenConsistent(reg: Registry, room: Room)
    requires Consistent(reg) && room.id !in reg.rooms && room.first != room.second
    ensures Consistent(Open(reg, room))
  {
    var reg' := Open(reg, room);
    forall s | s in reg'.socketToRoom
      ensures reg'.socketToRoom[s] in reg'.rooms && IsMember(reg'.rooms[reg'.socketToRoom[s]], s)
    {
      if s != room.first && s != room.second {
        assert reg'.socketToRoom[s] == reg.socketToRoom[s];
      }
    }
  }

  lemma OpenPaired(reg: Registry, room: Room)
    requires Consistent(reg) && room.id !in reg.rooms
    requires Paired(reg) && room.first !in reg.socketToRoom && room.second !in reg.socketToRoom
    ensures Paired(Open(reg, room))
  {
    var reg' := Open(reg, room);
    forall r | r in reg'.rooms
      ensures reg'.rooms[r].first in reg'.socketToRoom && reg'.socketToRoom[reg'.rooms[r].first] == r
      ensures reg'.rooms[r].second in reg'.socketToRoom && reg'.socketToRoom[reg'.rooms[r].second] == r
    {
      if r != room.id {
        assert reg.rooms[r].first in reg.socketToRoom;
        assert reg.rooms[r].second in reg.socketToRoom;
      }
    }
  }

  /** Opening a room for a socket that already has one: the server's join can do this. The
      socket's entry moves to the new room while the old room stays registered. */
  lemma OpenOverRoom(reg: Registry, room: Room)
    requires Consistent(reg) && room.id !in reg.rooms && room.first != room.second
    requires room.first in reg.socketToRoom
    ensures var old_rid := reg.socketToRoom[room.first];
            var reg' := Open(reg, room);
            old_rid in reg'.rooms && IsMember(reg'.rooms[old_rid], room.first)
            && reg'.socketToRoom[room.first] == room.id
  {
  }
}

=== FILE: selection.dfy ===
/** The candidate scans of both matchmaking engines, as the loops are written: one pass over
    the queue in insertion order keeping the best candidate so far and replacing it only on
    a strictly higher score (server/index.js:67-81, lib/matchmaking/index.ts:28-43), and the
    "first candidate that qualifies" pass (lib/matchmaking/index.ts:46-63). */
module Selection {
  import opened Basics
  import opened Queue

  /** `user.interests.filter(i => candidate.interests.includes(i)).length`: counts the
      requester's tags, repeats included, that the candidate also has. */
  function Shared(mine: seq<string>, theirs: seq<string>): (r: nat)
    ensures r <= |mine|
  {
    if |mine| == 0 then 0
    else (if mine[0] in theirs then 1 else 0) + Shared(mine[1..], theirs)
  }

  /** A running best score: `-Infinity` or a number. */
  datatype Bound = NegInfinity | Finite(v: int)

  /** `score > bestScore`. */
  predicate Beats(score: int, b: Bound) {
    b.NegInfinity? || score > b.v
  }

  /** The loop `for (const [id, candidate] of queue) { if (skip) continue; if (score >
      bestScore) { bestScore = score; bestMatch = candidate; } }` from position `i` on,
      returning the position of `bestMatch`. */
  function Scan(q: seq<QueuedUser>, skip: QueuedUser -> bool, score: QueuedUser -> int,
                i: nat, best: Option<nat>, bestScore: Bound): Option<nat>
    requires i <= |q|
    decreases |q| - i
  {
    if i == |q| then best
    else if skip(q[i]) then Scan(q, skip, score, i + 1, best, bestScore)
    else if Beats(score(q[i]), bestScore) then Scan(q, skip, score, i + 1, Some(i), Finite(score(q[i])))
    else Scan(q, skip, score, i + 1, best, bestScore)
  }

  /** The declarative reading of the loop: `r` is the earliest non-skipped position whose
      score is maximal and beats the initial bound; `None` when no non-skipped candidate
      beats it. */
  ghost predicate FirstBest(q: seq<QueuedUser>, skip: QueuedUser -> bool,
                            score: QueuedUser -> int, floor: Bound, r: Option<nat>)
  {
    match r
    case None =>
      forall j :: 0 <= j < |q| && !skip(q[j]) ==> !Beats(score(q[j]), floor)
    case Some(k) =>
      && k < |q| && !skip(q[k]) && Beats(score(q[k]), floor)
      && (forall j :: 0 <= j < |q| && !skip(q[j]) ==> score(q[j]) <= score(q[k]))
      && (forall j :: 0 <= j < k && !skip(q[j]) ==> score(q[j]) < score(q[k]))
  }

  /** What the loop knows after position `i`: its (best, bestScore) pair is the first best
      of the prefix. */
  ghost predicate ScanState(q: seq<QueuedUser>, skip: QueuedUser -> bool,
                            score: QueuedUser -> int, floor: Bound,
                            i: nat, best: Option<nat>, bestScore: Bound)
    requires i <= |q|
  {
    match best
    case None =>
      bestScore == floor
      && forall j :: 0 <= j < i && !skip(q[j]) ==> !Beats(score(q[j]), floor)
    case Some(k) =>
      && k < i && !skip(q[k]) && Beats(score(q[k]), floor) && bestScore == Finite(score(q[k]))
      && (forall j :: 0 <= j < i && !skip(q[j]) ==> score(q[j]) <= score(q[k]))
      && (forall j :: 0 <= j < k && !skip(q[j]) ==> score(q[j]) < score(q[k]))
  }

  lemma {:induction false} ScanIsFirstBest(q: seq<QueuedUser>, skip: QueuedUser -> bool,
                                           score: QueuedUser -> int, floor: Bound,
                                           i: nat, best: Option<nat>, bestScore: Bound)
    requires i <= |q| && ScanState(q, skip, score, floor, i, best, bestScore)
    ensures FirstBest(q, skip, score, floor, Scan(q, skip, score, i, best, bestScore))
    decreases |q| - i
  {
    if i < |q| {
      if skip(q[i]) {
        ScanIsFirstBest(q, skip, score, floor, i + 1, best, bestScore);
      } else if Beats(score(q[i]), bestScore) {
        ScanIsFirstBest(q, skip, score, floor, i + 1, Some(i), Finite(score(q[i])));
      } else {
        ScanIsFirstBest(q, skip, score, floor, i + 1, best, bestScore);
      }
    }
  }

  /** A full pass from an empty best, as both loops start. */
  function BestOf(q: seq<QueuedUser>, skip: QueuedUser -> bool, score: QueuedUser -> int,
                  floor: Bound): (r: Option<nat>)
    ensures FirstBest(q, skip, score, floor, r)
  {
    ScanIsFirstBest(q, skip, score, floor, 0, None, floor);
    Scan(q, skip, score, 0, None, floor)
  }

  /** At most one position is the first best, so any two ways of computing it agree. */
  lemma FirstBestUnique(q: seq<QueuedUser>, skip: QueuedUser -> bool,
                        score: QueuedUser -> int, floor: Bound, r1: Option<nat>, r2: Option<nat>)
    requires FirstBest(q, skip, score, floor, r1) && FirstBest(q, skip, score, floor, r2)
    ensures r1 == r2
  {
  }

  /** `for (...) { if (!qualifies) continue; bestMatch = candidate; break; }`: the
      earliest qualifying position. */
  function FirstWhere(q: seq<QueuedUser>, ok: QueuedUser -> bool, i: nat): (r: Option<nat>)
    requires i <= |q|
    ensures r.Some? ==> i <= r.value < |q| && ok(q[r.value])
    ensures r.Some? ==> forall j :: i <= j < r.value ==> !ok(q[j])
    ensures r.None? ==> forall j :: i <= j < |q| ==> !ok(q[j])
    decreases |q| - i
  {
    if i == |q| then None
    else if ok(q[i]) then Some(i)
    else FirstWhere(q, ok, i + 1)
  }
}

=== FILE: server.dfy ===
/** The Socket.IO coordinator (server/index.js): the five maps of lines 29-33 and the event
    handlers of lines 143-351. Each handler is one atomic transition from a state, the
    calling socket and its input to a new state and the messages it emits. Fresh ids,
    clock readings and the rate limiters' verdicts arrive inside the input. */
module Server {
  import opened Basics
  import Protocol
  import opened Text
  import opened Queue
  import opened History
  import opened Registry
  import opened Selection
  import opened Pairing

  /** `payload.interests.slice(0, 10)`. */
  const MAX_INTERESTS: nat := 10

  /** The score penalty for a previous partner. */
  const PREVIOUS_PENALTY: int := 100

  /** `queue`, `rooms`, `socketToRoom` and `userPairHistory` live in `core`. */
  datatype State = State(core: Core, socketToUser: map<Id, Id>)

  const Init := State(EmptyCore, map[])

  /** Events the server emits. A `chat:stranger_disconnected` without a room id carries
      `None`. */
  datatype Event =
    | QueueWaiting(position: int)
    | MatchFound(roomId: Id, peerId: Id, isInitiator: bool)
    | MessageReceive(roomId: Id, content: string, messageId: Id, timestamp: int)
    | TypingUpdate(roomId: Id, isTyping: bool)
    | SignalReceive(roomId: Id, kind: string, data: Protocol.Blob)
    | StrangerDisconnected(room: Option<Id>, reason: string)
    | Error(code: string, message: string)
    | StatsUpdate(stats: Protocol.Stats)

  /** `socket.emit` / `io.to(id).emit`, `io.emit`, and `socket.disconnect(true)`. */
  datatype Outbound = To(socket: Id, event: Event) | ToAll(event: Event) | Close(socket: Id)

  datatype Step = Step(state: State, out: seq<Outbound>)

  /** What a socket sends, with the values the handler obtains from outside: the
      limiters' verdicts, fresh ids (`uuidv4`) and clock readings (`Date.now`). `userId` is
      the id the connection handler drew for this socket. A payload `roomId` that is
      missing or not a live room key is `None`; a non-array `interests` is `None`. */
  datatype Input =
    | Connect(allowed: bool, userId: Id)
    | QueueJoin(userId: Id, interests: Option<seq<string>>, joinedAt: int, newRoomId: Id, createdAt: int)
    | QueueLeave
    | MessageSend(allowed: bool, roomId: Option<Id>, content: Content, messageId: Id, timestamp: int)
    | TypingStart(roomId: Option<Id>)
    | TypingStop(roomId: Option<Id>)
    | SignalSend(roomId: Option<Id>, kind: string, data: Protocol.Blob)
    | ChatNext
    | ChatDisconnect(roomId: Option<Id>)
    | Disconnect

  /** The server's invariant: the core invariant with history cap 15, and no queued
      participant has more than ten interests. */
  predicate Wf(s: State) {
    CoreWf(s.core, SERVER_CAP) && InterestsBounded(s.core.queue)
  }

  predicate InterestsBounded(q: seq<QueuedUser>) {
    forall j :: 0 <= j < |q| ==> |q[j].interests| <= MAX_INTERESTS
  }

  /** `broadcastStats`: online counts connected sockets, chatting counts two per room.
      Unlike the library's `getStats`, online is not derived from the other two. */
  function StatsOf(s: State): (r: Protocol.Stats)
    ensures r.online == |s.socketToUser.Keys| && r.waiting == |s.core.queue|
    ensures r.chatting == 2 * |s.core.reg.rooms.Keys| && r.chatting % 2 == 0
  {
    Protocol.Stats(|s.socketToUser|, |s.core.queue|, 2 * |s.core.reg.rooms|)
  }

  function BroadcastStats(s: State): Outbound {
    ToAll(StatsUpdate(StatsOf(s)))
  }

  // ---------------------------------------------------------------- matching

  /** `(isPrevious ? -100 : 0) + sharedInterests`. */
  function Score(user: QueuedUser, prev: seq<Id>, c: QueuedUser): int {
    (if c.userId in prev then -PREVIOUS_PENALTY else 0) + Shared(user.interests, c.interests)
  }

  function ScoreFn(user: QueuedUser, prev: seq<Id>): QueuedUser -> int {
    (c: QueuedUser) => Score(user, prev, c)
  }

  /** The candidate loop of `findMatch`: the position of the earliest other socket with the
      highest score. With at most ten interests, any partner not in the history outscores
      every partner in it. */
  function Pick(q: seq<QueuedUser>, sid: Id, user: QueuedUser, prev: seq<Id>): (r: Option<nat>)
    ensures r.Some? ==> r.value < |q| && q[r.value].socketId != sid
    ensures r.None? <==> forall j :: 0 <= j < |q| ==> q[j].socketId == sid
    ensures r.Some? ==> forall j :: 0 <= j < |q| && q[j].socketId != sid ==>
              Score(user, prev, q[j]) <= Score(user, prev, q[r.value])
    ensures r.Some? ==> forall j :: 0 <= j < r.value && q[j].socketId != sid ==>
              Score(user, prev, q[j]) < Score(user, prev, q[r.value])
    ensures r.Some? && |user.interests| <= MAX_INTERESTS &&
            (exists j :: 0 <= j < |q| && q[j].socketId != sid && q[j].userId !in prev) ==>
              q[r.value].userId !in prev
  {
    var r := BestOf(q, IsSelf(sid), ScoreFn(user, prev), NegInfinity);
    assert r.Some? && |user.interests| <= MAX_INTERESTS &&
           (exists j :: 0 <= j < |q| && q[j].socketId != sid && q[j].userId !in prev) ==>
             q[r.value].userId !in prev by {
      if r.Some? && |user.interests| <= MAX_INTERESTS {
        if j :| 0 <= j < |q| && q[j].socketId != sid && q[j].userId !in prev {
          assert Score(user, prev, q[j]) >= 0;
          assert Score(user, prev, q[j]) <= Score(user, prev, q[r.value]);
        }
      }
    }
    r
  }

  /** `findMatch(socketId)`. */
  function FindMatch(c: Core, sid: Id, roomId: Id, createdAt: int): (r: (Core, Option<Match>))
    ensures !Has(c.queue, sid) ==> r == (c, None)
    ensures (forall j :: 0 <= j < |c.queue| ==> c.queue[j].socketId == sid) ==> r == (c, None)
    ensures r.1.None? ==> r.0 == c
    ensures r.1.Some? <==> Has(c.queue, sid) && exists j :: 0 <= j < |c.queue| && c.queue[j].socketId != sid
    ensures r.1.Some? ==>
              var user := Get(c.queue, sid).value;
              var k := Pick(c.queue, sid, user, Of(c.history, user.userId));
              && k.Some? && r.1.value.partner == c.queue[k.value]
              && r.1.value.partner.socketId != sid
              && r.0 == Commit(c, user, r.1.value.partner, roomId, createdAt, SERVER_CAP).0
              && r.1.value == Commit(c, user, r.1.value.partner, roomId, createdAt, SERVER_CAP).1
  {
    match Get(c.queue, sid)
    case None => (c, None)
    case Some(user) =>
      match Pick(c.queue, sid, user, Of(c.history, user.userId))
      case None => (c, None)
      case Some(k) =>
        var (c', m) := Commit(c, user, c.queue[k], roomId, createdAt, SERVER_CAP);
        (c', Some(m))
  }

  /** What a successful server match leaves behind, read off the commit. */
  lemma Matched(c: Core, sid: Id, roomId: Id, createdAt: int)
    requires Has(c.queue, sid) && HasOther(c.queue, sid)
    ensures var (c2, m) := FindMatch(c, sid, roomId, createdAt);
            var p := m.value.partner;
            && p in c.queue && p.socketId != sid
            && m.value.room == Room(roomId, sid, p.socketId, createdAt)
            && !Has(c2.queue, sid) && !Has(c2.queue, p.socketId)
            && c2.reg == Open(c.reg, m.value.room)
  {
    var fm := FindMatch(c, sid, roomId, createdAt);
    assert fm.1.Some? by {
      var j :| 0 <= j < |c.queue| && c.queue[j].socketId != sid;
    }
    var user := Get(c.queue, sid).value;
    var k := Pick(c.queue, sid, user, Of(c.history, user.userId)).value;
    var p := c.queue[k];
    assert p in c.queue && fm.1.value.partner == p;
    var r := Commit(c, user, p, roomId, createdAt, SERVER_CAP);
    assert fm.0 == r.0 && fm.1.value == r.1;
    assert r.0.reg == Open(c.reg, r.1.room);
  }

  // ---------------------------------------------------------------- handlers

  /** The interests of a `queue:join` payload: the first ten items, each lowercased and
      trimmed, empty ones dropped, order and repeats kept. */
  function NormalizeInterests(payload: Option<seq<string>>): (r: seq<string>)
    ensures |r| <= MAX_INTERESTS
    ensures payload.None? ==> r == []
    ensures Clean(r)
    ensures payload.Some? ==> forall x :: x in r <==>
              (x != "" && exists i :: 0 <= i < |payload.value| && i < MAX_INTERESTS && x == Normalize(payload.value[i]))
  {
    match payload
    case None => []
    case Some(xs) =>
      var r := DropEmpty(NormalizeAll(Take(xs, MAX_INTERESTS)));
      NormalizedClean(Take(xs, MAX_INTERESTS));
      NormalizedMembers(xs);
      r
  }

  lemma NormalizedClean(xs: seq<string>)
    ensures Clean(DropEmpty(NormalizeAll(xs)))
  {
    var ns := NormalizeAll(xs);
    var r := DropEmpty(ns);
    forall i | 0 <= i < |r| ensures r[i] != "" && Trimmed(r[i]) && NoUpper(r[i]) {
      assert r[i] in ns;
    }
  }

  lemma NormalizedMembers(xs: seq<string>)
    ensures forall x :: x in DropEmpty(NormalizeAll(Take(xs, MAX_INTERESTS))) <==>
              (x != "" && exists i :: 0 <= i < |xs| && i < MAX_INTERESTS && x == Normalize(xs[i]))
  {
    var t := Take(xs, MAX_INTERESTS);
    var ns := NormalizeAll(t);
    assert forall x :: x in DropEmpty(ns) <==> x in ns && x != "";
    NormalizedAt(xs);
  }

  /** The normalised prefix holds exactly the normal forms of the first ten items. */
  lemma NormalizedAt(xs: seq<string>)
    ensures forall x :: x in NormalizeAll(Take(xs, MAX_INTERESTS)) <==>
              exists i :: 0 <= i < |xs| && i < MAX_INTERESTS && x == Normalize(xs[i])
  {
    forall x | x in NormalizeAll(Take(xs, MAX_INTERESTS))
      ensures exists i :: 0 <= i < |xs| && i < MAX_INTERESTS && x == Normalize(xs[i])
    {
      NormalizedFrom(xs, x);
    }
    forall x, i | 0 <= i < |xs| && i < MAX_INTERESTS && x == Normalize(xs[i])
      ensures x in NormalizeAll(Take(xs, MAX_INTERESTS))
    {
      NormalizedInto(xs, i);
    }
  }

  lemma NormalizedFrom(xs: seq<string>, x: string)
    requires x in NormalizeAll(Take(xs, MAX_INTERESTS))
    ensures exists i :: 0 <= i < |xs| && i < MAX_INTERESTS && x == Normalize(xs[i])
  {
    var t := Take(xs, MAX_INTERESTS);
    var ns := NormalizeAll(t);
    var i :| 0 <= i < |ns| && ns[i] == x;
    assert t[i] == xs[i];
  }

  lemma NormalizedInto(xs: seq<string>, i: nat)
    requires i < |xs| && i < MAX_INTERESTS
    ensures Normalize(xs[i]) in NormalizeAll(Take(xs, MAX_INTERESTS))
  {
    var ns := NormalizeAll(Take(xs, MAX_INTERESTS));
    assert ns[i] == Normalize(xs[i]);
  }

  /** `.map(i => String(i).toLowerCase().trim())`. */
  function NormalizeAll(xs: seq<string>): (r: seq<string>)
    ensures |r| == |xs|
    ensures forall i :: 0 <= i < |xs| ==> r[i] == Normalize(xs[i])
  {
    seq(|xs|, i requires 0 <= i < |xs| => Normalize(xs[i]))
  }

  /** `.filter(Boolean)` on strings: drops the empty ones and keeps the rest in order. */
  function DropEmpty(xs: seq<string>): (r: seq<string>)
    ensures |r| <= |xs|
    ensures forall x :: x in r <==> x in xs && x != ""
    ensures "" !in xs ==> r == xs
  {
    if |xs| == 0 then []
    else
      assert xs == [xs[0]] + xs[1..];
      (if xs[0] == "" then [] else [xs[0]]) + DropEmpty(xs[1..])
  }

  /** Normalising does not deduplicate: the same tag twice is kept twice. */
  lemma JoinKeepsDuplicates(x: string)
    requires Normalize(x) != ""
    ensures NormalizeInterests(Some([x, x])) == [Normalize(x), Normalize(x)]
  {
    var n := Normalize(x);
    assert Take([x, x], MAX_INTERESTS) == [x, x];
    NormalizeTwice(x);
    assert "" !in [n, n];
  }

  lemma NormalizeTwice(x: string)
    ensures NormalizeAll([x, x]) == [Normalize(x), Normalize(x)]
  {
  }

  /** `queue:join`: put the caller in the queue (in place if already queued), try to match
      it, and answer with two `match:found` or one `queue:waiting`; then broadcast stats. An
      existing room of the caller is left alone. */
  function Join(s: State, sid: Id, uid: Id, interests: Option<seq<string>>, joinedAt: int,
                roomId: Id, createdAt: int): (r: Step)
    ensures r.state.socketToUser == s.socketToUser
    ensures |r.out| >= 2 && r.out[|r.out| - 1] == BroadcastStats(r.state)
    ensures r.out[0].To? && r.out[0].socket == sid
    ensures Has(r.state.core.queue, sid) <==> r.out[0].event.QueueWaiting?
    ensures !Has(r.state.core.queue, sid) <==> r.out[0].event.MatchFound?
  {
    var c1 := Enqueue(s.core, Entry(sid, uid, interests, joinedAt));
    var found := FindMatch(c1, sid, roomId, createdAt);
    var s2 := State(found.0, s.socketToUser);
    Step(s2, Announce(found.0, sid, uid, found.1) + [BroadcastStats(s2)])
  }

  /** The queue entry a `queue:join` builds. */
  function Entry(sid: Id, uid: Id, interests: Option<seq<string>>, joinedAt: int): QueuedUser {
    QueuedUser(sid, uid, NormalizeInterests(interests), joinedAt)
  }

  /** `queue.set(socket.id, user)`. */
  function Enqueue(c: Core, user: QueuedUser): (r: Core)
    ensures r.reg == c.reg && r.history == c.history
    ensures Has(r.queue, user.socketId)
  {
    c.(queue := Put(c.queue, user))
  }

  /** The answer to a join: two `match:found`, or the caller's 1-based queue position. */
  function Announce(c2: Core, sid: Id, uid: Id, m: Option<Match>): (r: seq<Outbound>)
    ensures |r| >= 1 && r[0].To? && r[0].socket == sid
    ensures m.None? <==> r[0].event.QueueWaiting?
    ensures m.Some? <==> r[0].event.MatchFound?
    ensures m.None? ==> r[0].event.position == IndexOf(c2.queue, sid) + 1
  {
    KeysIndex(c2.queue, sid);
    match m
    case Some(Match(room, partner)) =>
      [To(sid, MatchFound(room.id, partner.userId, true)),
       To(partner.socketId, MatchFound(room.id, uid, false))]
    case None => [To(sid, QueueWaiting(IdIndex(Keys(c2.queue), sid) + 1))]
  }

  /** Waiting: a join finds no partner exactly when no other socket is queued (see
      `JoinMatched` for the converse), so the caller ends up alone in the queue and the
      position it is told is always 1. */
  lemma JoinWaiting(s: State, sid: Id, uid: Id, interests: Option<seq<string>>, joinedAt: int,
                    roomId: Id, createdAt: int)
    requires UniqueKeys(s.core.queue) && !HasOther(s.core.queue, sid)
    ensures var r := Join(s, sid, uid, interests, joinedAt, roomId, createdAt);
            && r.state.core.queue == [Entry(sid, uid, interests, joinedAt)]
            && r.state.core.reg == s.core.reg && r.state.core.history == s.core.history
            && r.out == [To(sid, QueueWaiting(1)), BroadcastStats(r.state)]
  {
    var user := Entry(sid, uid, interests, joinedAt);
    PutAlone(s.core.queue, user);
    var c1 := s.core.(queue := [user]);
    assert Enqueue(s.core, user) == c1;
    WaitingAnnounce(c1, sid, uid, roomId, createdAt);
  }

  /** With the caller alone in the queue, matching leaves the core as it is and the caller
      is told position 1. */
  lemma WaitingAnnounce(c1: Core, sid: Id, uid: Id, roomId: Id, createdAt: int)
    requires |c1.queue| == 1 && c1.queue[0].socketId == sid
    ensures FindMatch(c1, sid, roomId, createdAt) == (c1, None)
    ensures Announce(c1, sid, uid, None) == [To(sid, QueueWaiting(1))]
  {
    assert IndexOf(c1.queue, sid) == 0;
  }

  /** Queuing the caller when nobody else waits leaves it alone in the queue. */
  lemma PutAlone(q: seq<QueuedUser>, user: QueuedUser)
    requires UniqueKeys(q) && !HasOther(q, user.socketId)
    ensures Put(q, user) == [user]
  {
    TwoHaveOther(q, user.socketId);
    if |q| == 1 {
      assert q[0].socketId == user.socketId;
      assert Has(q, user.socketId);
    }
  }

  /** Two queued sockets with distinct ids always include one other than `sid`. */
  lemma TwoHaveOther(q: seq<QueuedUser>, sid: Id)
    requires UniqueKeys(q)
    ensures |q| >= 2 ==> HasOther(q, sid)
  {
    if |q| >= 2 && q[0].socketId == sid {
      assert q[1].socketId != sid;
    }
  }

  /** The outcome of a join that paired the caller with `partner`: the caller is told it
      initiates, the partner is told it does not, each learns the other's user id, and both
      leave the queue for the new room. */
  predicate MatchedWith(s: State, r: Step, sid: Id, uid: Id, roomId: Id, createdAt: int,
                        partner: QueuedUser) {
    && partner in s.core.queue && partner.socketId != sid
    && r.out == [To(sid, MatchFound(roomId, partner.userId, true)),
                 To(partner.socketId, MatchFound(roomId, uid, false)),
                 BroadcastStats(r.state)]
    && !Has(r.state.core.queue, partner.socketId)
    && roomId in r.state.core.reg.rooms
    && r.state.core.reg.rooms[roomId] == Room(roomId, sid, partner.socketId, createdAt)
    && sid in r.state.core.reg.socketToRoom && r.state.core.reg.socketToRoom[sid] == roomId
    && partner.socketId in r.state.core.reg.socketToRoom
    && r.state.core.reg.socketToRoom[partner.socketId] == roomId
  }

  /** A join that finds a match ends as `MatchedWith` some queued partner. */
  lemma JoinMatched(s: State, sid: Id, uid: Id, interests: Option<seq<string>>, joinedAt: int,
                    roomId: Id, createdAt: int)
    requires HasOther(s.core.queue, sid)
    ensures exists partner: QueuedUser ::
              MatchedWith(s, Join(s, sid, uid, interests, joinedAt, roomId, createdAt),
                          sid, uid, roomId, createdAt, partner)
  {
    var c1 := Enqueue(s.core, Entry(sid, uid, interests, joinedAt));
    PutKeepsOther(s.core.queue, Entry(sid, uid, interests, joinedAt));
    var (c2, m) := FindMatch(c1, sid, roomId, createdAt);
    Matched(c1, sid, roomId, createdAt);
    assert m.value.partner in s.core.queue;
    var s2 := State(c2, s.socketToUser);
    assert Join(s, sid, uid, interests, joinedAt, roomId, createdAt)
        == Step(s2, Announce(c2, sid, uid, m) + [BroadcastStats(s2)]);
    AnnounceMatch(s, c1, c2, m, sid, uid, roomId, createdAt);
  }

  /** Queuing the caller keeps every other waiting socket. */
  lemma PutKeepsOther(q: seq<QueuedUser>, user: QueuedUser)
    requires HasOther(q, user.socketId)
    ensures Has(Put(q, user), user.socketId) && HasOther(Put(q, user), user.socketId)
  {
    var j :| 0 <= j < |q| && q[j].socketId != user.socketId;
    assert Put(q, user)[j] == q[j];
  }

  lemma AnnounceMatch(s: State, c1: Core, c2: Core, m: Option<Match>, sid: Id, uid: Id,
                      roomId: Id, createdAt: int)
    requires m.Some? && m.value.partner in s.core.queue && m.value.partner.socketId != sid
    requires m.value.room == Room(roomId, sid, m.value.partner.socketId, createdAt)
    requires !Has(c2.queue, m.value.partner.socketId) && c2.reg == Open(c1.reg, m.value.room)
    ensures var s2 := State(c2, s.socketToUser);
            MatchedWith(s, Step(s2, Announce(c2, sid, uid, m) + [BroadcastStats(s2)]),
                        sid, uid, roomId, createdAt, m.value.partner)
  {
  }

  /** Unlike the library, joining does not leave the caller's current room: that room stays
      registered with the caller as a member, whether or not a new match is made. */
  lemma JoinKeepsOldRoom(s: State, sid: Id, uid: Id, interests: Option<seq<string>>,
                         joinedAt: int, roomId: Id, createdAt: int)
    requires Wf(s) && sid in s.core.reg.socketToRoom && roomId !in s.core.reg.rooms
    ensures var r := Join(s, sid, uid, interests, joinedAt, roomId, createdAt);
            var old_rid := s.core.reg.socketToRoom[sid];
            && old_rid in r.state.core.reg.rooms
            && IsMember(r.state.core.reg.rooms[old_rid], sid)
            && (Has(r.state.core.queue, sid) ==> r.state.core.reg.socketToRoom[sid] == old_rid)
  {
    var c1 := Enqueue(s.core, Entry(sid, uid, interests, joinedAt));
    var (c2, m) := FindMatch(c1, sid, roomId, createdAt);
    assert Join(s, sid, uid, interests, joinedAt, roomId, createdAt).state.core == c2;
    if m.Some? {
      Matched(c1, sid, roomId, createdAt);
      OpenOverRoom(c1.reg, m.value.room);
    }
  }

  // ---------------------------------------------------------------- stats

  /** A join that finds a partner moves the partner, and the caller if it was already
      queued, from waiting to chatting: chatting rises by two and online, which counts
      connections, does not change. */
  lemma JoinMatchedStats(s: State, sid: Id, uid: Id, interests: Option<seq<string>>,
                         joinedAt: int, roomId: Id, createdAt: int)
    requires UniqueKeys(s.core.queue) && roomId !in s.core.reg.rooms
    requires HasOther(s.core.queue, sid)
    ensures var s0 := StatsOf(s);
            var s1 := StatsOf(Join(s, sid, uid, interests, joinedAt, roomId, createdAt).state);
            && s1.online == s0.online && s1.chatting == s0.chatting + 2
            && s1.waiting == s0.waiting - (if Has(s.core.queue, sid) then 2 else 1)
  {
    var user := Entry(sid, uid, interests, joinedAt);
    var c1 := Enqueue(s.core, user);
    PutKeepsOther(s.core.queue, user);
    assert |c1.queue| == |s.core.queue| + (if Has(s.core.queue, sid) then 0 else 1);
    FindMatchSizes(c1, sid, roomId, createdAt);
    assert Join(s, sid, uid, interests, joinedAt, roomId, createdAt).state.core
           == FindMatch(c1, sid, roomId, createdAt).0;
  }

  /** A server match takes two entries off the queue and adds one room. */
  lemma FindMatchSizes(c: Core, sid: Id, roomId: Id, createdAt: int)
    requires UniqueKeys(c.queue) && roomId !in c.reg.rooms
    requires Has(c.queue, sid) && HasOther(c.queue, sid)
    ensures var c' := FindMatch(c, sid, roomId, createdAt).0;
            |c'.queue| == |c.queue| - 2 && |c'.reg.rooms| == |c.reg.rooms| + 1
  {
    var user := Get(c.queue, sid).value;
    assert FindMatch(c, sid, roomId, createdAt).1.Some? by {
      var j :| 0 <= j < |c.queue| && c.queue[j].socketId != sid;
    }
    var k := Pick(c.queue, sid, user, Of(c.history, user.userId)).value;
    var partner := c.queue[k];
    assert FindMatch(c, sid, roomId, createdAt).0 == Commit(c, user, partner, roomId, createdAt, SERVER_CAP).0;
    CommitSizes(c, user, partner, roomId, createdAt, SERVER_CAP);
  }

  /** A disconnect lowers online by one for a connected socket, waiting by one for a queued
      one, and chatting by two for one in a room. */
  lemma DropStats(s: State, sid: Id)
    requires Wf(s)
    ensures var s0 := StatsOf(s);
            var s1 := StatsOf(DropSocket(s, sid).state);
            && s1.online == s0.online - (if sid in s.socketToUser then 1 else 0)
            && s1.waiting == s0.waiting - (if Has(s.core.queue, sid) then 1 else 0)
            && s1.chatting == s0.chatting - (if sid in s.core.reg.socketToRoom then 2 else 0)
  {
    var r := DropSocket(s, sid).state;
    RemoveSize(s.core.queue, sid);
    DropKeyCount(s.socketToUser, sid);
    LeaveRoomCount(s.core.reg, sid);
    assert |r.socketToUser| == |s.socketToUser| - (if sid in s.socketToUser then 1 else 0);
    assert |r.core.reg.rooms| == |s.core.reg.rooms| - (if sid in s.core.reg.socketToRoom then 1 else 0);
  }

  lemma DropKeyCount(m: map<Id, Id>, k: Id)
    ensures |m - {k}| == |m| - (if k in m then 1 else 0)
  {
    assert (m - {k}).Keys == m.Keys - {k};
  }

  /** An accepted connection raises online by one for a new socket; nothing else moves. */
  lemma AcceptStats(s: State, sid: Id, uid: Id)
    ensures var s0 := StatsOf(s);
            var s1 := StatsOf(Accept(s, sid, true, uid).state);
            && s1.online == s0.online + (if sid in s.socketToUser then 0 else 1)
            && s1.waiting == s0.waiting && s1.chatting == s0.chatting
  {
    if sid !in s.socketToUser {
      assert s.socketToUser[sid := uid].Keys == s.socketToUser.Keys + {sid};
    } else {
      assert s.socketToUser[sid := uid].Keys == s.socketToUser.Keys;
    }
  }

  /** `queue:leave`. */
  function Leave(s: State, sid: Id): (r: Step)
    ensures !Has(r.state.core.queue, sid)
    ensures forall v :: v in r.state.core.queue <==> v in s.core.queue && v.socketId != sid
    ensures r.state.core.queue == Remove(s.core.queue, sid)
    ensures r.state.core.reg == s.core.reg && r.state.socketToUser == s.socketToUser
    ensures r.state.core.history == s.core.history
    ensures r.out == [BroadcastStats(r.state)]
  {
    var s' := s.(core := s.core.(queue := Remove(s.core.queue, sid)));
    Step(s', [BroadcastStats(s')])
  }

  /** `message:send`: the limiter first, then membership, then sanitising; a non-empty
      result goes to the partner only, and the state never changes. */
  function SendMessage(s: State, sid: Id, allowed: bool, roomId: Option<Id>, content: Content,
                       messageId: Id, timestamp: int): (r: Step)
    ensures r.state == s
    ensures !allowed ==> r.out == [To(sid, Error("RATE_LIMIT", "You are sending messages too fast."))]
    ensures allowed && !InRoom(s.core.reg, roomId, sid) ==>
              r.out == [To(sid, Error("NOT_IN_ROOM", "You are not in a chat room."))]
    ensures allowed && InRoom(s.core.reg, roomId, sid) && Sanitize(content) == "" ==> r.out == []
    ensures allowed && InRoom(s.core.reg, roomId, sid) && Sanitize(content) != "" ==>
              var room := s.core.reg.rooms[roomId.value];
              r.out == [To(Other(room, sid), MessageReceive(roomId.value, Sanitize(content), messageId, timestamp))]
              && (Consistent(s.core.reg) ==> Other(room, sid) != sid && IsMember(room, Other(room, sid)))
  {
    if !allowed then Step(s, [To(sid, Error("RATE_LIMIT", "You are sending messages too fast."))])
    else if !InRoom(s.core.reg, roomId, sid) then
      Step(s, [To(sid, Error("NOT_IN_ROOM", "You are not in a chat room."))])
    else
      var text := Sanitize(content);
      if text == "" then Step(s, [])
      else match GetPartner(s.core.reg, roomId.value, sid)
        case None => Step(s, [])
        case Some(p) => Step(s, [To(p, MessageReceive(roomId.value, text, messageId, timestamp))])
  }

  /** `typing:start` / `typing:stop`: forwarded to the partner of a member, dropped
      otherwise. */
  function Typing(s: State, sid: Id, roomId: Option<Id>, isTyping: bool): (r: Step)
    ensures r.state == s
    ensures r.out != [] <==> InRoom(s.core.reg, roomId, sid)
    ensures r.out != [] ==>
              r.out == [To(Other(s.core.reg.rooms[roomId.value], sid), TypingUpdate(roomId.value, isTyping))]
  {
    if !InRoom(s.core.reg, roomId, sid) then Step(s, [])
    else match GetPartner(s.core.reg, roomId.value, sid)
      case None => Step(s, [])
      case Some(p) => Step(s, [To(p, TypingUpdate(roomId.value, isTyping))])
  }

  /** `signal:send`: an offer, answer or candidate from a member goes, unmodified, to the
      other member only; anything else is dropped silently. */
  function RelaySignal(s: State, sid: Id, roomId: Option<Id>, kind: string, data: Protocol.Blob): (r: Step)
    ensures r.state == s
    ensures r.out != [] <==> Protocol.IsSignalType(kind) && InRoom(s.core.reg, roomId, sid)
    ensures r.out != [] ==>
              var room := s.core.reg.rooms[roomId.value];
              r.out == [To(Other(room, sid), SignalReceive(roomId.value, kind, data))]
              && (Consistent(s.core.reg) ==> Other(room, sid) != sid && IsMember(room, Other(room, sid)))
  {
    if !Protocol.IsSignalType(kind) then Step(s, [])
    else if !InRoom(s.core.reg, roomId, sid) then Step(s, [])
    else match GetPartner(s.core.reg, roomId.value, sid)
      case None => Step(s, [])
      case Some(p) => Step(s, [To(p, SignalReceive(roomId.value, kind, data))])
  }

  /** `chat:next`: leave the room and tell the former partner. The notice reads the
      partner's room entry after `leaveRoom` has deleted it, so it never carries a room
      id. */
  function Next(s: State, sid: Id): (r: Step)
    ensures var (reg', p) := LeaveRoom(s.core.reg, sid);
            && r.state == s.(core := s.core.(reg := reg'))
            && (p.None? ==> r.out == [BroadcastStats(r.state)])
            && (p.Some? ==> r.out == [To(p.value, StrangerDisconnected(None, "next")), BroadcastStats(r.state)])
  {
    var (reg', p) := LeaveRoom(s.core.reg, sid);
    var s' := s.(core := s.core.(reg := reg'));
    var notice := match p
      case Some(partner) => [To(partner, StrangerDisconnected(Lookup(reg'.socketToRoom, partner), "next"))]
      case None => [];
    Step(s', notice + [BroadcastStats(s')])
  }

  /** `chat:disconnect`: a member leaves the named room and the partner is told, with that
      room id; a non-member changes nothing and hears nothing. */
  function LeaveChat(s: State, sid: Id, roomId: Option<Id>): (r: Step)
    ensures !InRoom(s.core.reg, roomId, sid) ==> r == Step(s, [])
    ensures InRoom(s.core.reg, roomId, sid) ==>
              var room := s.core.reg.rooms[roomId.value];
              && r.state == s.(core := s.core.(reg := LeaveRoom(s.core.reg, sid).0))
              && r.out == [To(Other(room, sid), StrangerDisconnected(roomId, "disconnect")),
                           BroadcastStats(r.state)]
  {
    if !InRoom(s.core.reg, roomId, sid) then Step(s, [])
    else
      var p := GetPartner(s.core.reg, roomId.value, sid);
      var (reg', _) := LeaveRoom(s.core.reg, sid);
      var s' := s.(core := s.core.(reg := reg'));
      var notice := match p
        case Some(partner) => [To(partner, StrangerDisconnected(roomId, "disconnect"))]
        case None => [];
      Step(s', notice + [BroadcastStats(s')])
  }

  /** The socket's own `disconnect`: out of the queue, out of its room (the partner is told,
      without a room id), forgotten. */
  function DropSocket(s: State, sid: Id): (r: Step)
    ensures !Has(r.state.core.queue, sid) && sid !in r.state.socketToUser
    ensures Consistent(s.core.reg) ==> sid !in r.state.core.reg.socketToRoom
    ensures r.state.socketToUser == s.socketToUser - {sid}
    ensures r.state.core.queue == Remove(s.core.queue, sid)
    ensures r.state.core.reg == LeaveRoom(s.core.reg, sid).0
    ensures r.state.core.history == s.core.history
    ensures var p := LeaveRoom(s.core.reg, sid).1;
            && (p.Some? ==> r.out == [To(p.value, StrangerDisconnected(None, "disconnect")), BroadcastStats(r.state)])
            && (p.None? ==> r.out == [BroadcastStats(r.state)])
  {
    var left := LeaveRoom(s.core.reg, sid);
    LeaveRoomForgets(s.core.reg, sid);
    var s' := State(Core(Remove(s.core.queue, sid), left.0, s.core.history), s.socketToUser - {sid});
    if left.1.Some? then
      Step(s', [To(left.1.value, StrangerDisconnected(None, "disconnect")), BroadcastStats(s')])
    else Step(s', [BroadcastStats(s')])
  }

  /** The connection handler: a connection the limiter refuses gets an error and is closed,
      with no state change; otherwise the socket's user id is recorded. */
  function Accept(s: State, sid: Id, allowed: bool, uid: Id): (r: Step)
    ensures !allowed ==>
              && r.state == s
              && r.out == [To(sid, Error("RATE_LIMIT", "Too many connections. Please try again later.")), Close(sid)]
    ensures allowed ==>
              && r.state.core == s.core && r.state.socketToUser == s.socketToUser[sid := uid]
              && r.out == [BroadcastStats(r.state)]
  {
    if !allowed then
      Step(s, [To(sid, Error("RATE_LIMIT", "Too many connections. Please try again later.")), Close(sid)])
    else
      var s' := s.(socketToUser := s.socketToUser[sid := uid]);
      Step(s', [BroadcastStats(s')])
  }

  /** Dispatch one input from socket `sid` to the handler registered for its event. */
  function Handle(s: State, sid: Id, input: Input): Step
  {
    match input
    case Connect(allowed, uid) => Accept(s, sid, allowed, uid)
    case QueueJoin(uid, interests, joinedAt, roomId, createdAt) =>
      Join(s, sid, uid, interests, joinedAt, roomId, createdAt)
    case QueueLeave => Leave(s, sid)
    case MessageSend(allowed, roomId, content, messageId, timestamp) =>
      SendMessage(s, sid, allowed, roomId, content, messageId, timestamp)
    case TypingStart(roomId) => Typing(s, sid, roomId, true)
    case TypingStop(roomId) => Typing(s, sid, roomId, false)
    case SignalSend(roomId, kind, data) => RelaySignal(s, sid, roomId, kind, data)
    case ChatNext => Next(s, sid)
    case ChatDisconnect(roomId) => LeaveChat(s, sid, roomId)
    case Disconnect => DropSocket(s, sid)
  }

  /** Each input reaches the handler registered for its event. */
  lemma HandleDispatches(s: State, sid: Id, input: Input)
    ensures input.Connect? ==> Handle(s, sid, input) == Accept(s, sid, input.allowed, input.userId)
    ensures input.QueueJoin? ==>
              Handle(s, sid, input) == Join(s, sid, input.userId, input.interests, input.joinedAt, input.newRoomId, input.createdAt)
    ensures input.QueueLeave? ==> Handle(s, sid, input) == Leave(s, sid)
    ensures input.MessageSend? ==>
              Handle(s, sid, input) == SendMessage(s, sid, input.allowed, input.roomId, input.content, input.messageId, input.timestamp)
    ensures input.TypingStart? ==> Handle(s, sid, input) == Typing(s, sid, input.roomId, true)
    ensures input.TypingStop? ==> Handle(s, sid, input) == Typing(s, sid, input.roomId, false)
    ensures input.SignalSend? ==> Handle(s, sid, input) == RelaySignal(s, sid, input.roomId, input.kind, input.data)
    ensures input.ChatNext? ==> Handle(s, sid, input) == Next(s, sid)
    ensures input.ChatDisconnect? ==> Handle(s, sid, input) == LeaveChat(s, sid, input.roomId)
    ensures input.Disconnect? ==> Handle(s, sid, input) == DropSocket(s, sid)
  {
  }

  /** Only an accepted connection, the queue events, `chat:next`, `chat:disconnect` and
      `disconnect` change the state: messages, typing notices, signals and a refused
      connection only produce output, and typing start and stop relay their own flag. */
  lemma HandleOutputOnly(s: State, sid: Id, input: Input)
    ensures (|| input.MessageSend? || input.TypingStart? || input.TypingStop? || input.SignalSend?
             || (input.Connect? && !input.allowed)) ==> Handle(s, sid, input).state == s
    ensures input.TypingStart? || input.TypingStop? ==>
              var out := Handle(s, sid, input).out;
              && (out != [] <==> InRoom(s.core.reg, input.roomId, sid))
              && (out != [] ==> out == [To(Other(s.core.reg.rooms[input.roomId.value], sid),
                                           TypingUpdate(input.roomId.value, input.TypingStart?))])
  {
    HandleDispatches(s, sid, input);
  }

  /** The room id a `queue:join` draws is not a live room id. */
  predicate FreshFor(s: State, input: Input) {
    input.QueueJoin? ==> input.newRoomId !in s.core.reg.rooms
  }

  /** Every handler keeps the invariant: queue keys distinct, registry consistent, every
      history a set of at most 15 ids, and no queued participant with more than ten
      interests. */
  lemma HandlePreservesWf(s: State, sid: Id, input: Input)
    requires Wf(s) && FreshFor(s, input)
    ensures Wf(Handle(s, sid, input).state)
  {
    match input
    case QueueJoin(uid, interests, joinedAt, roomId, createdAt) =>
      JoinPreservesWf(s, sid, uid, interests, joinedAt, roomId, createdAt);
    case QueueLeave => QueueLeavePreservesWf(s, sid);
    case ChatNext => NextPreservesWf(s, sid);
    case ChatDisconnect(roomId) => LeaveChatPreservesWf(s, sid, roomId);
    case Disconnect => DropPreservesWf(s, sid);
    case _ =>
  }

  lemma QueueLeavePreservesWf(s: State, sid: Id)
    requires Wf(s)
    ensures Wf(Leave(s, sid).state)
  {
    var q := Leave(s, sid).state.core.queue;
    RemoveKeepsUnique(s.core.queue, sid);
    BoundedAfterRemoval(s.core.queue, q);
  }

  lemma NextPreservesWf(s: State, sid: Id)
    requires Wf(s)
    ensures Wf(Next(s, sid).state)
  {
    LeavePreservesConsistent(s.core.reg, sid);
  }

  lemma LeaveChatPreservesWf(s: State, sid: Id, roomId: Option<Id>)
    requires Wf(s)
    ensures Wf(LeaveChat(s, sid, roomId).state)
  {
    LeavePreservesConsistent(s.core.reg, sid);
  }

  lemma DropPreservesWf(s: State, sid: Id)
    requires Wf(s)
    ensures Wf(DropSocket(s, sid).state)
  {
    var c := DropSocket(s, sid).state.core;
    LeavePreservesConsistent(s.core.reg, sid);
    assert c.queue == Remove(s.core.queue, sid) && c.reg == LeaveRoom(s.core.reg, sid).0;
    RemoveKeepsUnique(s.core.queue, sid);
    BoundedAfterRemoval(s.core.queue, c.queue);
  }

  lemma LeavePreservesConsistent(reg: Registry, sid: Id)
    requires Consistent(reg)
    ensures Consistent(LeaveRoom(reg, sid).0)
  {
    if sid in reg.socketToRoom {
      LeaveRoomInRoom(reg, sid);
    }
  }

  lemma JoinPreservesWf(s: State, sid: Id, uid: Id, interests: Option<seq<string>>,
                        joinedAt: int, roomId: Id, createdAt: int)
    requires Wf(s) && roomId !in s.core.reg.rooms
    ensures Wf(Join(s, sid, uid, interests, joinedAt, roomId, createdAt).state)
  {
    var c1 := Enqueue(s.core, Entry(sid, uid, interests, joinedAt));
    EnqueuePreservesWf(s.core, Entry(sid, uid, interests, joinedAt));
    FindMatchPreservesWf(c1, sid, roomId, createdAt);
  }

  lemma EnqueuePreservesWf(c: Core, user: QueuedUser)
    requires CoreWf(c, SERVER_CAP) && InterestsBounded(c.queue) && |user.interests| <= MAX_INTERESTS
    ensures CoreWf(Enqueue(c, user), SERVER_CAP) && InterestsBounded(Enqueue(c, user).queue)
  {
    var q := Enqueue(c, user).queue;
    forall j | 0 <= j < |q| ensures |q[j].interests| <= MAX_INTERESTS {
      assert q[j] in q;
    }
  }

  lemma FindMatchPreservesWf(c: Core, sid: Id, roomId: Id, createdAt: int)
    requires CoreWf(c, SERVER_CAP) && InterestsBounded(c.queue) && roomId !in c.reg.rooms
    ensures CoreWf(FindMatch(c, sid, roomId, createdAt).0, SERVER_CAP)
    ensures InterestsBounded(FindMatch(c, sid, roomId, createdAt).0.queue)
  {
    var (c2, m) := FindMatch(c, sid, roomId, createdAt);
    if m.Some? {
      var u := Get(c.queue, sid).value;
      CommitPreservesWf(c, u, m.value.partner, roomId, createdAt, SERVER_CAP);
      BoundedAfterRemoval(c.queue, c2.queue);
    }
  }

  /** Entries taken from a queue of bounded interest lists have bounded interest lists. */
  lemma BoundedAfterRemoval(q: seq<QueuedUser>, q': seq<QueuedUser>)
    requires InterestsBounded(q) && forall v :: v in q' ==> v in q
    ensures InterestsBounded(q')
  {
    forall j | 0 <= j < |q'| ensures |q'[j].interests| <= MAX_INTERESTS {
      assert q'[j] in q';
      var i :| 0 <= i < |q| && q[i] == q'[j];
    }
  }
}

=== FILE: service.dfy ===
/** The `MatchmakingService` class (lib/matchmaking/index.ts): the same queue, registry and
    history as the server, with a history cap of 10, a three-pass candidate policy, and an
    `addToQueue` that first leaves the caller's room. */
module Service {
  import opened Basics
  import Protocol
  import opened Queue
  import opened History
  import opened Registry
  import opened Selection
  import opened Pairing

  /** No queued socket is in a room. */
  predicate Exclusive(c: Core) {
    forall j :: 0 <= j < |c.queue| ==> c.queue[j].socketId !in c.reg.socketToRoom
  }

  /** The library's invariant: the core invariant with cap 10, both members of every room
      map to it, and queued sockets are not in rooms. */
  predicate Wf(c: Core) {
    CoreWf(c, LIBRARY_CAP) && Paired(c.reg) && Exclusive(c)
  }

  /** `addToQueue(user)`: leave the current room, then `queue.set`. */
  function AddToQueue(c: Core, user: QueuedUser): (r: Core)
    ensures Has(r.queue, user.socketId)
    ensures r.history == c.history
    ensures Consistent(c.reg) ==> user.socketId !in r.reg.socketToRoom
    ensures r.reg == LeaveRoom(c.reg, user.socketId).0
    ensures forall v :: v in r.queue ==> v == user || v in c.queue
    ensures r.queue == Put(c.queue, user)
  {
    var (reg', _) := LeaveRoom(c.reg, user.socketId);
    assert Consistent(c.reg) ==> user.socketId !in reg'.socketToRoom by {
      if Consistent(c.reg) && user.socketId in c.reg.socketToRoom {
        LeaveRoomInRoom(c.reg, user.socketId);
      }
    }
    Core(Put(c.queue, user), reg', c.history)
  }

  /** `removeFromQueue(socketId)`. */
  function RemoveFromQueue(c: Core, sid: Id): (r: Core)
    ensures !Has(r.queue, sid)
    ensures forall v :: v in r.queue <==> v in c.queue && v.socketId != sid
    ensures r.queue == Remove(c.queue, sid)
    ensures r.reg == c.reg && r.history == c.history
  {
    c.(queue := Remove(c.queue, sid))
  }

  // ---------------------------------------------------------------- matching

  function SkipSelfOrPrevious(sid: Id, prev: seq<Id>): QueuedUser -> bool {
    (u: QueuedUser) => u.socketId == sid || u.userId in prev
  }

  function NotSelfNorPrevious(sid: Id, prev: seq<Id>): QueuedUser -> bool {
    (u: QueuedUser) => u.socketId != sid && u.userId !in prev
  }

  function NotSelf(sid: Id): QueuedUser -> bool {
    (u: QueuedUser) => u.socketId != sid
  }

  function SharedFn(user: QueuedUser): QueuedUser -> int {
    (c: QueuedUser) => Shared(user.interests, c.interests)
  }

  /** Some other queued socket belongs to a user outside the history. */
  predicate HasFresh(q: seq<QueuedUser>, sid: Id, prev: seq<Id>) {
    exists j :: 0 <= j < |q| && q[j].socketId != sid && q[j].userId !in prev
  }

  /** The first pass: skip self and previous partners, keep the strictly best shared count
      starting from -1. */
  function FirstPass(q: seq<QueuedUser>, sid: Id, user: QueuedUser, prev: seq<Id>): (r: Option<nat>)
    ensures r.None? <==> !HasFresh(q, sid, prev)
    ensures r.Some? ==> r.value < |q| && q[r.value].socketId != sid && q[r.value].userId !in prev
    ensures r.Some? ==> forall j :: 0 <= j < |q| && q[j].socketId != sid && q[j].userId !in prev ==>
              Shared(user.interests, q[j].interests) <= Shared(user.interests, q[r.value].interests)
    ensures r.Some? ==> forall j :: 0 <= j < r.value && q[j].socketId != sid && q[j].userId !in prev ==>
              Shared(user.interests, q[j].interests) < Shared(user.interests, q[r.value].interests)
  {
    var r := BestOf(q, SkipSelfOrPrevious(sid, prev), SharedFn(user), Finite(-1));
    assert r.None? ==> !HasFresh(q, sid, prev) by {
      if r.None? && HasFresh(q, sid, prev) {
        var j :| 0 <= j < |q| && q[j].socketId != sid && q[j].userId !in prev;
        assert Beats(SharedFn(user)(q[j]), Finite(-1));
        assert false;
      }
    }
    r
  }

  /** The whole policy: the first pass; failing that, the first non-history candidate
      (lines 46-54); failing that, the first other socket in queue order (lines 57-63). */
  function Pick(q: seq<QueuedUser>, sid: Id, user: QueuedUser, prev: seq<Id>): (r: Option<nat>)
    ensures r.Some? ==> r.value < |q| && q[r.value].socketId != sid
    ensures r.None? <==> forall j :: 0 <= j < |q| ==> q[j].socketId == sid
    ensures HasFresh(q, sid, prev) ==> r == FirstPass(q, sid, user, prev)
    ensures !HasFresh(q, sid, prev) && r.Some? ==>
              forall j :: 0 <= j < r.value ==> q[j].socketId == sid
  {
    var first := FirstPass(q, sid, user, prev);
    if first.Some? then first
    else
      var second := FirstWhere(q, NotSelfNorPrevious(sid, prev), 0);
      if second.Some? then second
      else FirstWhere(q, NotSelf(sid), 0)
  }

  /** The middle pass can never succeed: a first pass that found nothing means no other
      socket is outside the history, which is exactly what the middle pass looks for. */
  lemma SecondPassNeverSucceeds(q: seq<QueuedUser>, sid: Id, user: QueuedUser, prev: seq<Id>)
    requires FirstPass(q, sid, user, prev).None?
    ensures FirstWhere(q, NotSelfNorPrevious(sid, prev), 0).None?
  {
  }

  /** `findMatch(socketId)`. */
  function FindMatch(c: Core, sid: Id, roomId: Id, createdAt: int): (r: (Core, Option<Match>))
    ensures !Has(c.queue, sid) ==> r == (c, None)
    ensures (forall j :: 0 <= j < |c.queue| ==> c.queue[j].socketId == sid) ==> r == (c, None)
    ensures r.1.None? ==> r.0 == c
    ensures r.1.Some? <==> Has(c.queue, sid) && exists j :: 0 <= j < |c.queue| && c.queue[j].socketId != sid
    ensures r.1.Some? ==>
              var user := Get(c.queue, sid).value;
              var k := Pick(c.queue, sid, user, Of(c.history, user.userId));
              && k.Some? && r.1.value.partner == c.queue[k.value]
              && r.1.value.partner.socketId != sid
              && r.0 == Commit(c, user, r.1.value.partner, roomId, createdAt, LIBRARY_CAP).0
              && r.1.value == Commit(c, user, r.1.value.partner, roomId, createdAt, LIBRARY_CAP).1
  {
    match Get(c.queue, sid)
    case None => (c, None)
    case Some(user) =>
      match Pick(c.queue, sid, user, Of(c.history, user.userId))
      case None => (c, None)
      case Some(k) =>
        var (c', m) := Commit(c, user, c.queue[k], roomId, createdAt, LIBRARY_CAP);
        (c', Some(m))
  }

  // ---------------------------------------------------------------- rooms

  /** `leaveCurrentRoom(socketId)`. */
  function LeaveCurrentRoom(c: Core, sid: Id): (r: (Core, Option<Id>))
    ensures r.0.queue == c.queue && r.0.history == c.history
    ensures (r.0.reg, r.1) == LeaveRoom(c.reg, sid)
    ensures Consistent(c.reg) ==> sid !in r.0.reg.socketToRoom
    ensures Consistent(c.reg) && sid in c.reg.socketToRoom ==>
              r.1.Some? && r.1.value != sid && IsMember(c.reg.rooms[c.reg.socketToRoom[sid]], r.1.value)
  {
    var (reg', p) := LeaveRoom(c.reg, sid);
    assert Consistent(c.reg) ==> sid !in reg'.socketToRoom by {
      if Consistent(c.reg) && sid in c.reg.socketToRoom {
        LeaveRoomInRoom(c.reg, sid);
      }
    }
    (c.(reg := reg'), p)
  }

  /** Leaving twice: the second call returns `None` and changes nothing. */
  lemma LeaveCurrentRoomIdempotent(c: Core, sid: Id)
    ensures var c1 := LeaveCurrentRoom(c, sid).0;
            LeaveCurrentRoom(c1, sid) == (c1, None)
  {
    LeaveRoomIdempotent(c.reg, sid);
  }

  /** `getRoomBySocketId(socketId)`. */
  function GetRoomBySocketId(c: Core, sid: Id): (r: Option<Room>)
    ensures r.Some? <==> sid in c.reg.socketToRoom && c.reg.socketToRoom[sid] in c.reg.rooms
    ensures r.Some? ==> r.value == c.reg.rooms[c.reg.socketToRoom[sid]]
    ensures r.Some? && Consistent(c.reg) ==> IsMember(r.value, sid) && r.value.id == c.reg.socketToRoom[sid]
  {
    match Lookup(c.reg.socketToRoom, sid)
    case None => None
    case Some(rid) => Lookup(c.reg.rooms, rid)
  }

  /** `getRoomById(roomId)`. */
  function GetRoomById(c: Core, rid: Id): (r: Option<Room>)
    ensures r.Some? <==> rid in c.reg.rooms
    ensures r.Some? ==> r.value == c.reg.rooms[rid]
    ensures r.Some? && Consistent(c.reg) ==> r.value.id == rid
  {
    Lookup(c.reg.rooms, rid)
  }

  /** `getPartnerSocketId(roomId, socketId)`: like the server's `getPartner`, with no
      membership check. */
  function GetPartnerSocketId(c: Core, rid: Id, sid: Id): (r: Option<Id>)
    ensures r.Some? <==> rid in c.reg.rooms
    ensures r.Some? ==> r.value == Other(c.reg.rooms[rid], sid)
    ensures Consistent(c.reg) && InRoom(c.reg, Some(rid), sid) ==>
              r.Some? && r.value != sid && IsMember(c.reg.rooms[rid], r.value)
  {
    GetPartner(c.reg, rid, sid)
  }

  /** `{ partnerId, wasInQueue }`. */
  datatype DisconnectInfo = DisconnectInfo(partnerId: Option<Id>, wasInQueue: bool)

  /** `onDisconnect(socketId)`: membership is read before the delete; then the socket
      leaves the queue and its room. */
  function OnDisconnect(c: Core, sid: Id): (r: (Core, DisconnectInfo))
    ensures r.1.wasInQueue <==> Has(c.queue, sid)
    ensures !Has(r.0.queue, sid)
    ensures Consistent(c.reg) ==> sid !in r.0.reg.socketToRoom
    ensures r.1.partnerId == LeaveRoom(c.reg, sid).1
    ensures r.0.queue == Remove(c.queue, sid) && r.0.reg == LeaveRoom(c.reg, sid).0
    ensures r.0.history == c.history
  {
    var wasInQueue := Has(c.queue, sid);
    var (c', p) := LeaveCurrentRoom(RemoveFromQueue(c, sid), sid);
    (c', DisconnectInfo(p, wasInQueue))
  }

  // ---------------------------------------------------------------- queries

  /** `getStats()`: unlike the server, online is derived from the queue and the rooms. */
  function GetStats(c: Core): (r: Protocol.Stats)
    ensures r.waiting == |c.queue| && r.chatting == 2 * |c.reg.rooms|
    ensures r.online == r.waiting + r.chatting
  {
    Protocol.Stats(|c.queue| + 2 * |c.reg.rooms|, |c.queue|, 2 * |c.reg.rooms|)
  }

  /** A match moves two sockets from waiting to chatting: the waiting count drops by two,
      the chatting count rises by two and online is unchanged. */
  lemma MatchConservesOnline(c: Core, sid: Id, roomId: Id, createdAt: int)
    requires UniqueKeys(c.queue) && roomId !in c.reg.rooms
    requires Has(c.queue, sid) && HasOther(c.queue, sid)
    ensures var s0 := GetStats(c);
            var s1 := GetStats(FindMatch(c, sid, roomId, createdAt).0);
            s1.waiting == s0.waiting - 2 && s1.chatting == s0.chatting + 2 && s1.online == s0.online
  {
    MatchSizes(c, sid, roomId, createdAt);
    StatsShift(c, FindMatch(c, sid, roomId, createdAt).0);
  }

  lemma StatsShift(c: Core, c': Core)
    requires |c'.queue| == |c.queue| - 2 && |c'.reg.rooms| == |c.reg.rooms| + 1
    ensures GetStats(c').waiting == GetStats(c).waiting - 2
    ensures GetStats(c').chatting == GetStats(c).chatting + 2
    ensures GetStats(c').online == GetStats(c).online
  {
  }

  lemma MatchSizes(c: Core, sid: Id, roomId: Id, createdAt: int)
    requires UniqueKeys(c.queue) && roomId !in c.reg.rooms
    requires Has(c.queue, sid) && HasOther(c.queue, sid)
    ensures var c' := FindMatch(c, sid, roomId, createdAt).0;
            |c'.queue| == |c.queue| - 2 && |c'.reg.rooms| == |c.reg.rooms| + 1
  {
    var user := Get(c.queue, sid).value;
    var k := Pick(c.queue, sid, user, Of(c.history, user.userId)).value;
    var partner := c.queue[k];
    assert FindMatch(c, sid, roomId, createdAt).0 == Commit(c, user, partner, roomId, createdAt, LIBRARY_CAP).0;
    CommitSizes(c, user, partner, roomId, createdAt, LIBRARY_CAP);
  }

  /** `getQueuePosition(socketId)`: counts entries in insertion order until the socket is
      found. */
  method GetQueuePosition(c: Core, sid: Id) returns (pos: int)
    ensures pos == -1 <==> !Has(c.queue, sid)
    ensures pos != -1 ==> 1 <= pos <= |c.queue| && c.queue[pos - 1].socketId == sid
    ensures pos != -1 ==> forall j :: 0 <= j < pos - 1 ==> c.queue[j].socketId != sid
    ensures pos == IndexOf(c.queue, sid) + 1 || pos == -1
  {
    var position := 0;
    var i := 0;
    while i < |c.queue|
      invariant 0 <= i <= |c.queue| && position == i
      invariant forall j :: 0 <= j < i ==> c.queue[j].socketId != sid
    {
      position := position + 1;
      if c.queue[i].socketId == sid {
        return position;
      }
      i := i + 1;
    }
    return -1;
  }

  // ---------------------------------------------------------------- invariant

  lemma AddToQueuePreservesWf(c: Core, user: QueuedUser)
    requires Wf(c)
    ensures Wf(AddToQueue(c, user))
  {
    var sid := user.socketId;
    var (reg', p) := LeaveRoom(c.reg, sid);
    if sid in c.reg.socketToRoom {
      LeaveRoomInRoom(c.reg, sid);
    }
    LeaveRoomPaired(c.reg, sid);
    var r := AddToQueue(c, user);
    forall j | 0 <= j < |r.queue| ensures r.queue[j].socketId !in r.reg.socketToRoom {
      assert r.queue[j] in r.queue;
      if r.queue[j] != user {
        var i :| 0 <= i < |c.queue| && c.queue[i] == r.queue[j];
      }
    }
  }

  lemma RemoveFromQueuePreservesWf(c: Core, sid: Id)
    requires Wf(c)
    ensures Wf(RemoveFromQueue(c, sid))
  {
    var r := RemoveFromQueue(c, sid);
    RemoveKeepsUnique(c.queue, sid);
    forall j | 0 <= j < |r.queue| ensures r.queue[j].socketId !in r.reg.socketToRoom {
      assert r.queue[j] in r.queue;
      var i :| 0 <= i < |c.queue| && c.queue[i] == r.queue[j];
    }
  }

  lemma LeaveCurrentRoomPreservesWf(c: Core, sid: Id)
    requires Wf(c)
    ensures Wf(LeaveCurrentRoom(c, sid).0)
  {
    if sid in c.reg.socketToRoom {
      LeaveRoomInRoom(c.reg, sid);
    }
    LeaveRoomPaired(c.reg, sid);
  }

  lemma OnDisconnectPreservesWf(c: Core, sid: Id)
    requires Wf(c)
    ensures Wf(OnDisconnect(c, sid).0)
  {
    RemoveFromQueuePreservesWf(c, sid);
    LeaveCurrentRoomPreservesWf(RemoveFromQueue(c, sid), sid);
  }

  lemma FindMatchPreservesWf(c: Core, sid: Id, roomId: Id, createdAt: int)
    requires Wf(c) && roomId !in c.reg.rooms
    ensures Wf(FindMatch(c, sid, roomId, createdAt).0)
  {
    var m := FindMatch(c, sid, roomId, createdAt).1;
    if m.Some? {
      CommitPreservesLibraryWf(c, Get(c.queue, sid).value, m.value.partner, roomId, createdAt);
    }
  }

  lemma CommitPreservesLibraryWf(c: Core, user: QueuedUser, partner: QueuedUser, roomId: Id, createdAt: int)
    requires Wf(c) && roomId !in c.reg.rooms
    requires user in c.queue && partner in c.queue && user.socketId != partner.socketId
    ensures Wf(Commit(c, user, partner, roomId, createdAt, LIBRARY_CAP).0)
  {
    CommitPreservesWf(c, user, partner, roomId, createdAt, LIBRARY_CAP);
    QueuedNotInRoom(c, user);
    QueuedNotInRoom(c, partner);
    CommitPaired(c, user, partner, roomId, createdAt);
    CommitExclusive(c, user, partner, roomId, createdAt);
  }

  lemma QueuedNotInRoom(c: Core, user: QueuedUser)
    requires Exclusive(c) && user in c.queue
    ensures user.socketId !in c.reg.socketToRoom
  {
    var i :| 0 <= i < |c.queue| && c.queue[i] == user;
  }

  lemma CommitPaired(c: Core, user: QueuedUser, partner: QueuedUser, roomId: Id, createdAt: int)
    requires Consistent(c.reg) && Paired(c.reg) && roomId !in c.reg.rooms
    requires user.socketId != partner.socketId
    requires user.socketId !in c.reg.socketToRoom && partner.socketId !in c.reg.socketToRoom
    ensures Paired(Commit(c, user, partner, roomId, createdAt, LIBRARY_CAP).0.reg)
  {
    var room := Room(roomId, user.socketId, partner.socketId, createdAt);
    OpenPreserves(c.reg, room);
    assert Commit(c, user, partner, roomId, createdAt, LIBRARY_CAP).0.reg == Open(c.reg, room);
  }

  lemma CommitExclusive(c: Core, user: QueuedUser, partner: QueuedUser, roomId: Id, createdAt: int)
    requires Exclusive(c)
    ensures Exclusive(Commit(c, user, partner, roomId, createdAt, LIBRARY_CAP).0)
  {
    var c' := Commit(c, user, partner, roomId, createdAt, LIBRARY_CAP).0;
    var room := Room(roomId, user.socketId, partner.socketId, createdAt);
    assert c'.reg == Open(c.reg, room);
    ExclusiveAfterOpen(c, c'.queue, room);
  }

  /** Entries taken from an exclusive queue, other than the two new room members, are in no
      room after the room opens. */
  lemma ExclusiveAfterOpen(c: Core, q: seq<QueuedUser>, room: Room)
    requires Exclusive(c)
    requires forall v :: v in q ==> v in c.queue && v.socketId != room.first && v.socketId != room.second
    ensures Exclusive(Core(q, Open(c.reg, room), c.history))
  {
    forall j | 0 <= j < |q| ensures q[j].socketId !in Open(c.reg, room).socketToRoom {
      assert q[j] in q;
      QueuedNotInRoom(c, q[j]);
    }
  }
}

=== FILE: session.dfy ===
/** The client's session glue (hooks/useChat.ts): the socket handlers that drive the store,
    the user actions, and the typing-indicator flag with its timer. The peer-link record is
    the WebRTC model's; emitted socket events are returned in order. */
module Session {
  import opened Basics
  import opened Protocol
  import opened Text
  import opened ChatStore
  import WebRtc

  /** The store, the peer-link record, and the hook's refs: is there a socket, the typing
      flag, and the room captured by the pending typing timer (`None` when no timer is
      pending). */
  datatype Chat = Chat(store: Store, rtc: WebRtc.Rtc, socket: bool, typing: bool, timer: Option<Id>)

  datatype Out = Out(chat: Chat, emitted: seq<ClientEvent>)

  const MATCH_GREETING := "You are now chatting with a stranger. Say hi!"
  const STRANGER_LEFT := "Stranger has disconnected."

  /** `socket && roomId`: the guard of every room-scoped action. */
  predicate InRoom(c: Chat) {
    c.socket && c.store.roomId.Some?
  }

  // ---------------------------------------------------------------- typing indicator

  /** `notifyTyping`: the first keystroke raises the flag and emits `typing:start`; every
      keystroke re-arms the timer with the current room. */
  function NotifyTyping(c: Chat): (r: Out)
    ensures !InRoom(c) ==> r == Out(c, [])
    ensures InRoom(c) ==>
              && r.chat == c.(typing := true, timer := c.store.roomId)
              && (!c.typing ==> r.emitted == [TypingStart(c.store.roomId.value)])
              && (c.typing ==> r.emitted == [])
  {
    if !InRoom(c) then Out(c, [])
    else
      var room := c.store.roomId.value;
      Out(c.(typing := true, timer := Some(room)), if c.typing then [] else [TypingStart(room)])
  }

  /** The typing timer fires: `typing:stop` for the room it captured, only if the flag is
      still up; then the flag is down. */
  function TimerFires(c: Chat): (r: Out)
    ensures c.timer.None? ==> r == Out(c, [])
    ensures c.timer.Some? ==>
              && r.chat == c.(typing := false, timer := None)
              && (c.typing ==> r.emitted == [TypingStop(c.timer.value)])
              && (!c.typing ==> r.emitted == [])
  {
    match c.timer
    case None => Out(c, [])
    case Some(room) =>
      Out(c.(typing := false, timer := None), if c.typing then [TypingStop(room)] else [])
  }

  // ---------------------------------------------------------------- user actions

  /** `sendMessage(content)`: blank content, no socket or no room does nothing. Otherwise
      stop typing first, append the trimmed text as one sent message of mine, and emit it. */
  function SendMessage(c: Chat, content: string, messageId: Id, localId: Id, timestamp: int): (r: Out)
    ensures !InRoom(c) || Trim(content) == "" ==> r == Out(c, [])
    ensures InRoom(c) && Trim(content) != "" ==>
              var room := c.store.roomId.value;
              && !r.chat.typing && r.chat.timer == c.timer && r.chat.rtc == c.rtc
              && r.emitted == (if c.typing then [TypingStop(room)] else [])
                              + [MessageSend(room, Trim(content), messageId, timestamp)]
              && r.chat.store.messages == c.store.messages
                   + [Message(localId, TextMessage, Trim(content), Me, timestamp, Some(Sent))]
              && r.chat.store.(messages := c.store.messages) == c.store
              && r.chat.(store := c.store, typing := c.typing) == c
  {
    if !InRoom(c) || Trim(content) == "" then Out(c, [])
    else
      var room := c.store.roomId.value;
      var text := Trim(content);
      var stop := if c.typing then [TypingStop(room)] else [];
      var store := AddMessage(c.store, Draft(TextMessage, text, Me, timestamp, Some(Sent)), localId);
      Out(c.(typing := false, store := store), stop + [MessageSend(room, text, messageId, timestamp)])
  }

  /** `startChat`: wait, and join the queue with the stored interests. */
  function StartChat(c: Chat): (r: Out)
    ensures !c.socket ==> r == Out(c, [])
    ensures c.socket ==>
              r.chat == c.(store := SetUserStatus(c.store, UserWaiting))
              && r.emitted == [QueueJoin(c.store.interests)]
  {
    if !c.socket then Out(c, [])
    else Out(c.(store := SetUserStatus(c.store, UserWaiting)), [QueueJoin(c.store.interests)])
  }

  /** `nextChat`: tear the call down, emit `chat:next` then `queue:join`, reset the store
      and wait. The interests survive the reset and are the ones sent. The typing flag and
      timer are left as they were. */
  function NextChat(c: Chat): (r: Out)
    ensures !c.socket ==> r == Out(c, [])
    ensures c.socket ==>
              && r.emitted == [ChatNext, QueueJoin(c.store.interests)]
              && r.chat.store == SetUserStatus(Reset(c.store), UserWaiting)
              && r.chat.store.interests == c.store.interests && r.chat.store.theme == c.store.theme
              && r.chat.store.roomId.None? && r.chat.store.messages == []
              && r.chat.rtc == WebRtc.Cleanup(c.rtc).rtc
              && r.chat.(store := c.store, rtc := c.rtc) == c
  {
    if !c.socket then Out(c, [])
    else
      var store := SetUserStatus(Reset(c.store), UserWaiting);
      Out(c.(rtc := WebRtc.Cleanup(c.rtc).rtc, store := store),
          [ChatNext, QueueJoin(store.interests)])
  }

  /** `disconnect`: tear the call down, leave the room if there is one or else the queue,
      cancel the typing timer, reset the store and go idle. */
  function Disconnect(c: Chat): (r: Out)
    ensures !c.socket ==> r == Out(c, [])
    ensures c.socket && c.store.roomId.Some? ==> r.emitted == [ChatDisconnect(c.store.roomId.value)]
    ensures c.socket && c.store.roomId.None? ==> r.emitted == [QueueLeave]
    ensures c.socket ==>
              && r.chat.store == SetUserStatus(Reset(c.store), UserIdle)
              && r.chat.rtc == WebRtc.Cleanup(c.rtc).rtc
              && r.chat.timer.None?
              && r.chat.(store := c.store, rtc := c.rtc, timer := c.timer) == c
  {
    if !c.socket then Out(c, [])
    else
      var leave := match c.store.roomId
        case Some(room) => [ChatDisconnect(room)]
        case None => [QueueLeave];
      Out(c.(rtc := WebRtc.Cleanup(c.rtc).rtc, timer := None,
             store := SetUserStatus(Reset(c.store), UserIdle)),
          leave)
  }

  // ---------------------------------------------------------------- server events

  /** `match:found`: record the room and role, go connected, and start a fresh transcript
      holding only the greeting. Getting media and starting the call follow
      asynchronously and are separate steps of the WebRTC model. */
  function OnMatchFound(c: Chat, roomId: Id, isInitiator: bool, id: Id, now: int): (r: Chat)
    ensures r.store.roomId == Some(roomId) && r.store.isInitiator == isInitiator
    ensures r.store.userStatus == UserConnected
    ensures r.store.messages == [Message(id, SystemMessage, MATCH_GREETING, SystemSender, now, None)]
    ensures r.rtc == c.rtc && r.typing == c.typing && r.timer == c.timer
    ensures r.store.interests == c.store.interests && r.store.isTyping == c.store.isTyping
    ensures r.(store := c.store) == c
    ensures r.store.(roomId := c.store.roomId, isInitiator := c.store.isInitiator,
                     userStatus := c.store.userStatus, messages := c.store.messages) == c.store
  {
    var s1 := SetRoom(c.store, Some(roomId), Some(isInitiator));
    var s2 := SetUserStatus(s1, UserConnected);
    var s3 := ClearMessages(s2);
    c.(store := AddSystemMessage(s3, MATCH_GREETING, id, now))
  }

  /** `chat:stranger_disconnected`: note it in the transcript, tear the call down, and go
      idle with no room and no typing indicator. The transcript is kept. The teardown's
      idle report reaches the store through `onConnectionStatusChange`. */
  function OnStrangerDisconnected(c: Chat, id: Id, now: int): (r: Chat)
    ensures r.store.roomId.None? && !r.store.isInitiator
    ensures r.store.userStatus == UserIdle && !r.store.isTyping
    ensures r.store.connectionStatus == Idle
    ensures r.store.messages == c.store.messages + [Message(id, SystemMessage, STRANGER_LEFT, SystemSender, now, None)]
    ensures r.rtc == WebRtc.Cleanup(c.rtc).rtc
    ensures r.store.interests == c.store.interests && r.store.theme == c.store.theme
    ensures r.(store := c.store, rtc := c.rtc) == c
    ensures r.store.(roomId := c.store.roomId, isInitiator := c.store.isInitiator,
                     userStatus := c.store.userStatus, isTyping := c.store.isTyping,
                     connectionStatus := c.store.connectionStatus, messages := c.store.messages) == c.store
  {
    var cleaned := WebRtc.Cleanup(c.rtc);
    var s1 := AddSystemMessage(c.store, STRANGER_LEFT, id, now);
    var s2 := ForwardStatus(s1, cleaned.effects);
    var s3 := SetRoom(s2, None, None);
    var s4 := SetUserStatus(s3, UserIdle);
    c.(rtc := cleaned.rtc, store := SetTyping(s4, false))
  }

  /** `onConnectionStatusChange` is the store's `setConnectionStatus`: each status the peer
      link reports is written to the store in turn, so the last report wins and nothing
      else in the store changes. */
  function ForwardStatus(s: Store, effects: seq<WebRtc.Effect>): (r: Store)
    ensures r.(connectionStatus := s.connectionStatus) == s
    ensures |effects| > 0 && effects[|effects| - 1].StatusChanged? ==>
              r.connectionStatus == effects[|effects| - 1].status
    ensures (forall i :: 0 <= i < |effects| ==> !effects[i].StatusChanged?) ==> r == s
    decreases |effects|
  {
    if |effects| == 0 then s
    else
      var s1 := match effects[0]
        case StatusChanged(status) => SetConnectionStatus(s, status)
        case _ => s;
      ForwardStatus(s1, effects[1..])
  }

  /** Once the stranger has left there is no room, so keystrokes and sends emit nothing
      and leave the session as it is. */
  lemma StrangerLeftSilences(c: Chat, id: Id, now: int, content: string, messageId: Id,
                             localId: Id, timestamp: int)
    ensures var r := OnStrangerDisconnected(c, id, now);
            && NotifyTyping(r) == Out(r, [])
            && SendMessage(r, content, messageId, localId, timestamp) == Out(r, [])
  {
  }

  /** After a match, with a socket, the first keystroke announces typing in the new room
      and a non-blank send goes to that room. */
  lemma MatchOpensChat(c: Chat, roomId: Id, isInitiator: bool, id: Id, now: int,
                       content: string, messageId: Id, localId: Id, timestamp: int)
    requires c.socket
    ensures var r := OnMatchFound(c, roomId, isInitiator, id, now);
            && (!c.typing ==> NotifyTyping(r).emitted == [TypingStart(roomId)])
            && (Trim(content) != "" ==>
                  var sent := SendMessage(r, content, messageId, localId, timestamp).emitted;
                  |sent| >= 1 && sent[|sent| - 1] == MessageSend(roomId, Trim(content), messageId, timestamp))
  {
  }

  /** `queue:waiting`. */
  function OnQueueWaiting(c: Chat): (r: Chat)
    ensures r == c.(store := c.store.(userStatus := UserWaiting))
  {
    c.(store := SetUserStatus(c.store, UserWaiting))
  }

  /** `message:receive`: append the stranger's message as delivered. */
  function OnMessageReceive(c: Chat, content: string, timestamp: int, id: Id): (r: Chat)
    ensures r.store.messages == c.store.messages + [Message(id, TextMessage, content, Stranger, timestamp, Some(Delivered))]
    ensures r.store.(messages := c.store.messages) == c.store && r.rtc == c.rtc
    ensures r.(store := c.store) == c
  {
    c.(store := AddMessage(c.store, Draft(TextMessage, content, Stranger, timestamp, Some(Delivered)), id))
  }

  /** `typing:update`. */
  function OnTypingUpdate(c: Chat, isTyping: bool): (r: Chat)
    ensures r.store.isTyping == isTyping && r.store.(isTyping := c.store.isTyping) == c.store
    ensures r.(store := c.store) == c
  {
    c.(store := SetTyping(c.store, isTyping))
  }

  /** `stats:update`. */
  function OnStats(c: Chat, stats: Stats): (r: Chat)
    ensures r.store.onlineCount == stats.online && r.store.waitingCount == stats.waiting
    ensures r.store.chattingCount == stats.chatting && r.store.messages == c.store.messages
    ensures r.store.(onlineCount := c.store.onlineCount, waitingCount := c.store.waitingCount,
                     chattingCount := c.store.chattingCount) == c.store
    ensures r.(store := c.store) == c
  {
    c.(store := SetStats(c.store, stats))
  }

  /** `error`: the server's message becomes a system line prefixed with "Error: ". */
  function OnError(c: Chat, message: string, id: Id, now: int): (r: Chat)
    ensures r.store.messages == c.store.messages + [Message(id, SystemMessage, "Error: " + message, SystemSender, now, None)]
    ensures r.store.(messages := c.store.messages) == c.store && r.(store := c.store) == c
  {
    c.(store := AddSystemMessage(c.store, "Error: " + message, id, now))
  }

  /** `connect_error`: back to idle. */
  function OnConnectError(c: Chat): (r: Chat)
    ensures r.store.userStatus == UserIdle && r.store.(userStatus := c.store.userStatus) == c.store
    ensures r.(store := c.store) == c
  {
    c.(store := SetUserStatus(c.store, UserIdle))
  }

  // ---------------------------------------------------------------- typing traces

  /** What can happen in a room between two server events: keystrokes, the timer, sends. */
  datatype Action = Keystroke | TimerFire | Send(content: string, messageId: Id, localId: Id, timestamp: int)

  function Act(c: Chat, a: Action): Out {
    match a
    case Keystroke => NotifyTyping(c)
    case TimerFire => TimerFires(c)
    case Send(content, messageId, localId, timestamp) => SendMessage(c, content, messageId, localId, timestamp)
  }

  function RunActions(c: Chat, actions: seq<Action>): (r: Out)
    decreases |actions|
  {
    if |actions| == 0 then Out(c, [])
    else
      var o1 := Act(c, actions[0]);
      var o2 := RunActions(o1.chat, actions[1..]);
      Out(o2.chat, o1.emitted + o2.emitted)
  }

  /** A typing event as a signal: true for a start, false for a stop; other events give
      none. */
  function TypingSignal(e: ClientEvent): seq<bool> {
    match e
    case TypingStart(_) => [true]
    case TypingStop(_) => [false]
    case _ => []
  }

  /** The typing signals among the emitted events, in order. */
  function TypingSignals(evs: seq<ClientEvent>): (r: seq<bool>)
    ensures |r| <= |evs|
  {
    if |evs| == 0 then [] else TypingSignal(evs[0]) + TypingSignals(evs[1..])
  }

  lemma {:induction false} TypingSignalsAppend(a: seq<ClientEvent>, b: seq<ClientEvent>)
    ensures TypingSignals(a + b) == TypingSignals(a) + TypingSignals(b)
    decreases |a|
  {
    if |a| == 0 {
      assert a + b == b;
    } else {
      assert (a + b)[0] == a[0];
      assert (a + b)[1..] == a[1..] + b;
      TypingSignalsAppend(a[1..], b);
    }
  }

  /** Starts and stops alternate, beginning with the opposite of the flag. */
  predicate Alternating(bs: seq<bool>, typing: bool)
    decreases |bs|
  {
    |bs| == 0 || (bs[0] == !typing && Alternating(bs[1..], bs[0]))
  }

  /** The flag after the signals: the last one, or the starting flag when there is none. */
  function FinalFlag(bs: seq<bool>, typing: bool): bool {
    if |bs| == 0 then typing else bs[|bs| - 1]
  }

  /** One action emits no typing signal and keeps the flag, or emits exactly the signal
      that flips it. */
  lemma ActFlipsOrKeeps(c: Chat, a: Action)
    ensures var o := Act(c, a);
            || (TypingSignals(o.emitted) == [] && o.chat.typing == c.typing)
            || (TypingSignals(o.emitted) == [!c.typing] && o.chat.typing == !c.typing)
  {
    var o := Act(c, a);
    if a.Send? && InRoom(c) && Trim(a.content) != "" {
      var room := c.store.roomId.value;
      var stop: seq<ClientEvent> := if c.typing then [TypingStop(room)] else [];
      TypingSignalsAppend(stop, [MessageSend(room, Trim(a.content), a.messageId, a.timestamp)]);
    }
  }

  /** Whatever keystrokes, timer firings and sends happen, `typing:start` and
      `typing:stop` alternate, starting with the one that flips the current flag, and the
      flag ends where the last signal left it: the partner's indicator never sees two
      starts or two stops in a row. */
  lemma {:induction false} TypingAlternates(c: Chat, actions: seq<Action>)
    ensures var r := RunActions(c, actions);
            Alternating(TypingSignals(r.emitted), c.typing)
            && r.chat.typing == FinalFlag(TypingSignals(r.emitted), c.typing)
    decreases |actions|
  {
    if |actions| > 0 {
      var o1 := Act(c, actions[0]);
      var o2 := RunActions(o1.chat, actions[1..]);
      ActFlipsOrKeeps(c, actions[0]);
      TypingAlternates(o1.chat, actions[1..]);
      TypingSignalsAppend(o1.emitted, o2.emitted);
      var rest := TypingSignals(o2.emitted);
      if TypingSignals(o1.emitted) != [] {
        var all := [!c.typing] + rest;
        assert all[0] == !c.typing && all[1..] == rest;
        assert Alternating(rest, !c.typing);
        assert Alternating(all, c.typing);
      } else {
        assert TypingSignals(o1.emitted) + rest == rest;
      }
    }
  }
}

=== FILE: store.dfy ===
/** The client's chat store (lib/store/chatStore.ts): one record and its reducer actions.
    Fresh message ids and clock readings are parameters. */
module ChatStore {
  import opened Basics
  import opened Protocol

  datatype UserStatus = UserIdle | UserWaiting | UserConnected | UserDisconnected
  datatype Theme = Dark | Light
  datatype MessageType = TextMessage | SystemMessage | ErrorMessage
  datatype Sender = Me | Stranger | SystemSender
  datatype Delivery = Sending | Sent | Delivered

  /** A transcript entry. */
  datatype Message = Message(id: Id, kind: MessageType, content: string, sender: Sender,
                             timestamp: int, status: Option<Delivery>)

  /** A message before `addMessage` gives it an id. */
  datatype Draft = Draft(kind: MessageType, content: string, sender: Sender, timestamp: int,
                         status: Option<Delivery>)

  datatype Store = Store(
    userStatus: UserStatus,
    connectionStatus: ConnectionStatus,
    theme: Theme,
    roomId: Option<Id>,
    isInitiator: bool,
    messages: seq<Message>,
    isTyping: bool,
    onlineCount: int,
    waitingCount: int,
    chattingCount: int,
    interests: seq<string>)

  /** `initialState`. */
  const Initial := Store(UserIdle, Idle, Dark, None, false, [], false, 0, 0, 0, [])

  function SetUserStatus(s: Store, status: UserStatus): (r: Store)
    ensures r.userStatus == status && r.(userStatus := s.userStatus) == s
  {
    s.(userStatus := status)
  }

  function SetConnectionStatus(s: Store, status: ConnectionStatus): (r: Store)
    ensures r.connectionStatus == status && r.(connectionStatus := s.connectionStatus) == s
  {
    s.(connectionStatus := status)
  }

  function SetTheme(s: Store, theme: Theme): (r: Store)
    ensures r.theme == theme && r.(theme := s.theme) == s
  {
    s.(theme := theme)
  }

  /** `setRoom(roomId, isInitiator = false)`: an omitted flag is `None` and means false. */
  function SetRoom(s: Store, roomId: Option<Id>, isInitiator: Option<bool>): (r: Store)
    ensures r.roomId == roomId
    ensures r.isInitiator <==> isInitiator == Some(true)
    ensures r.(roomId := s.roomId, isInitiator := s.isInitiator) == s
  {
    s.(roomId := roomId, isInitiator := if isInitiator.Some? then isInitiator.value else false)
  }

  /** `addMessage(msg)`: append with a fresh id. */
  function AddMessage(s: Store, d: Draft, id: Id): (r: Store)
    ensures |r.messages| == |s.messages| + 1
    ensures r.messages[..|s.messages|] == s.messages
    ensures var m := r.messages[|s.messages|];
            m.id == id && m.kind == d.kind && m.content == d.content && m.sender == d.sender
            && m.timestamp == d.timestamp && m.status == d.status
    ensures r.(messages := s.messages) == s
  {
    s.(messages := s.messages + [Message(id, d.kind, d.content, d.sender, d.timestamp, d.status)])
  }

  /** `addSystemMessage(content)`: append a system entry from the system sender. */
  function AddSystemMessage(s: Store, content: string, id: Id, now: int): (r: Store)
    ensures |r.messages| == |s.messages| + 1
    ensures r.messages[..|s.messages|] == s.messages
    ensures r.messages[|s.messages|] == Message(id, SystemMessage, content, SystemSender, now, None)
    ensures r.(messages := s.messages) == s
  {
    AddMessage(s, Draft(SystemMessage, content, SystemSender, now, None), id)
  }

  function ClearMessages(s: Store): (r: Store)
    ensures r.messages == [] && r.(messages := s.messages) == s
  {
    s.(messages := [])
  }

  function SetTyping(s: Store, isTyping: bool): (r: Store)
    ensures r.isTyping == isTyping && r.(isTyping := s.isTyping) == s
  {
    s.(isTyping := isTyping)
  }

  /** `setStats`: copy the three counters, nothing else. */
  function SetStats(s: Store, stats: Stats): (r: Store)
    ensures r.onlineCount == stats.online && r.waitingCount == stats.waiting
    ensures r.chattingCount == stats.chatting
    ensures r.(onlineCount := s.onlineCount, waitingCount := s.waitingCount,
               chattingCount := s.chattingCount) == s
  {
    s.(onlineCount := stats.online, waitingCount := stats.waiting, chattingCount := stats.chatting)
  }

  function SetInterests(s: Store, interests: seq<string>): (r: Store)
    ensures r.interests == interests && r.(interests := s.interests) == s
  {
    s.(interests := interests)
  }

  /** `reset()`: every field back to `initialState` except the theme and the interests,
      which keep their current values. */
  function Reset(s: Store): (r: Store)
    ensures r.theme == s.theme && r.interests == s.interests
    ensures r.(theme := Initial.theme, interests := Initial.interests) == Initial
  {
    Initial.(theme := s.theme, interests := s.interests)
  }

  /** Resetting twice is resetting once, and a reset forgets everything but the
      preferences: two stores with the same theme and interests reset to the same store. */
  lemma ResetForgets(s: Store, t: Store)
    ensures Reset(Reset(s)) == Reset(s)
    ensures s.theme == t.theme && s.interests == t.interests ==> Reset(s) == Reset(t)
  {
  }
}

=== FILE: text.dfy ===
/** String helpers the coordinator and the client share: ECMAScript `trim`, ASCII
    `toLowerCase`, and the server's `sanitizeMessage` (server/index.js:132-140). */
module Text {
  import opened Basics

  /** Characters removed by ECMAScript `String.prototype.trim`: the WhiteSpace and
      LineTerminator productions. */
  predicate IsSpace(c: char) {
    || c == '\U{0009}' || c == '\U{000A}' || c == '\U{000B}' || c == '\U{000C}'
    || c == '\U{000D}' || c == '\U{0020}' || c == '\U{00A0}' || c == '\U{1680}'
    || ('\U{2000}' <= c <= '\U{200A}')
    || c == '\U{2028}' || c == '\U{2029}' || c == '\U{202F}' || c == '\U{205F}'
    || c == '\U{3000}' || c == '\U{FEFF}'
  }

  predicate IsUpper(c: char) {
    'A' <= c <= 'Z'
  }

  function LowerChar(c: char): (r: char)
    ensures !IsUpper(r)
    ensures IsSpace(r) <==> IsSpace(c)
    ensures !IsUpper(c) ==> r == c
  {
    if IsUpper(c) then (c as int + 32) as char else c
  }

  /** `toLowerCase`, restricted to the ASCII letters. */
  function Lower(s: string): (r: string)
    ensures |r| == |s|
    ensures forall i :: 0 <= i < |r| ==> r[i] == LowerChar(s[i])
  {
    seq(|s|, i requires 0 <= i < |s| => LowerChar(s[i]))
  }

  predicate NoUpper(s: string) {
    forall i :: 0 <= i < |s| ==> !IsUpper(s[i])
  }

  /** Neither end of `s` is a space. */
  predicate Trimmed(s: string) {
    |s| == 0 || (!IsSpace(s[0]) && !IsSpace(s[|s| - 1]))
  }

  /** Drops leading spaces: the result is the suffix of `s` that starts at the first
      non-space character. */
  function TrimStart(s: string): (r: string)
    ensures |r| <= |s| && r == s[|s| - |r|..]
    ensures forall i :: 0 <= i < |s| - |r| ==> IsSpace(s[i])
    ensures |r| > 0 ==> !IsSpace(r[0])
  {
    if |s| > 0 && IsSpace(s[0]) then TrimStart(s[1..]) else s
  }

  /** Drops trailing spaces: the result is the prefix of `s` that ends at the last
      non-space character. */
  function TrimEnd(s: string): (r: string)
    ensures |r| <= |s| && r == s[..|r|]
    ensures forall i :: |r| <= i < |s| ==> IsSpace(s[i])
    ensures |r| > 0 ==> !IsSpace(r[|r| - 1])
  {
    if |s| > 0 && IsSpace(s[|s| - 1]) then TrimEnd(s[..|s| - 1]) else s
  }

  /** How many spaces `trim` removes from the front of `s`. */
  function LeadingSpaces(s: string): nat {
    |s| - |TrimStart(s)|
  }

  lemma TrimEndOfSuffix(s: string, t: string, r: string)
    requires |t| <= |s| && t == s[|s| - |t|..]
    requires |r| <= |t| && r == t[..|r|]
    requires forall i :: |r| <= i < |t| ==> IsSpace(t[i])
    ensures r == s[|s| - |t|..|s| - |t| + |r|]
    ensures forall i :: |s| - |t| + |r| <= i < |s| ==> IsSpace(s[i])
  {
    var a := |s| - |t|;
    forall i | a + |r| <= i < |s| ensures IsSpace(s[i]) {
      assert s[i] == t[i - a];
    }
  }

  /** `String.prototype.trim`: the infix of `s` left after removing the spaces at both
      ends, and nothing else. */
  function Trim(s: string): (r: string)
    ensures Trimmed(r)
    ensures LeadingSpaces(s) + |r| <= |s|
    ensures r == s[LeadingSpaces(s)..LeadingSpaces(s) + |r|]
    ensures forall i :: 0 <= i < LeadingSpaces(s) ==> IsSpace(s[i])
    ensures forall i :: LeadingSpaces(s) + |r| <= i < |s| ==> IsSpace(s[i])
  {
    var t := TrimStart(s);
    var r := TrimEnd(t);
    TrimEndOfSuffix(s, t, r);
    r
  }

  lemma TrimKeepsChars(s: string, p: char -> bool)
    requires forall i :: 0 <= i < |s| ==> p(s[i])
    ensures forall i :: 0 <= i < |Trim(s)| ==> p(Trim(s)[i])
  {
    var r := Trim(s);
    var a := LeadingSpaces(s);
    InfixKeepsChars(s, a, a + |r|, p);
  }

  /** A property of every character of `s` holds of every character of an infix. */
  lemma InfixKeepsChars(s: string, a: nat, b: nat, p: char -> bool)
    requires a <= b <= |s|
    requires forall i :: 0 <= i < |s| ==> p(s[i])
    ensures forall i :: 0 <= i < b - a ==> p(s[a..b][i])
  {
    forall i | 0 <= i < b - a ensures p(s[a..b][i]) {
      assert s[a..b][i] == s[a + i];
    }
  }

  lemma {:induction false} TrimOfTrimmed(s: string)
    requires Trimmed(s)
    ensures Trim(s) == s
  {
  }

  /** The per-item normalisation `String(i).toLowerCase().trim()`. */
  function Normalize(s: string): (r: string)
    ensures Trimmed(r)
    ensures NoUpper(r)
  {
    var r := Trim(Lower(s));
    TrimKeepsChars(Lower(s), c => !IsUpper(c));
    r
  }

  lemma LowerOfNoUpper(s: string)
    requires NoUpper(s)
    ensures Lower(s) == s
  {
  }

  /** Every tag is in normal form: non-empty, lower case, trimmed. */
  predicate Clean(tags: seq<string>) {
    forall i :: 0 <= i < |tags| ==> tags[i] != "" && Trimmed(tags[i]) && NoUpper(tags[i])
  }

  /** Normalising twice is normalising once. */
  lemma NormalizeIdempotent(s: string)
    ensures Normalize(Normalize(s)) == Normalize(s)
  {
    var n := Normalize(s);
    LowerOfNoUpper(n);
    TrimOfTrimmed(n);
  }

  // ─── sanitizeMessage ────────────────────────────────────────────────────────

  /** `s.replace(/c/g, rep)` for a one-character pattern. */
  function ReplaceAll(s: string, c: char, rep: string): (r: string)
    ensures forall i :: 0 <= i < |r| ==> r[i] in rep || (r[i] != c && r[i] in s)
  {
    if |s| == 0 then ""
    else (if s[0] == c then rep else [s[0]]) + ReplaceAll(s[1..], c, rep)
  }

  lemma {:induction false} ReplaceAllAppend(a: string, b: string, c: char, rep: string)
    ensures ReplaceAll(a + b, c, rep) == ReplaceAll(a, c, rep) + ReplaceAll(b, c, rep)
  {
    if |a| == 0 {
      assert a + b == b;
    } else {
      assert (a + b)[1..] == a[1..] + b;
      ReplaceAllAppend(a[1..], b, c, rep);
    }
  }

  /** The three replacements in source order: `<`, then `>`, then `&`. The last pass also
      rewrites the ampersands the first two introduced. */
  function EscapePasses(s: string): string {
    ReplaceAll(ReplaceAll(ReplaceAll(s, '<', "&lt;"), '>', "&gt;"), '&', "&amp;")
  }

  /** What the three passes do to a single character, as an independent definition. */
  function EscapeChar(c: char): string {
    if c == '<' then "&amp;lt;"
    else if c == '>' then "&amp;gt;"
    else if c == '&' then "&amp;"
    else [c]
  }

  /** Per-character reference escaping. */
  function Escaped(s: string): string {
    if |s| == 0 then "" else EscapeChar(s[0]) + Escaped(s[1..])
  }

  lemma {:induction false} ReplaceAllNoHit(s: string, c: char, rep: string)
    requires c !in s
    ensures ReplaceAll(s, c, rep) == s
  {
    if |s| > 0 {
      assert s == [s[0]] + s[1..];
      ReplaceAllNoHit(s[1..], c, rep);
    }
  }

  /** A replacement pass over a string that starts with an ampersand. */
  lemma ReplaceAmpersandFirst(tail: string)
    requires '&' !in tail
    ensures ReplaceAll("&" + tail, '&', "&amp;") == "&amp;" + tail
  {
    assert ("&" + tail)[1..] == tail;
    ReplaceAllNoHit(tail, '&', "&amp;");
  }

  lemma ReplaceAllHit(c: char, rep: string)
    ensures ReplaceAll([c], c, rep) == rep
  {
    assert [c][1..] == "";
    assert ReplaceAll([c], c, rep) == rep + ReplaceAll("", c, rep);
  }

  lemma EscapePassesLt()
    ensures EscapePasses("<") == "&amp;lt;"
  {
    ReplaceAllHit('<', "&lt;");
    LtPassesGt();
    ReplaceAmpersandFirst("lt;");
    assert "&amp;" + "lt;" == "&amp;lt;";
  }

  /** The `>` pass leaves `&lt;` alone. */
  lemma LtPassesGt()
    ensures ReplaceAll("&lt;", '>', "&gt;") == "&" + "lt;"
  {
    var lt := "&lt;";
    assert lt == ['&', 'l', 't', ';'];
    ReplaceAllNoHit(lt, '>', "&gt;");
  }

  lemma EscapePassesGt()
    ensures EscapePasses(">") == "&amp;gt;"
  {
    ReplaceAllNoHit(">", '<', "&lt;");
    ReplaceAllHit('>', "&gt;");
    assert "&gt;" == "&" + "gt;";
    ReplaceAmpersandFirst("gt;");
  }

  lemma EscapePassesChar(c: char)
    ensures EscapePasses([c]) == EscapeChar(c)
  {
    if c == '<' {
      EscapePassesLt();
    } else if c == '>' {
      EscapePassesGt();
    } else {
      ReplaceAllNoHit([c], '<', "&lt;");
      ReplaceAllNoHit([c], '>', "&gt;");
      if c == '&' {
        assert [c] == "&" + "";
        ReplaceAmpersandFirst("");
      } else {
        ReplaceAllNoHit([c], '&', "&amp;");
      }
    }
  }

  /** The three chained replacements agree with per-character escaping, so `<` ends up as
      `&amp;lt;` and `>` as `&amp;gt;`. */
  lemma {:induction false} EscapePassesIsEscaped(s: string)
    ensures EscapePasses(s) == Escaped(s)
  {
    if |s| > 0 {
      var c, rest := s[0], s[1..];
      assert s == [c] + rest;
      ReplaceAllAppend([c], rest, '<', "&lt;");
      var a1, b1 := ReplaceAll([c], '<', "&lt;"), ReplaceAll(rest, '<', "&lt;");
      ReplaceAllAppend(a1, b1, '>', "&gt;");
      var a2, b2 := ReplaceAll(a1, '>', "&gt;"), ReplaceAll(b1, '>', "&gt;");
      ReplaceAllAppend(a2, b2, '&', "&amp;");
      EscapePassesChar(c);
      EscapePassesIsEscaped(rest);
    } else {
      assert EscapePasses(s) == "";
    }
  }

  /** A message payload: only a JavaScript string is accepted as content. */
  datatype Content = Str(s: string) | NotString

  const MAX_MESSAGE_LENGTH: nat := 2000

  /** `sanitizeMessage`: escape, trim, cut to 2000 characters; `''` for a non-string. */
  function Sanitize(content: Content): (r: string)
    ensures content.NotString? ==> r == ""
    ensures content.Str? ==> r == Take(Trim(Escaped(content.s)), MAX_MESSAGE_LENGTH)
    ensures |r| <= MAX_MESSAGE_LENGTH
    ensures forall i :: 0 <= i < |r| ==> r[i] != '<' && r[i] != '>'
  {
    match content
    case NotString => ""
    case Str(s) =>
      EscapedTrimmedNoBrackets(s);
      Take(Trim(EscapePasses(s)), MAX_MESSAGE_LENGTH)
  }

  /** After escaping and trimming no angle bracket is left. */
  lemma EscapedTrimmedNoBrackets(s: string)
    ensures EscapePasses(s) == Escaped(s)
    ensures forall i :: 0 <= i < |Trim(EscapePasses(s))| ==>
              Trim(EscapePasses(s))[i] != '<' && Trim(EscapePasses(s))[i] != '>'
  {
    EscapePassesIsEscaped(s);
    EscapeRemovesBrackets(s);
    TrimKeepsChars(EscapePasses(s), ch => ch != '<' && ch != '>');
  }

  /** No pass puts an angle bracket back. */
  lemma EscapeRemovesBrackets(s: string)
    ensures forall i :: 0 <= i < |EscapePasses(s)| ==> EscapePasses(s)[i] != '<' && EscapePasses(s)[i] != '>'
  {
    var e1 := ReplaceAll(s, '<', "&lt;");
    var e2 := ReplaceAll(e1, '>', "&gt;");
    assert forall i :: 0 <= i < |e2| ==> e2[i] != '<' && e2[i] != '>';
  }
}

=== FILE: webrtc.dfy ===
/** The client's peer-link negotiation (hooks/useWebRTC.ts). The browser's peer connection
    is abstracted to a "remote description applied" flag and the log of network candidates
    handed to it; the hook's refs and state become fields of one record, and every
    callback or continuation is one atomic step returning the new record and its effects.
    The `await` of an offer's `setRemoteDescription` is the one place the hook's flag
    matters across a suspension, so an offer is two steps: `ReceiveOffer` up to that await
    and `OfferApplied` after it. */
module WebRtc {
  import opened Basics
  import opened Protocol

  /** The abstract peer connection: whether a remote description has been applied and the
      candidates given to `addIceCandidate`, in order. */
  datatype Peer = Peer(remoteSet: bool, applied: seq<Blob>)

  /** `peerConnectionRef`, `localStreamRef`, `pendingCandidatesRef`,
      `isSettingRemoteDescriptionRef`, and the hook's state values. Streams are present or
      absent. */
  datatype Rtc = Rtc(
    peer: Option<Peer>,
    localStream: bool,
    pending: seq<Blob>,
    applying: bool,
    remoteStream: bool,
    status: ConnectionStatus,
    videoEnabled: bool,
    audioEnabled: bool,
    mediaError: Option<string>,
    hasMedia: bool)

  const Initial := Rtc(None, false, [], false, false, Idle, true, true, None, false)

  /** The hook's option bag: is there a socket, the room id, and the initiator flag. */
  datatype Options = Options(socket: bool, roomId: Option<Id>, isInitiator: bool)

  /** Effects outside the record: a signal emitted on the socket, the status callback,
      `restartIce`, closing the previous connection, stopping local tracks. */
  datatype Effect =
    | Emit(event: ClientEvent)
    | StatusChanged(status: ConnectionStatus)
    | RestartIce
    | ClosePeer
    | StopTracks

  datatype Out = Out(rtc: Rtc, effects: seq<Effect>)

  /** `socket && roomId`. */
  predicate Ready(o: Options) {
    o.socket && o.roomId.Some?
  }

  // ---------------------------------------------------------------- call set-up

  /** What `startCall` reports before any offer: connecting, then closing the previous
      connection if there was one. */
  function Opening(r: Rtc): seq<Effect> {
    [StatusChanged(Connecting)] + (if r.peer.Some? then [ClosePeer] else [])
  }

  /** `startCall`, with the outcome of `createOffer` + `setLocalDescription` as `offer`
      (`None` when either rejects). A new connection replaces (and closes) any previous one;
      the candidate buffer is not touched. */
  function StartCall(r: Rtc, o: Options, offer: Option<Blob>): (res: Out)
    ensures !Ready(o) ==> res == Out(r, [])
    ensures Ready(o) ==>
              && res.rtc.peer == Some(Peer(false, [])) && res.rtc.remoteStream
              && res.rtc.(status := r.status, peer := r.peer, remoteStream := r.remoteStream) == r
    ensures Ready(o) && !o.isInitiator ==> res.rtc.status == Connecting && res.effects == Opening(r)
    ensures Ready(o) && o.isInitiator && offer.Some? ==>
              res.rtc.status == Connecting &&
              res.effects == Opening(r) + [Emit(SignalSend(o.roomId.value, OFFER, offer.value))]
    ensures Ready(o) && o.isInitiator && offer.None? ==>
              res.rtc.status == Failed && res.effects == Opening(r) + [StatusChanged(Failed)]
  {
    if !Ready(o) then Out(r, [])
    else
      var r1 := r.(status := Connecting, peer := Some(Peer(false, [])), remoteStream := true);
      var opening := Opening(r);
      if !o.isInitiator then Out(r1, opening)
      else match offer
        case Some(b) => Out(r1, opening + [Emit(SignalSend(o.roomId.value, OFFER, b))])
        case None => Out(r1.(status := Failed), opening + [StatusChanged(Failed)])
  }

  /** A call starts by reporting connecting, closes the old connection exactly when there
      was one, and emits nothing but the initiator's own offer. */
  lemma StartCallEffects(r: Rtc, o: Options, offer: Option<Blob>)
    ensures var res := StartCall(r, o, offer);
            && (Ready(o) ==> |res.effects| >= 1 && res.effects[0] == StatusChanged(Connecting))
            && (Ready(o) ==> (r.peer.Some? <==> ClosePeer in res.effects))
            && (forall e :: e in res.effects && e.Emit? ==>
                  Ready(o) && o.isInitiator && offer.Some? && e.event == SignalSend(o.roomId.value, OFFER, offer.value))
  {
  }

  // ---------------------------------------------------------------- incoming signals

  /** The flush loop: every buffered candidate goes to the connection in order and the
      buffer is emptied. */
  function Flush(p: Peer, pending: seq<Blob>): (r: Peer)
    ensures r.applied == p.applied + pending
    ensures r.remoteSet == p.remoteSet
  {
    p.(applied := p.applied + pending)
  }

  /** `handleSignal('offer', …)` up to its first `await`: the "setting remote description"
      flag goes up. */
  function ReceiveOffer(r: Rtc, o: Options): (res: Rtc)
    ensures r.peer.None? || !Ready(o) ==> res == r
    ensures r.peer.Some? && Ready(o) ==> res == r.(applying := true)
  {
    if r.peer.None? || !Ready(o) then r else r.(applying := true)
  }

  /** The rest of the offer path once `setRemoteDescription` settles. On success the flag
      drops, the buffer is flushed, and the answer (if `createAnswer` and
      `setLocalDescription` succeed) is emitted last. On failure the `catch` only logs:
      the flag stays up. */
  function OfferApplied(r: Rtc, o: Options, ok: bool, answer: Option<Blob>): (res: Out)
    ensures r.peer.None? || !Ready(o) || !ok ==> res == Out(r, [])
    ensures r.peer.Some? && Ready(o) && ok ==>
              && res.rtc == r.(applying := false, pending := [],
                               peer := Some(Peer(true, r.peer.value.applied + r.pending)))
              && (answer.Some? ==> res.effects == [Emit(SignalSend(o.roomId.value, ANSWER, answer.value))])
              && (answer.None? ==> res.effects == [])
  {
    if r.peer.None? || !Ready(o) || !ok then Out(r, [])
    else
      var p := Flush(r.peer.value, r.pending).(remoteSet := true);
      var r1 := r.(applying := false, pending := [], peer := Some(p));
      match answer
      case Some(a) => Out(r1, [Emit(SignalSend(o.roomId.value, ANSWER, a))])
      case None => Out(r1, [])
  }

  /** `handleSignal('answer', …)`: apply the remote description and flush. A rejected
      `setRemoteDescription` changes nothing. */
  function ReceiveAnswer(r: Rtc, o: Options, ok: bool): (res: Rtc)
    ensures r.peer.None? || !Ready(o) || !ok ==> res == r
    ensures r.peer.Some? && Ready(o) && ok ==>
              && res.peer == Some(Peer(true, r.peer.value.applied + r.pending))
              && res.pending == [] && res.applying == r.applying
    ensures res.(pending := r.pending, peer := r.peer) == r
  {
    if r.peer.None? || !Ready(o) || !ok then r
    else r.(pending := [], peer := Some(Flush(r.peer.value, r.pending).(remoteSet := true)))
  }

  /** `handleSignal('ice-candidate', c)`: straight to the connection when a remote
      description is in place and no offer is being applied, otherwise to the end of the
      buffer. */
  function ReceiveCandidate(r: Rtc, o: Options, c: Blob): (res: Rtc)
    ensures r.peer.None? || !Ready(o) ==> res == r
    ensures r.peer.Some? && Ready(o) && r.peer.value.remoteSet && !r.applying ==>
              res == r.(peer := Some(r.peer.value.(applied := r.peer.value.applied + [c])))
    ensures r.peer.Some? && Ready(o) && (!r.peer.value.remoteSet || r.applying) ==>
              res == r.(pending := r.pending + [c])
  {
    if r.peer.None? || !Ready(o) then r
    else if r.peer.value.remoteSet && !r.applying then
      r.(peer := Some(r.peer.value.(applied := r.peer.value.applied + [c])))
    else r.(pending := r.pending + [c])
  }

  /** One incoming `signal:receive`, with the outcome of the answer path's
      `setRemoteDescription` as `answerOk`. An unknown type, or a missing connection,
      socket or room, is a no-op. */
  function HandleSignal(r: Rtc, o: Options, kind: string, data: Blob, answerOk: bool): (res: Rtc)
    ensures r.peer.None? || !Ready(o) || !IsSignalType(kind) ==> res == r
    ensures kind == OFFER ==> res.pending == r.pending && res.peer == r.peer
    ensures kind == OFFER && r.peer.Some? && Ready(o) ==> res.applying
    ensures kind == ANSWER && r.peer.Some? && Ready(o) && answerOk ==>
              && res.peer.Some? && res.peer.value.remoteSet && res.pending == []
              && Delivered(res) == Delivered(r)
    ensures kind == ICE_CANDIDATE && r.peer.Some? && Ready(o) && Settled(r) ==>
              res.peer.Some? && Delivered(res) == Delivered(r) + [data]
    ensures kind == ICE_CANDIDATE && r.peer.Some? && Ready(o) ==>
              (r.peer.value.remoteSet && !r.applying <==> res.pending == r.pending)
  {
    if kind == OFFER then ReceiveOffer(r, o)
    else if kind == ANSWER then ReceiveAnswer(r, o, answerOk)
    else if kind == ICE_CANDIDATE then ReceiveCandidate(r, o, data)
    else r
  }

  /** `pc.onicecandidate`: a local candidate is sent to the room as an `ice-candidate`
      signal when there is a socket and a room; the end-of-candidates event is not. */
  function LocalCandidate(o: Options, c: Option<Blob>): (effects: seq<Effect>)
    ensures |effects| <= 1
    ensures effects != [] <==> c.Some? && Ready(o)
    ensures effects != [] ==> effects[0] == Emit(SignalSend(o.roomId.value, ICE_CANDIDATE, c.value))
  {
    if c.Some? && Ready(o) then [Emit(SignalSend(o.roomId.value, ICE_CANDIDATE, c.value))] else []
  }

  // ---------------------------------------------------------------- negotiation traces

  /** The steps of negotiation on an established connection, in arrival order. */
  datatype Step =
    | OfferArrives
    | OfferSettles(ok: bool, answer: Option<Blob>)
    | AnswerArrives(ok: bool)
    | CandidateArrives(c: Blob)

  function Apply(r: Rtc, o: Options, s: Step): Rtc {
    match s
    case OfferArrives => ReceiveOffer(r, o)
    case OfferSettles(ok, answer) => OfferApplied(r, o, ok, answer).rtc
    case AnswerArrives(ok) => ReceiveAnswer(r, o, ok)
    case CandidateArrives(c) => ReceiveCandidate(r, o, c)
  }

  function Run(r: Rtc, o: Options, steps: seq<Step>): Rtc
    decreases |steps|
  {
    if |steps| == 0 then r else Run(Apply(r, o, steps[0]), o, steps[1..])
  }

  /** The step an incoming signal starts: an offer's first half, an answer with its
      outcome, or a candidate; an unknown type starts none. */
  function SignalStep(kind: string, data: Blob, answerOk: bool): (s: Option<Step>)
    ensures s.Some? <==> IsSignalType(kind)
    ensures s == Some(OfferArrives) <==> kind == OFFER
    ensures s.Some? && s.value.CandidateArrives? <==> kind == ICE_CANDIDATE
  {
    if kind == OFFER then Some(OfferArrives)
    else if kind == ANSWER then Some(AnswerArrives(answerOk))
    else if kind == ICE_CANDIDATE then Some(CandidateArrives(data))
    else None
  }

  /** `handleSignal` is the negotiation step its signal starts, so every trace property of
      `Run` holds of the signals the hook handles. */
  lemma HandleSignalIsStep(r: Rtc, o: Options, kind: string, data: Blob, answerOk: bool)
    ensures SignalStep(kind, data, answerOk).None? ==> HandleSignal(r, o, kind, data, answerOk) == r
    ensures SignalStep(kind, data, answerOk).Some? ==>
              HandleSignal(r, o, kind, data, answerOk) == Apply(r, o, SignalStep(kind, data, answerOk).value)
    ensures SignalStep(kind, data, answerOk) == Some(CandidateArrives(data)) <==> kind == ICE_CANDIDATE
  {
  }

  /** The candidates among the steps, in arrival order. */
  function Arrivals(steps: seq<Step>): (r: seq<Blob>)
    ensures |r| <= |steps|
  {
    if |steps| == 0 then []
    else (if steps[0].CandidateArrives? then [steps[0].c] else []) + Arrivals(steps[1..])
  }

  /** Candidates given to the connection, then those still buffered. */
  function Delivered(r: Rtc): seq<Blob>
    requires r.peer.Some?
  {
    r.peer.value.applied + r.pending
  }

  /** Nothing is lost, duplicated or reordered: on an established connection, what has been
      applied followed by what is buffered grows by exactly the arriving candidates, in
      the order they arrived. */
  lemma {:induction false} RunDeliversInOrder(r: Rtc, o: Options, steps: seq<Step>)
    requires r.peer.Some? && Ready(o) && Settled(r)
    ensures Run(r, o, steps).peer.Some?
    ensures Delivered(Run(r, o, steps)) == Delivered(r) + Arrivals(steps)
    decreases |steps|
  {
    if |steps| > 0 {
      var r1 := Apply(r, o, steps[0]);
      ApplyDelivers(r, o, steps[0]);
      ApplyKeepsSettled(r, o, steps[0]);
      RunDeliversInOrder(r1, o, steps[1..]);
      assert Arrivals(steps) == (if steps[0].CandidateArrives? then [steps[0].c] else []) + Arrivals(steps[1..]);
    }
  }

  /** One step moves candidates from the buffer to the connection or adds the arriving
      one, never anything else. A candidate applied directly jumps no queue because a
      settled connection has an empty buffer. */
  lemma ApplyDelivers(r: Rtc, o: Options, s: Step)
    requires r.peer.Some? && Ready(o) && Settled(r)
    ensures Apply(r, o, s).peer.Some?
    ensures Delivered(Apply(r, o, s)) == Delivered(r) + (if s.CandidateArrives? then [s.c] else [])
  {
    match s
    case OfferArrives =>
    case OfferSettles(ok, answer) => SettleDelivers(r, o, ok, answer);
    case AnswerArrives(ok) => AnswerDelivers(r, o, ok);
    case CandidateArrives(c) => CandidateDelivers(r, o, c);
  }

  lemma SettleDelivers(r: Rtc, o: Options, ok: bool, answer: Option<Blob>)
    requires r.peer.Some? && Ready(o)
    ensures var r1 := OfferApplied(r, o, ok, answer).rtc;
            r1.peer.Some? && Delivered(r1) == Delivered(r)
  {
    if ok {
      assert Delivered(OfferApplied(r, o, ok, answer).rtc) == (r.peer.value.applied + r.pending) + [];
    }
  }

  lemma AnswerDelivers(r: Rtc, o: Options, ok: bool)
    requires r.peer.Some? && Ready(o)
    ensures var r1 := ReceiveAnswer(r, o, ok);
            r1.peer.Some? && Delivered(r1) == Delivered(r)
  {
    if ok {
      assert Delivered(ReceiveAnswer(r, o, ok)) == (r.peer.value.applied + r.pending) + [];
    }
  }

  lemma CandidateDelivers(r: Rtc, o: Options, c: Blob)
    requires r.peer.Some? && Ready(o) && Settled(r)
    ensures var r1 := ReceiveCandidate(r, o, c);
            r1.peer.Some? && Delivered(r1) == Delivered(r) + [c]
  {
    if r.peer.value.remoteSet && !r.applying {
      assert r.pending == [];
      assert Delivered(ReceiveCandidate(r, o, c)) == (r.peer.value.applied + [c]) + r.pending;
    }
  }

  /** Once a remote description is in place and no offer is being applied, the buffer is
      empty: a buffered candidate never waits behind a settled connection. */
  predicate Settled(r: Rtc) {
    r.peer.Some? && r.peer.value.remoteSet && !r.applying ==> r.pending == []
  }

  /** The invariant holds at the start, after any `cleanup`, and across a new call. */
  lemma SettledAcrossCalls(r: Rtc, o: Options, offer: Option<Blob>)
    ensures Settled(Initial) && Settled(Cleanup(r).rtc)
    ensures Settled(r) ==> Settled(StartCall(r, o, offer).rtc)
  {
  }

  lemma ApplyKeepsSettled(r: Rtc, o: Options, s: Step)
    requires Settled(r)
    ensures Settled(Apply(r, o, s))
  {
  }

  lemma {:induction false} RunKeepsSettled(r: Rtc, o: Options, steps: seq<Step>)
    requires Settled(r)
    ensures Settled(Run(r, o, steps))
    decreases |steps|
  {
    if |steps| > 0 {
      ApplyKeepsSettled(r, o, steps[0]);
      RunKeepsSettled(Apply(r, o, steps[0]), o, steps[1..]);
    }
  }

  /** An offer whose `setRemoteDescription` rejects leaves the "applying" flag up, and
      nothing but a later successful offer lowers it: every candidate after that is
      buffered, even once an answer has been applied, and neither a new call nor
      `cleanup` resets it. */
  lemma FailedOfferLeavesFlagUp(r: Rtc, o: Options, answer: Option<Blob>, c: Blob, offer: Option<Blob>)
    requires r.peer.Some? && Ready(o)
    ensures var r1 := OfferApplied(ReceiveOffer(r, o), o, false, answer).rtc;
            && r1.applying
            && ReceiveAnswer(r1, o, true).applying
            && ReceiveCandidate(ReceiveAnswer(r1, o, true), o, c).pending ==
               ReceiveAnswer(r1, o, true).pending + [c]
            && Cleanup(r1).rtc.applying
            && StartCall(r1, o, offer).rtc.applying
  {
  }

  // ---------------------------------------------------------------- connection state

  /** `RTCPeerConnection.connectionState`. */
  datatype PeerState = New | PeerConnecting | PeerConnected | Disconnected | PeerFailed | Closed

  /** `onconnectionstatechange`: the status each state maps to; `new` has none. */
  function StatusFor(st: PeerState): Option<ConnectionStatus> {
    match st
    case New => None
    case PeerConnecting => Some(Connecting)
    case PeerConnected => Some(Connected)
    case PeerFailed => Some(Failed)
    case Disconnected => Some(Reconnecting)
    case Closed => Some(Idle)
  }

  /** Apply a connection-state change: report the mapped status, and restart ICE after a
      failure. */
  function OnConnectionState(r: Rtc, st: PeerState): (res: Out)
    ensures st == New ==> res == Out(r, [])
    ensures st != New ==>
              && res.rtc == r.(status := res.rtc.status)
              && |res.effects| >= 1 && res.effects[0] == StatusChanged(res.rtc.status)
    ensures RestartIce in res.effects <==> st == PeerFailed
    ensures st == PeerConnecting ==> res.rtc.status == Connecting
    ensures st == PeerConnected ==> res.rtc.status == Connected
    ensures st == PeerFailed ==> res.rtc.status == Failed
    ensures st == Disconnected ==> res.rtc.status == Reconnecting
    ensures st == Closed ==> res.rtc.status == Idle
  {
    match StatusFor(st)
    case None => Out(r, [])
    case Some(status) =>
      Out(r.(status := status), [StatusChanged(status)] + (if st == PeerFailed then [RestartIce] else []))
  }

  /** `RTCPeerConnection.iceConnectionState`. */
  datatype IceState = IceNew | IceChecking | IceConnected | IceCompleted | IceDisconnected | IceFailed | IceClosed

  /** `oniceconnectionstatechange`: only a failure does anything, a restart. */
  function OnIceState(st: IceState): (effects: seq<Effect>)
    ensures effects != [] <==> st == IceFailed
    ensures forall e :: e in effects ==> e == RestartIce
  {
    if st == IceFailed then [RestartIce] else []
  }

  // ---------------------------------------------------------------- media

  /** The outcome of `getUserMedia`: granted, or rejected with an error name. */
  datatype MediaResult = Granted | Rejected(name: string)

  const PERMISSION_DENIED := "Camera/microphone permission denied. You can still text chat."
  const NO_DEVICE := "No camera or microphone found. You can still text chat."
  const NO_ACCESS := "Could not access media devices. You can still text chat."

  /** `getLocalMedia`: a granted stream becomes the local stream and clears the error; a
      rejection sets a message chosen by the error name and leaves any earlier stream. */
  function GetLocalMedia(r: Rtc, m: MediaResult): (res: Rtc)
    ensures m.Granted? ==> res.localStream && res.hasMedia && res.mediaError.None?
    ensures m.Rejected? ==> !res.hasMedia && res.localStream == r.localStream && res.mediaError.Some?
    ensures m == Rejected("NotAllowedError") ==> res.mediaError == Some(PERMISSION_DENIED)
    ensures m == Rejected("NotFoundError") ==> res.mediaError == Some(NO_DEVICE)
    ensures m.Rejected? && m.name != "NotAllowedError" && m.name != "NotFoundError" ==>
              res.mediaError == Some(NO_ACCESS)
    ensures res.peer == r.peer && res.pending == r.pending && res.status == r.status
    ensures res.(localStream := r.localStream, hasMedia := r.hasMedia, mediaError := r.mediaError) == r
  {
    match m
    case Granted => r.(localStream := true, hasMedia := true, mediaError := None)
    case Rejected(name) =>
      var msg := if name == "NotAllowedError" then PERMISSION_DENIED
                 else if name == "NotFoundError" then NO_DEVICE
                 else NO_ACCESS;
      r.(mediaError := Some(msg), hasMedia := false)
  }

  /** `toggleVideo`: flips the flag when there is a local stream, else nothing. */
  function ToggleVideo(r: Rtc): (res: Rtc)
    ensures r.localStream ==> res == r.(videoEnabled := !r.videoEnabled)
    ensures !r.localStream ==> res == r
  {
    if r.localStream then r.(videoEnabled := !r.videoEnabled) else r
  }

  /** `toggleAudio`. */
  function ToggleAudio(r: Rtc): (res: Rtc)
    ensures r.localStream ==> res == r.(audioEnabled := !r.audioEnabled)
    ensures !r.localStream ==> res == r
  {
    if r.localStream then r.(audioEnabled := !r.audioEnabled) else r
  }

  /** Toggling twice restores the state, and toggling never touches the other flag. */
  lemma ToggleTwice(r: Rtc)
    ensures ToggleVideo(ToggleVideo(r)) == r && ToggleAudio(ToggleAudio(r)) == r
    ensures ToggleVideo(r).audioEnabled == r.audioEnabled && ToggleAudio(r).videoEnabled == r.videoEnabled
  {
  }

  // ---------------------------------------------------------------- teardown

  /** `cleanup`: close the connection and stop the local tracks if they exist, drop both
      streams, report idle and empty the buffer. The "applying" flag is not reset. */
  function Cleanup(r: Rtc): (res: Out)
    ensures res.rtc.peer.None? && !res.rtc.localStream && !res.rtc.remoteStream
    ensures res.rtc.pending == [] && res.rtc.status == Idle
    ensures res.rtc.applying == r.applying
    ensures res.rtc.videoEnabled == r.videoEnabled && res.rtc.audioEnabled == r.audioEnabled
    ensures res.rtc.mediaError == r.mediaError && res.rtc.hasMedia == r.hasMedia
    ensures ClosePeer in res.effects <==> r.peer.Some?
    ensures StopTracks in res.effects <==> r.localStream
    ensures |res.effects| >= 1 && res.effects[|res.effects| - 1] == StatusChanged(Idle)
  {
    var closing := if r.peer.Some? then [ClosePeer] else [];
    var stopping := if r.localStream then [StopTracks] else [];
    Out(r.(peer := None, localStream := false, remoteStream := false, status := Idle, pending := []),
        closing + stopping + [StatusChanged(Idle)])
  }

  /** Cleaning up twice leaves the same record as once, and the second time closes and
      stops nothing. */
  lemma CleanupIdempotent(r: Rtc)
    ensures Cleanup(Cleanup(r).rtc).rtc == Cleanup(r).rtc
    ensures Cleanup(Cleanup(r).rtc).effects == [StatusChanged(Idle)]
  {
  }
}
